=== FILE: README.md ===
# optbyes: the match-ordering engine, in Dafny

optbyes builds the schedule of a single round robin of N teams in which every
team plays its opponents in the order of its own *team priority* (team `k`
gives an ordered tuple of the other teams). It uses as few rounds as
possible. A team that does not play in a round has a bye. The engine has
five parts. This project models each of them and proves what each promises:

1. **Precedence data.** The converter turns a priority into
   - a 0/1 precedence table `arr[k, i, j]`: 1 exactly when `k` wants to meet
     `i` before `j`;
   - an edge list between canonical team pairs `(min, max)`;
   - the pair graph whose nodes are all N(N-1)/2 pairs.

   Modules: `Types`, `Converter`.
2. **The graph-layering algorithm** (`TopologicalSortAlgorithm`). A graph
   with a cycle is infeasible. Otherwise the algorithm plays, round after
   round, every match no remaining match must precede.

   Modules: `Graphs`, `Layering`, `Topological`, `Optimality`.
3. **The round-count search controllers.** Starting from N-1 rounds they
   build a problem for R = N-1, N, … up to a bound and keep the first one the
   solver reports optimal. The bound is N(N-1)/2 or 2N-1, depending on the
   controller.

   Modules: `Search`, `Algorithm`, `Controllers`, `ByesOpt`.
4. **The integer programs.** These are `BaseILP`, `BaseProblem` with the
   consecutive-bye variant, and `Prob`. The model covers:
   - the constraint families (1)-(7), as predicates over 0/1 variable values;
   - the status mapping;
   - the read-back of a solution into a schedule;
   - the bye counters and the status gates.

   Modules: `IntegerProgram`, `IntegerPlanning`, `Problems`, `Schedules`,
   `Sums`.
5. **The priority generator.** It enumerates every priority in which teams
   1..F keep ascending order and the other teams take every ordering of
   their opponents. Module: `Generator`.

Four things tie the parts together (module `Consistency`):
- the integer program for R rounds has a solution exactly when the pair
  graph is acyclic with at most R layers (`FeasibleIffLayered`);
- so a search that consults a sound and complete solver stops exactly at the
  layer count;
- the layer schedule is a round robin that respects every priority;
- no priority-respecting round robin uses fewer rounds.

Module `Instances` applies these to two priorities from the repository's
tests. Each gets its exact layer count, from a schedule that fits it and a
chain of matches that must come one after another. From the count follow
the round count and status the tests expect.

Some names need explaining:
- A schedule is `map<team, map<round, Slot>>`, where a `Slot` is `Bye` or
  `Versus(opponent)`. It stands for the source's `"b"` and `str(j)` cells.
- The status codes are LOADED = 1, OPTIMAL = 2, INFEASIBLE = 3, and
  GRB.OPTIMAL = 2.
- The Gurobi solver is an oracle. A method that solves receives the
  solver's outcome as a parameter. A `SolverOutcome` holds the status,
  whether the solver holds a solution whose values can be read (Gurobi's
  `SolCount > 0`), and the values of x, y and m. A search receives one
  outcome per round count. The solver is assumed to be sound: an OPTIMAL
  answer satisfies the constraints. Where values are read whatever the
  status (`Prob`), every solution the solver holds is assumed to satisfy
  them, and an optimum is such a solution. Completeness is assumed only
  where a lemma says so.
- The same table builder appears four times in the repository. All four
  are modelled by `Converter.ConvertToPriorityArray`, and `TableUnique`
  shows any two tables that meet its contract are equal.
- The generator exists twice, in `optbyes/utils/generator.py` and
  `old/optbyes/utils/utils.py`, with the same logic, and
  `Generator.GeneratedPriorities` models both.
- The earlier controller (`old/optbyes/algorithms/optbyes.py`) differs from
  `OptimizeByes` only in its bound. Its constructor is
  `Controllers.OptimizeByes.NumberOfByes`. Its solve, `_check_status`,
  `get_schedule` and `get_num_rounds` are the same members as
  `OptimizeByes`.

Where the comments and the code disagree, the model follows the code:
- `IterateNumRoundsAlgorithm.solve` bounds the search by N(N-1)/2, although
  the comment at `optbyes/algorithm/algorithm.py:235` says 2n-1.
- `generate_team_priorities` accepts `num_fixed == num_teams`, although its
  error message says "less than".
- The docstring of `generate_team_priorities` lists one priority twice for
  three teams. The model follows the order `itertools.product` produces.

## Model

| member | source | states |
|---|---|---|
| Types.StatusError | optbyes/problem/problem.py:50-57 | LOADED maps to NotRunningSolveMethod and INFEASIBLE to InfeasibleInstance, and only those two; every other status gets the generic error |
| Types.ErrorsEntry | optbyes/_exception.py:12-15 | the ERRORS dictionary has an entry for LOADED and INFEASIBLE only; looking up any other status is a missing key (both directions) |
| Converter.IsPriorityTable | optbyes/utils/converter.py:12-45 | definition: the table is defined exactly on the triples some order puts in sequence and on every triple over the keys, and holds 1 exactly where team k plays a before b, 0 elsewhere |
| Converter.ConvertToPriorityArray | optbyes/utils/converter.py:12-45 | the table is defined on every triple over the priority's keys, is 1 exactly when `a` comes strictly before `b` in team k's order, and is 0 everywhere else (also the builders at optbyes/utils/make_team_priority_array.py:4-21, optbyes/optbyes.py:19-37, byesopt/prob.py:15-34) |
| Converter.MarkOrders | optbyes/utils/converter.py:29-36 | after the marking loops, a triple is present exactly when a precedes b in k's order, and every present triple is 1 |
| Converter.FillKeyCube | optbyes/utils/converter.py:37-44 | the fill loops keep every marked entry and add 0 for every other triple over the keys, and nothing outside them |
| Converter.TableUnique | optbyes/utils/make_team_priority_array.py:4-21 | two tables meeting the table contract for the same priority are equal, so the duplicated builders agree on every input |
| Converter.TableIsStrictOrder | optbyes/utils/converter.py:31-36 | for a well-formed priority, `arr[k,a,a]`, `arr[k,k,a]` and `arr[k,a,k]` are 0; for distinct opponents exactly one of `arr[k,a,b]` and `arr[k,b,a]` is 1; and the relation is transitive |
| Converter.ColumnSumIsPosition | optbyes/utils/converter.py:32-36 | the sum over i of `arr[k,i,j]` is the 0-based position of j in team k's order |
| Converter.Canon | optbyes/utils/converter.py:72-73 | the canonical pair is ordered and holds exactly the two teams |
| Converter.TeamEdges | optbyes/utils/converter.py:69-74 | a team with s opponents contributes s-1 edges, and edge m joins the pair with its m-th opponent to the pair with its (m+1)-th |
| Converter.EdgeList | optbyes/utils/converter.py:67-75 | definition: the teams' edge lists concatenated in dictionary order |
| Converter.ConvertToEdges | optbyes/utils/converter.py:48-75 | the loop emits the teams' edge lists in key order, concatenated |
| Converter.EdgeAt | optbyes/utils/converter.py:67-75 | edge m of the team at key position x sits at the sum of the earlier teams' counts plus m, and is the canonical pair step of that team |
| Converter.EdgeCount | optbyes/utils/converter.py:67-75 | a well-formed priority of N >= 2 teams yields N(N-2) edges |
| Converter.ThreeTeamEdges | optbyes/utils/converter.py:63-65 | the docstring example `{1:(2,3),2:(1,3),3:(1,2)}` yields `[((1,2),(1,3)), ((1,2),(2,3)), ((1,3),(2,3))]` |
| Converter.EdgeListMembers | optbyes/utils/converter.py:67-75 | an edge is in the list exactly when it joins two consecutive pairs of one team's order |
| Converter.TeamEdgesTouch | optbyes/utils/converter.py:72-74 | both ends of a team-t edge contain t, and each end is strictly ordered when t is not in its own order |
| Converter.TeamPathCovers | optbyes/utils/converter.py:70-74 | team t's pairs, in priority order, are exactly the N-1 pairs holding t, each once, and consecutive ones are joined by edges |
| Converter.PairNodes | optbyes/utils/converter.py:93 | definition: the matches (i, j) with 1 <= i < j <= N, i ascending, then j ascending |
| Converter.PairNodesFacts | optbyes/utils/converter.py:93-94 | the node list is exactly the pairs 1 <= i < j <= N, without repeats, N(N-1)/2 of them |
| Converter.BuildGraph | optbyes/utils/converter.py:78-97 | every edge joins two nodes of the graph, and the edges are exactly the listed team edges |
| Converter.GraphNodes | optbyes/utils/converter.py:91-96 | the graph of a well-formed priority has exactly the pairs 1 <= i < j <= N as nodes, isolated ones included, N(N-1)/2 of them |
| Graphs.RemoveNode | optbyes/algorithm/algorithm.py:170 | removing a node drops it and exactly the edges that touch it |
| Graphs.RankedIsAcyclic | optbyes/algorithm/algorithm.py:145-150 | a ranking that increases along every edge makes the graph acyclic (a topological order exists) |
| Graphs.CycleRefutesAcyclic | optbyes/algorithm/algorithm.py:145-150 | a graph with a cycle is not acyclic, so the feasibility test rejects it |
| Layering.Sources | optbyes/algorithm/algorithm.py:164-166 | definition: the nodes of in-degree 0, the matches one pass plays |
| Layering.Peel | optbyes/algorithm/algorithm.py:170 | definition: the graph without the removed nodes and every edge touching them |
| Layering.Layers | optbyes/algorithm/algorithm.py:160-171 | definition: the sources of the graph, then the layers of what remains once they are removed; empty for the empty graph |
| Layering.SourcesNonEmpty | optbyes/algorithm/algorithm.py:160-170 | a non-empty acyclic graph has a node of in-degree 0, so every round removes at least one node and the loop ends |
| Layering.PeelKeeps | optbyes/algorithm/algorithm.py:164-170 | removing any set of nodes from a closed acyclic graph leaves a closed acyclic graph |
| Layering.LayersAreNodes | optbyes/algorithm/algorithm.py:160-171 | every layer is a non-empty set of nodes of the graph |
| Layering.LayersAtMostNodes | optbyes/algorithm/algorithm.py:160-171 | there are at most as many layers as nodes |
| Layering.LayersCover | optbyes/algorithm/algorithm.py:160-171 | every node lies in a layer, and in exactly one |
| Layering.EdgesClimb | optbyes/algorithm/algorithm.py:164-170 | for every edge P -> Q, P lies in a strictly earlier layer than Q |
| Layering.LayerTight | optbyes/algorithm/algorithm.py:164-170 | every node of layer k >= 1 has a predecessor in layer k-1, so no node is played later than it must be |
| Layering.LayeringIsShortest | optbyes/algorithm/algorithm.py:160-171 | any ranking from 1 that increases along every edge gives each node of layer k a rank of at least k+1 |
| Layering.PathClimbs | optbyes/algorithm/algorithm.py:164-170 | along any path the layer strictly increases from start to end |
| Topological.TopologicalSortAlgorithm.IsFeasible | optbyes/algorithm/algorithm.py:145-150 | definition: a topological order of the held graph exists (the graph is acyclic) |
| Topological.TopologicalSortAlgorithm.FromGraph | optbyes/algorithm/algorithm.py:103-123 | the algorithm holds the given graph as a value (the copy), with status LOADED and an empty schedule; the graph is closed (both ends of every edge are nodes, as in any networkx graph), which is what `Solve` requires |
| Topological.TopologicalSortAlgorithm.FromTeamPriority | optbyes/algorithm/algorithm.py:125-143 | the team count is the number of keys and the graph is the converter's pair graph |
| Topological.TopologicalSortAlgorithm.Solve | optbyes/algorithm/algorithm.py:152-171 | a cyclic graph only sets INFEASIBLE, leaving graph and schedule unchanged; an acyclic one sets OPTIMAL and raises a missing key exactly when some match names a team outside 1..N; otherwise it ends with an empty graph, and round r of the schedule plays exactly the r-th layer, every other team having a bye |
| Topological.TopologicalSortAlgorithm.PlayRound | optbyes/algorithm/algorithm.py:161-171 | one round plays the graph's current sources, removes them, and extends the layer schedule by that layer; a missing key comes only from a match with a team outside 1..N |
| Topological.TopologicalSortAlgorithm.MarkByes | optbyes/algorithm/algorithm.py:162-163 | every team gets a bye in the new round and the earlier rounds are unchanged |
| Topological.TopologicalSortAlgorithm.PlaceLayer | optbyes/algorithm/algorithm.py:164-170 | every match of the layer is written into both teams' rows and the layer is removed from the graph, or a missing key is raised for a match of the layer with a team outside 1..N |
| Topological.TopologicalSortAlgorithm.PlaceMatch | optbyes/algorithm/algorithm.py:167-169 | a missing key exactly when a or b is outside 1..N; otherwise a match (a, b) is written as a meeting b and b meeting a, and the earlier rounds are unchanged |
| Topological.EmptyRows | optbyes/algorithm/algorithm.py:158 | the schedule starts with an empty row for each team 1..N |
| Optimality.BuiltGraphFitsTeams | optbyes/utils/converter.py:91-96 | the converter's graph of a well-formed priority is closed, its nodes are team pairs of 1..N (so the layering solver raises no missing key), and it holds every team's path |
| Optimality.TeamOnceInLayer | optbyes/algorithm/algorithm.py:164-169 | no layer holds two matches of the same team, so no cell is overwritten |
| Optimality.LayerScheduleIsRoundRobin | optbyes/algorithm/algorithm.py:158-171 | the layer schedule is a round robin over as many rounds as there are layers: symmetric, no self-play, and each pair meets exactly once |
| Optimality.LayerScheduleRespectsPriority | optbyes/algorithm/algorithm.py:164-170 | every team meets its opponents in the rounds its priority orders them |
| Optimality.LayeringIsFewest | optbyes/algorithm/algorithm.py:160-171 | if a priority-respecting round robin over R rounds exists, the graph is acyclic and has at most R layers |
| Schedules.RoundRobinByes | optbyes/algorithm/algorithm.py:164-169 | in a round robin of N teams over R rounds every team has exactly R-(N-1) byes |
| Schedules.RoundRobinTotalByes | optbyes/problem/problem.py:64-71 | a round robin of N teams over R rounds has N(R-(N-1)) byes in total |
| Algorithm.ScheduleGate | optbyes/algorithm/algorithm.py:37-41 | the schedule is returned exactly when the status is OPTIMAL; otherwise the error ERRORS maps the status to |
| Algorithm.NumRounds | optbyes/algorithm/algorithm.py:82-87 | behind the same gate, the number of rounds is the length of team 1's row, and a schedule without team 1 is a missing key |
| Algorithm.RoundRobinRounds | optbyes/algorithm/algorithm.py:82-87 | in a round robin, team 1's row has exactly one cell per round |
| Algorithm.CountRowByes | optbyes/algorithm/algorithm.py:76-79 | the loop counts exactly the bye cells of a row |
| Algorithm.ZeroCounts | optbyes/algorithm/algorithm.py:75 | the counter has a zero for each team 1..len(schedule) and nothing else |
| Algorithm.TallyByes | optbyes/algorithm/algorithm.py:73-80 | the tally succeeds exactly when every team with a bye is one of 1..len(schedule); then each team's count is its number of byes |
| Algorithm.NumByes | optbyes/algorithm/algorithm.py:71-80 | behind the status gate, the bye count per team, or a missing key when a team with a bye lies outside 1..len(schedule) |
| Algorithm.RoundRobinNumByes | optbyes/algorithm/algorithm.py:71-80 | on a round robin the counter is defined and gives every team R-(N-1) byes |
| Algorithm.IterateNumRoundsAlgorithm.FromTeamPriority | optbyes/algorithm/algorithm.py:189-216 | N is the number of keys, the search starts at N-1 rounds, and the table is the converter's |
| Algorithm.IterateNumRoundsAlgorithm.Solve | optbyes/algorithm/algorithm.py:218-238 | the search over N-1..N(N-1)/2 stops at the first R where building fails or the solver is optimal; it then keeps that R and a read-back round robin, or, with no such R, sets INFEASIBLE |
| Search.FirstOptimal | optbyes/algorithm/algorithm.py:221-234 | the result is the least R in [lo, hi] where the search stops, and none exists exactly when it stops nowhere in range |
| Search.FinalRounds | optbyes/optbyes.py:55-60 | the round count after a search: the first R where it stopped, otherwise one past the bound (2N for OptimizeByes) |
| Search.FirstOptimalMonotone | optbyes/optbyes.py:41 | raising the bound never changes a search that succeeded, so the 2N-1 and N(N-1)/2 controllers agree whenever the smaller bound suffices |
| IntegerProgram.Binary | optbyes/solver/integer_planning_problems/integer_planning_problems.py:101-109 | definition: every x and y variable is 0 or 1 |
| IntegerProgram.NoSelfPlaySymmetric | optbyes/solver/integer_planning_problems/integer_planning_problems.py:119-125 | definition of (1): x[i, i, r] = 0 and x[i, j, r] = x[j, i, r] for all teams and rounds |
| IntegerProgram.MeetOnce | optbyes/solver/integer_planning_problems/integer_planning_problems.py:127-132 | definition of (2): for i != j, the sum of x[i, j, r] over r = 1..R is 1 |
| IntegerProgram.PlayOrBye | optbyes/solver/integer_planning_problems/integer_planning_problems.py:134-138 | definition of (3): 1 minus the sum of x[i, j, r] over j is y[i, r] |
| IntegerProgram.Precedence | optbyes/solver/integer_planning_problems/integer_planning_problems.py:140-147 | definition of (4): for r >= 2, arr[k, i, j] times the sum of x[k, i, 1..r-1] is at least arr[k, i, j] times x[k, j, r] |
| IntegerProgram.FirstRound | optbyes/solver/integer_planning_problems/integer_planning_problems.py:149-154 | definition of (5): N(1 - x[k, j, 1]) is at least the sum of arr[k, i, j] over i |
| IntegerProgram.AtMostOne | optbyes/solver/integer_planning_problems/integer_planning_problems.py:156-160 | definition of (6): the sum of x[i, j, r] over j is at most 1 |
| IntegerProgram.Feasible | optbyes/solver/integer_planning_problems/integer_planning_problems.py:111-117 | definition: a table defined on every triple of teams 1..N, binary variables, and (1)-(6) all hold |
| IntegerProgram.ConsecutiveByes | optbyes/problem/problem.py:198-207 | definition of (7), as written: binary m[i, r] for r >= 2, and y[i, r-1] <= m[i, r] + y[i, r] |
| IntegerProgram.Objective | optbyes/solver/integer_planning_problems/integer_planning_problems.py:162-166 | definition: the sum of y[i, r] over teams 1..N and rounds 1..R, the minimized objective |
| IntegerProgram.PlayOrByeImpliesAtMostOne | optbyes/solver/integer_planning_problems/integer_planning_problems.py:134-160 | under (3) with 0/1 variables, (6) holds |
| IntegerProgram.CellCases | optbyes/solver/integer_planning_problems/integer_planning_problems.py:134-138 | under (3), a cell either is a bye with no opponent or has exactly one opponent |
| IntegerProgram.FirstRoundMeaning | optbyes/solver/integer_planning_problems/integer_planning_problems.py:149-154 | with a 0/1 table, (5) holds exactly when nobody k ranks before j is meant to have been met when k meets j in round 1 |
| IntegerProgram.PrecedenceMeaning | optbyes/solver/integer_planning_problems/integer_planning_problems.py:140-147 | with a 0/1 table, (4) holds exactly when meeting j in round r >= 2 requires having met every earlier-ranked i in an earlier round |
| IntegerProgram.ConsecutiveByesMeaning | optbyes/problem/problem.py:201-207 | with 0/1 values, (7) holds exactly when a bye followed by a match forces m = 1 |
| IntegerProgram.ByesPerTeam | optbyes/solver/integer_planning_problems/integer_planning_problems.py:127-138 | under (1)-(3) every team has R-(N-1) bye variables set |
| IntegerProgram.ObjectiveIsConstant | optbyes/solver/integer_planning_problems/integer_planning_problems.py:162-166 | on every feasible solution the bye objective equals N(R-(N-1)) |
| IntegerProgram.FourTeamByes | tests/problem/test_base_problem.py:6-33 | for four teams a feasible solution has 8 byes at R=5 and 12 at R=6 |
| IntegerProgram.ReadCell | optbyes/solver/integer_planning_problems/integer_planning_problems.py:180-185 | a cell reads the last opponent j with x = 1, otherwise a bye when y = 1, otherwise nothing |
| IntegerProgram.ReadRow | optbyes/solver/integer_planning_problems/integer_planning_problems.py:179-185 | the row loop writes each round 1..R with the cell's reading, and only those rounds |
| IntegerProgram.ReadSchedule | optbyes/solver/integer_planning_problems/integer_planning_problems.py:178-186 | the read-back has a row for each team 1..N and nothing else |
| IntegerProgram.ReadCellFeasible | optbyes/solver/integer_planning_problems/integer_planning_problems.py:178-185 | on a feasible solution every cell is written: a bye exactly when y = 1, and opponent j exactly when x = 1 |
| IntegerProgram.ReadBackIsRoundRobin | optbyes/solver/integer_planning_problems/integer_planning_problems.py:119-132 | the read-back of a feasible solution is a round robin: symmetric, no self-play, each pair meets exactly once |
| IntegerPlanning.BuildFails | optbyes/solver/integer_planning_problems/integer_planning_problems.py:140-154 | definition: with at least one team, building raises a missing key exactly when there is no round 1 (x[k, j, 1] is read by (5)) or the table misses a triple of teams 1..N |
| IntegerPlanning.BaseILP.constructor | optbyes/solver/integer_planning_problems/integer_planning_problems.py:95-99 | a new model keeps N, R and the table, with status LOADED and an empty schedule |
| IntegerPlanning.BaseILP.Solve | optbyes/solver/integer_planning_problems/integer_planning_problems.py:168-186 | building fails with a missing key exactly when BuildFails; any outcome but GRB.OPTIMAL becomes INFEASIBLE; an optimum becomes OPTIMAL with the read-back rows, a round robin |
| IntegerPlanning.BaseILP.GetStatus | optbyes/solver/integer_planning_problems/integer_planning_problems.py:63-65 | returns the stored status |
| IntegerPlanning.BaseILP.GetSchedule | optbyes/solver/integer_planning_problems/integer_planning_problems.py:67-71 | the schedule only when OPTIMAL; otherwise the ERRORS entry for the status |
| Problems.ConsecutiveObjectiveIgnoresByes | optbyes/problem/problem.py:201-213 | as written, (7) lets m = 1 everywhere, whose objective N(R-1) is the maximum for every y |
| Problems.CorrectedObjectiveCountsBreaks | optbyes/problem/problem.py:201-213 | with the corrected two-sided constraint, m = 1 exactly after a bye followed by a match, and the objective counts those breaks |
| Problems.CountByes | optbyes/problem/problem.py:64-71 | the counting loops succeed exactly when every cell of teams 1..N and rounds 1..R exists, and count the byes among them |
| Problems.CountTeamByes | optbyes/problem/problem.py:68-70 | one team's rounds 1..R: a missing cell is reported, otherwise the byes are counted |
| Problems.RoundRobinCells | optbyes/problem/problem.py:64-71 | a round robin has every cell, and N(R-(N-1)) byes among them |
| Problems.CountRoundRobinByes | optbyes/problem/problem.py:64-71 | on a round robin the count succeeds and is N(R-(N-1)) |
| Problems.Problem.constructor | optbyes/problem/problem.py:16-20 | a new problem keeps the variant, N, R and the table, with status LOADED |
| Problems.Problem.Solve | optbyes/problem/problem.py:167-170 | a failed build raises a missing key and changes nothing; otherwise the status is the solver's raw code and the values are its solution, an optimum satisfying the constraints as written, (7) included |
| Problems.Problem.GetStatus | optbyes/problem/problem.py:45-47 | returns the stored status |
| Problems.Problem.CheckStatus | optbyes/problem/problem.py:49-57 | passes exactly on OPTIMAL, otherwise the error for the status |
| Problems.Problem.GetSchedule | optbyes/problem/problem.py:172-184 | behind the status check, the read-back of the optimum, which is a round robin |
| Problems.Problem.GetNumByes | optbyes/problem/problem.py:63-71 | behind the status check, the bye count of the optimum, N(R-(N-1)) |
| Consistency.TableFitsProgram | optbyes/utils/converter.py:37-44 | the converter's table of a well-formed priority covers every triple of teams 1..N with 0/1 values, so building never fails for R >= 1 |
| Consistency.ReadBackRespectsPriority | optbyes/solver/integer_planning_problems/integer_planning_problems.py:140-154 | the read-back of a feasible solution meets every team's opponents in its priority order |
| Consistency.FeasibleBoundsLayers | optbyes/solver/integer_planning_problems/integer_planning_problems.py:119-160 | a feasible solution for R rounds makes the pair graph acyclic with at most R layers |
| Consistency.RoundRobinIsFeasible | optbyes/solver/integer_planning_problems/integer_planning_problems.py:119-160 | a priority-respecting round robin over at most R rounds gives a solution of (1)-(6) for R rounds |
| Consistency.FeasibleIffLayered | optbyes/solver/integer_planning_problems/integer_planning_problems.py:117-160 | the program for R rounds has a solution exactly when the pair graph is acyclic with at most R layers |
| Consistency.LayerCountRange | optbyes/algorithm/algorithm.py:212-220 | an acyclic pair graph has between N-1 and N(N-1)/2 layers, the search's start and bound |
| Consistency.SearchFindsLayerCount | optbyes/algorithm/algorithm.py:218-238 | with a sound and complete solver the N(N-1)/2 search stops exactly at the layer count when the graph is acyclic, and nowhere otherwise |
| Consistency.BoundedSearchFindsLayerCount | optbyes/optbyes.py:41-60 | with a bound hi, the search finds the layer count exactly when the graph is acyclic with at most hi layers |
| Instances.LayerCountDecides | optbyes/solver/integer_planning_problems/integer_planning_problems.py:119-160 | a priority whose pair graph has k layers has a solution of (1)-(6) in k rounds and none in k-1 |
| Instances.SolverDecides | optbyes/solver/integer_planning_problems/integer_planning_problems.py:168-174 | with a sound and complete solver, such a priority's model is reported optimal in k rounds and not in k-1 (so the status becomes INFEASIBLE there) |
| Instances.ThreeRoundScheduleFits | tests/test_optbyes.py:8 | the schedule 1-2, 3-4 / 1-3, 2-4 / 1-4, 2-3 is a round robin of four teams in three rounds that respects the first priority of the test |
| Instances.ThreeRoundLayers | tests/test_optbyes.py:6-20 | that priority is well formed and its pair graph is acyclic with exactly 3 layers |
| Instances.ThreeRoundSearch | tests/test_optbyes.py:15-20 | with its table and a sound and complete solver, the OptimizeNumberOfByes search over R = 3..7 stops at R = 3, the round count the test expects |
| Instances.FiveRoundScheduleFits | tests/problem/test_base_problem.py:7 | a five-round schedule (1-2 / 2-3 / 1-3, 2-4 / 3-4 / 1-4) is a round robin that respects the priority of the test |
| Instances.FiveRoundChain | tests/problem/test_base_problem.py:7 | the pair graph of that priority holds the chain (1,2) -> (2,3) -> (1,3) -> (3,4) -> (1,4) |
| Instances.FiveRoundLayers | tests/problem/test_base_problem.py:6-17 | that pair graph is acyclic with exactly 5 layers |
| Instances.FiveRoundStatus | tests/problem/test_base_problem.py:6-18 | with its table and a sound and complete solver, the model is not optimal at R = 4 (INFEASIBLE), is optimal at R = 5 (OPTIMAL), and that optimum has 8 byes |
| Controllers.OptimizeByes.constructor | optbyes/optbyes.py:12-17 | N keys, N-1 rounds to start, the bound 2N-1, the table of the priority, and no status yet |
| Controllers.OptimizeByes.NumberOfByes | old/optbyes/algorithms/optbyes.py:20-25 | the same, with the bound N(N-1)/2 |
| Controllers.OptimizeByes.Solve | optbyes/optbyes.py:39-60 | numRounds (what get_num_rounds returns) is the first R where the search stops, or one past the bound; the status is LOADED after a failed build, with the kept problem unchanged, and OPTIMAL with the kept problem or INFEASIBLE otherwise |
| Controllers.OptimizeByes.GetStatus | optbyes/optbyes.py:65-66 | the status, or a missing attribute before solve() assigned one |
| Controllers.OptimizeByes.CheckStatus | optbyes/optbyes.py:68-72 | passes exactly when a status exists and is neither LOADED nor INFEASIBLE, which raise their own errors |
| Controllers.OptimizeByes.GetSchedule | optbyes/optbyes.py:74-76 | behind the status check, the kept problem's schedule, a round robin over numRounds rounds |
| ByesOpt.MarkedByes | byesopt/prob.py:104-110 | definition: team i's number of rounds 1..R with y[i, r] = 1 |
| ByesOpt.MarkedByesOfSolution | byesopt/prob.py:104-110 | on any solution of the model the cells with y = 1 number N(R-(N-1)) |
| ByesOpt.NoMarkedByes | byesopt/prob.py:104-110 | with no team or no round the count of y = 1 cells is 0 |
| ByesOpt.CountMarkedByes | byesopt/prob.py:105-110 | the counting loops sum y = 1 over teams 1..N and rounds 1..R |
| ByesOpt.CountRowMarks | byesopt/prob.py:107-109 | the inner loop counts one team's rounds with y = 1 |
| ByesOpt.Prob.constructor | byesopt/prob.py:7-13 | keeps N and R and builds the precedence table of the team sequences, with status LOADED and no variables yet |
| ByesOpt.Prob.Solve | byesopt/prob.py:36-42 | the variables exist afterwards; a failed build raises a missing key, keeps the status and leaves no readable value; otherwise the raw solver status, whether a solution is held, and the values are kept |
| ByesOpt.Prob.GetNumByes | byesopt/prob.py:104-110 | whatever the status, with N, R >= 1: a missing key before any solve, a missing attribute when the solver holds no solution; otherwise the count of y = 1 cells: 0 with no team or no round, N(R-(N-1)) for a solution |
| ByesOpt.Prob.GetSchedule | byesopt/prob.py:118-129 | whatever the status, with N, R >= 1: a missing key before any solve, a missing attribute when the solver holds no solution; otherwise the read-back: empty rows with no team or no round, a round robin for a solution |
| ByesOpt.OptByes.constructor | byesopt/optbyes.py:12-17 | the team sequences, N-1 rounds to start, status LOAD and no optimum |
| ByesOpt.OptByes.Solve | byesopt/optbyes.py:19-37 | the search over R up to 2N-1 keeps the first model with GRB.OPTIMAL, or sets INFEASIBLE with numRounds one past the bound |
| ByesOpt.OptByes.CheckStatus | byesopt/optbyes.py:52-57 | LOAD and INFEASIBLE raise their own error, and everything else passes |
| ByesOpt.OptByes.GetSchedule | byesopt/optbyes.py:42-44 | behind the status check, the optimal model's schedule, a round robin |
| Generator.GeneratedPriorities | optbyes/utils/generator.py:37-38 | a ValueError exactly when num_fixed > num_teams (equality is allowed) |
| Generator.Permutations | optbyes/utils/generator.py:50 | definition: itertools.permutations, for each position in order the element there followed by every ordering of the others |
| Generator.PermutationsCount | optbyes/utils/generator.py:47-51 | a sequence of length L has L! orderings |
| Generator.PermutationsSound | optbyes/utils/generator.py:47-51 | every ordering produced has the same elements as the input |
| Generator.PermutationsComplete | optbyes/utils/generator.py:47-51 | every rearrangement of the input is produced |
| Generator.Product | optbyes/utils/generator.py:54 | definition: itertools.product, one pick from every list with the first list varying slowest |
| Generator.ProductCount | optbyes/utils/generator.py:54 | the product has as many combinations as the product of the list lengths |
| Generator.ProductSound | optbyes/utils/generator.py:54 | every combination picks one element from each list |
| Generator.ProductComplete | optbyes/utils/generator.py:54 | every such pick is a combination of the product |
| Generator.GeneratedCount | tests/utils/test_generate_team_priorities.py:4-9 | for 0 <= F <= N there are ((N-1)!)^(N-F) priorities |
| Generator.FourTeamCounts | optbyes/utils/tests/test_generate_team_prioritites.py:5-9 | for four teams: 1296, 216, 36, 6 and 1 priorities with 0..4 fixed teams |
| Generator.GeneratedWellFormed | optbyes/utils/generator.py:41-63 | every generated priority has keys 1..N in order, the fixed teams' ascending orders, and a permutation of the other teams for every other team |
| Generator.GeneratedComplete | optbyes/utils/generator.py:47-63 | every well-formed priority whose teams 1..F are ascending is generated |
| Generator.GenerateTeamPriorities | optbyes/utils/generator.py:37-63 | the loops build exactly the generated list, in product order, or the ValueError |
| Generator.FixedPriorities | optbyes/utils/generator.py:41-44 | teams 1..F get the ascending tuple of the other teams, and no other team is fixed |
| Generator.PrioritiesForTeams | optbyes/utils/generator.py:46-51 | for each flexible team, in order, every ordering of its opponents |
| Generator.AssemblePriority | optbyes/utils/generator.py:54-62 | one combination becomes the priority with the fixed teams and then the picked orderings |

## Left out

- The Gurobi solve itself (`gp.Model`, variable creation, `optimize`, the time
  limit, `CUTOFF_TIME` and the MIP gap) is an oracle outcome passed in. A
  time-limited run is whatever non-optimal status the oracle reports. Of
  its incumbent, the model keeps only whether one exists and its values.
- The minimise and maximise objectives are not optimised. The bye objective
  is shown constant on feasible solutions (`ObjectiveIsConstant`). The
  consecutive-bye objective is examined in lemmas.
- networkx is not modelled. `topological_sort` is replaced by an acyclicity
  predicate, and `DiGraph`, `copy`, `in_degree` and `remove_node` by finite
  sets of nodes and edges. Layers are sets, so the order in which the nodes
  of one layer are written is not modelled. For the converter's graph the
  result does not depend on it, because a layer holds at most one match per
  team (`Optimality.TeamOnceInLayer`).
- Topological.TopologicalSortAlgorithm.Solve: on a graph given directly
  whose layer holds two matches of one team, that team's cell keeps the
  match networkx lists last. The model leaves open which of the two it is:
  the cell is some match of the layer.
- `scipy.special.comb(N, 2)` is N(N-1)/2 (`Types.Choose2`).
- The problem factories are a `Variant` tag.
- The BYES marker `"b"` and the `str(j)` cells are the `Slot` datatype.
- The string keys are not modelled as strings.
- The print methods, the coloured console output in the solve loops and
  the debug print in `_checkStatus` are left out as console output.
- The drawing module, the experiments and `main.py` are left out as visual
  output and command-line entry points.
- Type aliases and exception classes are modelled only as types and error
  tags.
- Of the repository's test instances, one priority of each kind is
  restated as a lemma: the first three-round priority of
  `tests/test_optbyes.py` (`Instances.ThreeRoundSearch`) and the first test
  of `tests/problem/test_base_problem.py` (`Instances.FiveRoundStatus`).
  The other priorities of those files, with their R = 3, 4, 5 and 6
  expectations, are left out by choice; each would be proved the same way,
  by a schedule for the upper bound and a chain of matches for the lower
  one.
- The count of ones in a team's table, C(N-1,2), is not stated as a number.
  `TableIsStrictOrder` states that exactly one of `arr[k,a,b]` and
  `arr[k,b,a]` is 1 for each pair of distinct opponents, which implies it.
- Controllers.OptimizeByes.Solve: the 2N-1 bound can report INFEASIBLE for
  a priority whose pair graph has more than 2N-1 layers although a
  schedule exists (`BoundedSearchFindsLayerCount` states when it succeeds).
  This is the code's behaviour, kept as written.
- Values are taken to be exactly 0 or 1. The source compares Gurobi's
  floating-point `.X` with `== 1`
  (`optbyes/solver/integer_planning_problems/integer_planning_problems.py:181,184`,
  `optbyes/problem/problem.py:177,181`, `byesopt/prob.py:108,123,126`), so a
  value within the solver's integrality tolerance, such as 0.9999999, drops
  a match or a bye there. The model's `.X` is an exact integer.
- Topological.TopologicalSortAlgorithm.Solve: after a missing key is raised,
  the schedule and the graph are left part-way through the round, and the
  model does not describe them. Which matches were written before the
  raise depends on the order in which networkx lists the nodes.
- ByesOpt.Prob.Solve: a second solve on the same object adds a second set
  of variables and constraints to the same Gurobi model. The model takes
  the outcome passed to each solve as the solver's answer and does not
  describe the accumulated model.
- Generator.GeneratedPriorities: the result is a value; the in-place list
  building is modelled by `GenerateTeamPriorities` and its helpers.

## Findings

| source | as written | input that shows it | evidently intended | confidence | as-written member | corrected member |
|---|---|---|---|---|---|---|
| optbyes/problem/problem.py:201-207 | constraint (7) only bounds m[i,r] from below, so the maximised objective is met by m = 1 everywhere and equals N(R-1) whatever the byes | any 0/1 y, e.g. N = 1, R = 2, y all 0: m = 1 satisfies (7) and attains the maximum although no bye is followed by a match | m[i,r] = 1 exactly when team i has a bye in round r-1 and plays in round r, so the objective counts those breaks | not executed | Problems.ConsecutiveObjectiveIgnoresByes | Problems.CorrectedObjectiveCountsBreaks |

=== FILE: algorithm.dfy ===
/**
 * The algorithm layer: the status gate and counters every algorithm shares,
 * and the algorithm that searches the round count with the base integer
 * model. The graph-layering algorithm is in `Topological`.
 */
module Algorithm {
  import opened Types
  import opened Schedules
  import opened IntegerProgram
  import opened IntegerPlanning
  import opened Converter
  import opened Search

  // ---------------------------------------------------------------------
  // What every algorithm shares
  // ---------------------------------------------------------------------

  /** get_schedule: the schedule when the status is OPTIMAL, else the
      status's entry of the error dictionary. */
  function ScheduleGate(status: int, schedule: Schedule): (r: Result<Schedule>)
    ensures r.Ok? <==> status == OPTIMAL
    ensures r.Ok? ==> r.value == schedule
    ensures r.Err? ==> r.error == ErrorsEntry(status)
  {
    if status != OPTIMAL then Err(ErrorsEntry(status)) else Ok(schedule)
  }

  /** get_num_rounds: the length of team 1's row. */
  function NumRounds(status: int, schedule: Schedule): (r: Result<int>)
    ensures r.Ok? <==> status == OPTIMAL && 1 in schedule
    ensures r.Ok? ==> r.value == |schedule[1]|
    ensures status != OPTIMAL ==> r == Err(ErrorsEntry(status))
    ensures status == OPTIMAL && 1 !in schedule ==> r == Err(MissingKey)
  {
    if status != OPTIMAL then Err(ErrorsEntry(status))
    else if 1 !in schedule then Err(MissingKey)
    else Ok(|schedule[1]|)
  }

  /** The length of a round robin's rows is its number of rounds. */
  lemma RoundRobinRounds(s: Schedule, n: int, rounds: int)
    requires IsRoundRobin(s, n, rounds) && n >= 1 && rounds >= 0
    ensures |s[1]| == rounds
  {
    assert s[1].Keys == Elems(Ids(rounds));
    DistinctCard(Ids(rounds));
  }

  /** Some element of a non-empty set (the next key a loop visits). */
  method Pick(s: set<int>) returns (c: int)
    requires s != {}
    ensures c in s
  {
    assert (forall x :: x !in s) ==> s == {};
    c :| c in s;
  }

  /** The bye rounds of a row among `keys`. */
  function ByesAmong(row: map<int, Slot>, keys: set<int>): set<int> {
    set q | q in keys && q in row && row[q] == Bye
  }

  /** Counts the bye cells of one row, cell by cell. */
  method CountRowByes(row: map<int, Slot>) returns (count: nat)
    ensures count == |ByeRounds(row)|
  {
    count := 0;
    var todo := row.Keys;
    ghost var seen: set<int> := {};
    while todo != {}
      invariant todo !! seen && todo + seen == row.Keys
      invariant count == |ByesAmong(row, seen)|
      decreases |todo|
    {
      var c := Pick(todo);
      if row[c] == Bye {
        assert ByesAmong(row, seen + {c}) == ByesAmong(row, seen) + {c};
        count := count + 1;
      } else {
        assert ByesAmong(row, seen + {c}) == ByesAmong(row, seen);
      }
      todo := todo - {c};
      seen := seen + {c};
    }
    assert ByeRounds(row) == ByesAmong(row, seen);
  }

  /**
   * get_num_byes: a counter per team 1..len(schedule), incremented for
   * every bye of every row; a bye in the row of a team outside that range
   * is a missing key.
   */
  method NumByes(status: int, schedule: Schedule) returns (r: Result<map<int, nat>>)
    ensures status != OPTIMAL ==> r == Err(ErrorsEntry(status))
    ensures status == OPTIMAL ==>
      (r.Ok? <==> ByesInRange(schedule))
    ensures r.Err? && status == OPTIMAL ==> r.error == MissingKey
    ensures r.Ok? ==> IsByeTally(schedule, r.value)
  {
    var gate := ScheduleGate(status, schedule);
    if gate.Err? {
      return Err(gate.error);
    }
    r := TallyByes(schedule);
  }

  /** The number of byes in team t's row (0 without a row). */
  function ByeCount(schedule: Schedule, t: int): nat {
    if t in schedule then |ByeRounds(schedule[t])| else 0
  }

  /** Every team with a bye is one of 1..len(schedule), the keys of the
      counter. */
  ghost predicate ByesInRange(schedule: Schedule) {
    forall t :: ByeCount(schedule, t) > 0 ==> 1 <= t <= |schedule|
  }

  /** The counter get_num_byes returns: a key per team 1..len(schedule),
      holding that team's number of byes. */
  ghost predicate IsByeTally(schedule: Schedule, counts: map<int, nat>) {
    && (forall t :: t in counts <==> 1 <= t <= |schedule|)
    && (forall t :: t in counts ==> counts[t] == ByeCount(schedule, t))
  }

  /** {t: 0 for t in range(1, size + 1)} */
  function ZeroCounts(size: nat): (m: map<int, nat>)
    ensures forall t :: t in m <==> 1 <= t <= size
    ensures forall t :: t in m ==> m[t] == 0
  {
    map t | t in Elems(Ids(size)) :: 0
  }

  /** The counting loop of get_num_byes, over the rows in any order. */
  method TallyByes(schedule: Schedule) returns (r: Result<map<int, nat>>)
    ensures r.Ok? <==> ByesInRange(schedule)
    ensures r.Err? ==> r.error == MissingKey
    ensures r.Ok? ==> IsByeTally(schedule, r.value)
  {
    var size := |schedule|;
    var counts := StartTally(schedule, size);
    var todo := schedule.Keys;
    ghost var seen: set<int> := {};
    while todo != {}
      invariant seen <= schedule.Keys && todo == schedule.Keys - seen
      invariant Tallied(schedule, seen, counts, size)
      decreases |todo|
    {
      var t := Pick(todo);
      var ok;
      ok, counts := TallyRow(schedule, t, counts, seen, size);
      if !ok {
        return Err(MissingKey);
      }
      todo := todo - {t};
      seen := seen + {t};
    }
    TalliedAll(schedule, seen, counts);
    return Ok(counts);
  }

  /** `counts` holds, for each team 1..size, its bye count when its row is
      among `seen` and 0 otherwise. */
  ghost predicate Tallied(schedule: Schedule, seen: set<int>, counts: map<int, nat>, size: int) {
    && (forall t :: t in seen && ByeCount(schedule, t) > 0 ==> 1 <= t <= size)
    && (forall t :: t in counts <==> 1 <= t <= size)
    && (forall t :: t in counts ==> counts[t] == if t in seen then ByeCount(schedule, t) else 0)
  }

  /** One pass of the counting loop: counts team t's byes into its counter,
      or fails when t has byes but no counter. */
  method TallyRow(schedule: Schedule, t: int, counts: map<int, nat>, ghost seen: set<int>, size: int)
    returns (ok: bool, next: map<int, nat>)
    requires t in schedule && t !in seen && Tallied(schedule, seen, counts, size)
    ensures ok <==> ByeCount(schedule, t) == 0 || 1 <= t <= size
    ensures ok ==> Tallied(schedule, seen + {t}, next, size)
    ensures !ok && size == |schedule| ==> !ByesInRange(schedule)
  {
    var n := CountRowByes(schedule[t]);
    if n > 0 && !(1 <= t <= size) {
      return false, counts;
    }
    next := if n > 0 then counts[t := n] else counts;
    ok := true;
  }

  /** The counter before any row is counted. */
  method StartTally(schedule: Schedule, size: nat) returns (counts: map<int, nat>)
    ensures Tallied(schedule, {}, counts, size)
  {
    counts := ZeroCounts(size);
  }

  /** Once every row is counted, the tally is complete and every team with
      a bye had a counter. */
  lemma TalliedAll(schedule: Schedule, seen: set<int>, counts: map<int, nat>)
    requires seen == schedule.Keys && Tallied(schedule, seen, counts, |schedule|)
    ensures ByesInRange(schedule)
    ensures IsByeTally(schedule, counts)
  {
  }

  /** In a round robin of n teams over R rounds, every team has
      R - (n - 1) byes. */
  lemma RoundRobinNumByes(s: Schedule, n: int, rounds: int)
    requires IsRoundRobin(s, n, rounds) && n >= 0 && rounds >= 0
    ensures |s| == n
    ensures forall t :: t in s ==> 1 <= t <= |s|
    ensures forall t :: t in s ==> |ByeRounds(s[t])| == rounds - (n - 1)
  {
    assert s.Keys == Elems(Ids(n));
    DistinctCard(Ids(n));
    forall t | t in s ensures |ByeRounds(s[t])| == rounds - (n - 1) {
      RoundRobinByes(s, n, rounds, t);
    }
  }

  // ---------------------------------------------------------------------
  // The round-count search over the base integer model
  // ---------------------------------------------------------------------

  /** The search stops at R when building the model for R raises, or when
      the solver reports an optimum for it. */
  function StopsAt(numTeams: int, tpArray: PriorityArray, outcomes: int -> SolverOutcome): int -> bool {
    R => BuildFails(numTeams, R, tpArray) || outcomes(R).status == GRB_OPTIMAL
  }

  /** The solver only reports an optimum for a model it could build when
      the solution satisfies the constraints. */
  ghost predicate SolverSound(numTeams: int, tpArray: PriorityArray, outcomes: int -> SolverOutcome) {
    forall R :: !BuildFails(numTeams, R, tpArray) && outcomes(R).status == GRB_OPTIMAL ==>
      Feasible(numTeams, R, tpArray, outcomes(R).x, outcomes(R).y)
  }

  /** The solver reports an optimum for every model it could build that has
      a solution. */
  ghost predicate SolverComplete(numTeams: int, tpArray: PriorityArray, outcomes: int -> SolverOutcome) {
    forall R :: !BuildFails(numTeams, R, tpArray) && (exists x, y :: Feasible(numTeams, R, tpArray, x, y)) ==>
      outcomes(R).status == GRB_OPTIMAL
  }

  class IterateNumRoundsAlgorithm {
    const numTeams: int
    var numRounds: int
    const tpArray: PriorityArray
    var status: int
    var schedule: Schedule

    /** create_from_team_priority: one team per dictionary entry, the search
        starting at N - 1 rounds, and the precedence table of the priority. */
    constructor FromTeamPriority(tp: TeamPriority)
      requires tp.IsDict()
      ensures numTeams == tp.NumTeams() && numRounds == tp.NumTeams() - 1
      ensures IsPriorityTable(tp, tpArray)
      ensures status == LOADED && schedule == map[]
    {
      var arr := ConvertToPriorityArray(tp);
      numTeams := tp.NumTeams();
      numRounds := tp.NumTeams() - 1;
      tpArray := arr;
      status := LOADED;
      schedule := map[];
    }

    /**
     * solve: builds and solves the base model for R = numRounds, numRounds
     * + 1, ... up to N(N - 1)/2 and keeps the first optimum; when none is
     * found the status is INFEASIBLE. An error raised while building a model
     * leaves the search where it stopped. The solver's outcome for R rounds
     * is outcomes(R).
     */
    method Solve(outcomes: int -> SolverOutcome) returns (raised: Option<Error>)
      requires SolverSound(numTeams, tpArray, outcomes)
      modifies this
      ensures var stop, lo, hi := StopsAt(numTeams, tpArray, outcomes), old(numRounds), Choose2(numTeams);
        var found := FirstOptimal(stop, lo, hi);
        && numRounds == FinalRounds(stop, lo, hi)
        && (raised.Some? <==> found.Some? && BuildFails(numTeams, found.value, tpArray))
        && (raised.Some? ==> raised.value == MissingKey && status == old(status) && schedule == old(schedule))
        && (found.None? ==> status == INFEASIBLE && schedule == old(schedule))
        && (found.Some? && raised.None? ==>
              && status == OPTIMAL
              && IsReadBack(schedule, outcomes(numRounds).x, outcomes(numRounds).y, numTeams, numRounds)
              && IsRoundRobin(schedule, numTeams, numRounds))
    {
      ghost var stop := StopsAt(numTeams, tpArray, outcomes);
      ghost var lo := numRounds;
      var maxRound := Choose2(numTeams);
      var infeasible := true;
      raised := None;
      while numRounds <= maxRound
        invariant lo <= numRounds && (lo <= maxRound ==> numRounds <= maxRound + 1) && (lo > maxRound ==> numRounds == lo)
        invariant forall q :: lo <= q < numRounds ==> !stop(q)
        invariant infeasible && raised.None? && status == old(status) && schedule == old(schedule)
        decreases maxRound - numRounds
      {
        var prob := new BaseILP(numTeams, numRounds, tpArray);
        raised := prob.Solve(outcomes(numRounds));
        if raised.Some? {
          FirstOptimalAt(stop, lo, maxRound, numRounds);
          return;
        }
        if prob.GetStatus() == OPTIMAL {
          status := OPTIMAL;
          schedule := prob.GetSchedule().value;
          assert IsReadBack(schedule, outcomes(numRounds).x, outcomes(numRounds).y, numTeams, numRounds);
          infeasible := false;
          FirstOptimalAt(stop, lo, maxRound, numRounds);
          break;
        }
        numRounds := numRounds + 1;
      }
      if infeasible {
        status := INFEASIBLE;
      }
    }
  }
}

=== FILE: byesopt.dfy ===
/**
 * The first generation of the engine: a single integer model `Prob` over
 * the constraint families (1)-(6), and the controller `OptByes` that
 * searches the number of rounds from N - 1 up to 2N - 1 with it. The
 * model keeps the solver's raw status; reading a variable before it was
 * created is a missing key, and reading its value while the solver holds
 * no solution is a missing attribute.
 */
module ByesOpt {
  import opened Types
  import opened Sums
  import opened Schedules
  import opened IntegerProgram
  import opened IntegerPlanning
  import opened Converter
  import opened Search
  import opened Algorithm

  /** r |-> 1 when y[i, r].X == 1, else 0 */
  function ByeMarks(y: YValues, i: int): int -> int {
    r => if y(i, r) == 1 then 1 else 0
  }

  /** i |-> how many of y[i, 1..rounds] are 1 */
  function MarkedByes(y: YValues, rounds: int): int -> int {
    i => Sum(ByeMarks(y, i), rounds)
  }

  /** On any solution of the model the cells with y = 1 number
      n * (R - (n - 1)): every team sits out the rounds it does not play. */
  lemma MarkedByesOfSolution(n: int, rounds: int, arr: PriorityArray, x: XValues, y: YValues)
    requires Feasible(n, rounds, arr, x, y) && n >= 0 && (n >= 1 ==> rounds >= 1)
    ensures Sum(MarkedByes(y, rounds), n) == n * (rounds - (n - 1))
  {
    if n >= 1 {
      forall i | 1 <= i <= n ensures MarkedByes(y, rounds)(i) == TeamByes(y, rounds)(i) {
        SumExt(ByeMarks(y, i), ByeRow(y, i), rounds);
      }
      SumExt(MarkedByes(y, rounds), TeamByes(y, rounds), n);
      ObjectiveIsConstant(n, rounds, arr, x, y);
    }
  }

  /** With no team or no round there is no cell to count. */
  lemma NoMarkedByes(y: YValues, n: int, rounds: int)
    requires n < 1 || rounds < 1
    ensures Sum(MarkedByes(y, rounds), n) == 0
  {
    if n >= 1 {
      SumOfConstant(MarkedByes(y, rounds), 0, n);
    }
  }

  /** The counting loops of getNumByes: the cells (i, r) of teams 1..n and
      rounds 1..rounds with y[i, r] = 1. */
  method CountMarkedByes(y: YValues, n: int, rounds: int) returns (count: int)
    ensures count == Sum(MarkedByes(y, rounds), n)
  {
    count := 0;
    var i := 1;
    while i <= n
      invariant 1 <= i && (i == 1 || i <= n + 1)
      invariant count == Sum(MarkedByes(y, rounds), i - 1)
    {
      var row := CountRowMarks(y, i, rounds);
      count := count + row;
      i := i + 1;
    }
  }

  /** The inner loop: team i's rounds with y[i, r] = 1. */
  method CountRowMarks(y: YValues, i: int, rounds: int) returns (count: int)
    ensures count == MarkedByes(y, rounds)(i)
  {
    count := 0;
    var q := 1;
    while q <= rounds
      invariant 1 <= q && (q == 1 || q <= rounds + 1)
      invariant count == Sum(ByeMarks(y, i), q - 1)
    {
      if y(i, q) == 1 {
        count := count + 1;
      }
      q := q + 1;
    }
  }

  /** The solver's outcomes for every R: a solution it holds satisfies the
      constraints of the model it could build, and an optimum is such a
      solution. */
  ghost predicate IncumbentSound(numTeams: int, table: PriorityArray, outcomes: int -> SolverOutcome) {
    forall R ::
      && (!BuildFails(numTeams, R, table) && outcomes(R).hasIncumbent ==>
            Feasible(numTeams, R, table, outcomes(R).x, outcomes(R).y))
      && (outcomes(R).status == GRB_OPTIMAL ==> outcomes(R).hasIncumbent)
  }

  /**
   * Prob: the model for `numRounds` rounds over the table `_makeSequence`
   * builds from the team sequences. The solver is not modelled: `Solve`
   * receives its outcome. `built` says whether the variables x[i, j, r]
   * and y[i, r] exist, which they do from the first solve on, even when
   * building the constraints then fails. `hasSolution` says whether their
   * values can be read, which Gurobi allows whenever it holds a solution,
   * optimal or not.
   */
  class Prob {
    const numTeams: int
    const numRounds: int
    const teamSequences: PriorityArray
    var status: int
    var built: bool
    var hasSolution: bool
    var x: XValues
    var y: YValues

    /** A solution the solver holds satisfies the constraints of the model
        that was built, and an optimum is such a solution. */
    ghost predicate Valid()
      reads this
    {
      && (hasSolution ==>
            built && !BuildFails(numTeams, numRounds, teamSequences) && Feasible(numTeams, numRounds, teamSequences, x, y))
      && (status == GRB_OPTIMAL ==> hasSolution)
    }

    /** Prob(num_teams, num_rounds, team_sequences): the table of the team
        sequences, and a model not yet solved. */
    constructor (numTeams: int, numRounds: int, tp: TeamPriority)
      requires tp.IsDict()
      ensures this.numTeams == numTeams && this.numRounds == numRounds
      ensures IsPriorityTable(tp, teamSequences)
      ensures status == LOADED && !built && !hasSolution && Valid()
    {
      var arr := ConvertToPriorityArray(tp);
      this.numTeams := numTeams;
      this.numRounds := numRounds;
      teamSequences := arr;
      status := LOADED;
      built := false;
      hasSolution := false;
      x := (i, j, r) => 0;
      y := (i, r) => 0;
    }

    /** solve: creates the variables, then the constraints (1)-(6) and the
        objective, and runs the solver. A failed build raises a missing key
        after the variables were created, so no value can be read. */
    method Solve(outcome: SolverOutcome) returns (raised: Option<Error>)
      requires !BuildFails(numTeams, numRounds, teamSequences) && outcome.hasIncumbent ==>
        Feasible(numTeams, numRounds, teamSequences, outcome.x, outcome.y)
      requires outcome.status == GRB_OPTIMAL ==> outcome.hasIncumbent
      requires Valid()
      modifies this
      ensures Valid()
      ensures raised.Some? <==> BuildFails(numTeams, numRounds, teamSequences)
      ensures built
      ensures raised.Some? ==>
        raised.value == MissingKey && !hasSolution && status == old(status) && x == old(x) && y == old(y)
      ensures raised.None? ==>
        status == outcome.status && hasSolution == outcome.hasIncumbent && x == outcome.x && y == outcome.y
    {
      built := true;
      if BuildFails(numTeams, numRounds, teamSequences) {
        hasSolution := false;
        return Some(MissingKey);
      }
      status, hasSolution, x, y := outcome.status, outcome.hasIncumbent, outcome.x, outcome.y;
      return None;
    }

    /** getNumByes: counts the cells with y = 1, team by team and round by
        round, whatever the status. The first cell read, y[1, 1], is a
        missing key before any solve and a missing attribute without a
        solution; with no team or no round nothing is read and the count is
        0. Of any solution the count is n * (R - (n - 1)). */
    method GetNumByes() returns (r: Result<int>)
      requires Valid()
      ensures r.Err? <==> numTeams >= 1 && numRounds >= 1 && !hasSolution
      ensures r.Err? ==> r.error == if built then AttributeMissing else MissingKey
      ensures r.Ok? ==> r.value == Sum(MarkedByes(y, numRounds), numTeams)
      ensures numTeams < 1 || numRounds < 1 ==> r == Ok(0)
      ensures hasSolution && numTeams >= 0 ==> r == Ok(numTeams * (numRounds - (numTeams - 1)))
    {
      if numTeams >= 1 && numRounds >= 1 {
        if !built {
          return Err(MissingKey);
        }
        if !hasSolution {
          return Err(AttributeMissing);
        }
      }
      var count := CountMarkedByes(y, numTeams, numRounds);
      if numTeams < 1 || numRounds < 1 {
        NoMarkedByes(y, numTeams, numRounds);
      }
      if hasSolution && numTeams >= 0 {
        MarkedByesOfSolution(numTeams, numRounds, teamSequences, x, y);
      }
      return Ok(count);
    }

    /** getSchedule: reads the values back (a bye when y = 1, overwritten
        by every opponent with x = 1), whatever the status. The first cell
        read, y[1, 1], is a missing key before any solve and a missing
        attribute without a solution; with no team or no round nothing is
        read and every row is empty. Of any solution the schedule is a
        round robin. */
    method GetSchedule() returns (r: Result<Schedule>)
      requires Valid()
      ensures r.Err? <==> numTeams >= 1 && numRounds >= 1 && !hasSolution
      ensures r.Err? ==> r.error == if built then AttributeMissing else MissingKey
      ensures r.Ok? ==> IsReadBack(r.value, x, y, numTeams, numRounds)
      ensures numTeams < 1 || numRounds < 1 ==> r.Ok? && forall i, q :: i in r.value ==> q !in r.value[i]
      ensures hasSolution ==> r.Ok? && IsRoundRobin(r.value, numTeams, numRounds)
    {
      if numTeams >= 1 && numRounds >= 1 {
        if !built {
          return Err(MissingKey);
        }
        if !hasSolution {
          return Err(AttributeMissing);
        }
      }
      var s := ReadSchedule(numTeams, numRounds, x, y);
      if hasSolution {
        ReadBackIsRoundRobin(numTeams, numRounds, teamSequences, x, y, s);
      }
      return Ok(s);
    }
  }

  /**
   * OptByes: the team sequences, N - 1 rounds to start with, the status
   * LOAD, and once solved the optimal model. `table` is the table every
   * model builds from the team sequences.
   */
  class OptByes {
    const numTeams: int
    var numRounds: int
    const teamSequences: TeamPriority
    ghost const table: PriorityArray
    var status: int
    var optimal: Prob?

    /** The status is one of the three codes, and OPTIMAL comes with the
        optimal model of the current round count. */
    ghost predicate Valid()
      reads this, optimal
    {
      && teamSequences.IsDict() && IsPriorityTable(teamSequences, table)
      && numTeams == teamSequences.NumTeams()
      && status in {LOADED, OPTIMAL, INFEASIBLE}
      && (status == OPTIMAL ==>
            && optimal != null && optimal.Valid() && optimal.status == GRB_OPTIMAL
            && optimal.numTeams == numTeams && optimal.numRounds == numRounds
            && optimal.teamSequences == table)
    }

    /** OptByes(team_sequences) */
    constructor (tp: TeamPriority)
      requires tp.IsDict()
      ensures teamSequences == tp && numTeams == tp.NumTeams() && numRounds == numTeams - 1
      ensures status == LOADED && optimal == null && Valid()
    {
      var arr := ConvertToPriorityArray(tp);
      teamSequences := tp;
      table := arr;
      numTeams := tp.NumTeams();
      numRounds := tp.NumTeams() - 1;
      status := LOADED;
      optimal := null;
    }

    /**
     * solve: for R = numRounds .. 2N - 1 a fresh model is built and solved;
     * the first one whose solver status is GRB.OPTIMAL is kept. Without one
     * the status is INFEASIBLE and numRounds is 2N. An error raised while
     * building a model leaves the status as it was. The solver's outcome
     * for R rounds is outcomes(R).
     */
    method Solve(outcomes: int -> SolverOutcome) returns (raised: Option<Error>)
      requires Valid() && IncumbentSound(numTeams, table, outcomes)
      modifies this
      ensures Valid()
      ensures var stop, lo, hi := StopsAt(numTeams, table, outcomes), old(numRounds), 2 * numTeams - 1;
        var found := FirstOptimal(stop, lo, hi);
        && numRounds == FinalRounds(stop, lo, hi)
        && (raised.Some? <==> found.Some? && BuildFails(numTeams, found.value, table))
        && (raised.Some? ==> raised.value == MissingKey && status == old(status) && optimal == old(optimal))
        && (found.None? ==> status == INFEASIBLE && optimal == old(optimal))
        && (found.Some? && raised.None? ==>
              && status == OPTIMAL && fresh(optimal)
              && optimal.x == outcomes(numRounds).x && optimal.y == outcomes(numRounds).y)
    {
      ghost var stop := StopsAt(numTeams, table, outcomes);
      ghost var lo := numRounds;
      var maxRound := 2 * numTeams - 1;
      var infeasible := true;
      raised := None;
      while numRounds <= maxRound
        invariant lo <= numRounds && (lo <= maxRound ==> numRounds <= maxRound + 1) && (lo > maxRound ==> numRounds == lo)
        invariant forall q :: lo <= q < numRounds ==> !stop(q)
        invariant infeasible && raised.None? && status == old(status) && optimal == old(optimal)
        decreases maxRound - numRounds
      {
        var p := new Prob(numTeams, numRounds, teamSequences);
        TableUnique(teamSequences, p.teamSequences, table);
        raised := p.Solve(outcomes(numRounds));
        if raised.Some? {
          FirstOptimalAt(stop, lo, maxRound, numRounds);
          return;
        }
        if p.status == GRB_OPTIMAL {
          status := OPTIMAL;
          optimal := p;
          infeasible := false;
          FirstOptimalAt(stop, lo, maxRound, numRounds);
          break;
        }
        numRounds := numRounds + 1;
      }
      if infeasible {
        status := INFEASIBLE;
      }
    }

    /** _checkStatus: LOAD and INFEASIBLE raise their own error. */
    function CheckStatus(): (r: Option<Error>)
      reads this
      ensures r.None? <==> status != LOADED && status != INFEASIBLE
      ensures r.Some? ==> r.value == StatusError(status)
    {
      if status == LOADED then Some(NotRunningSolveMethod)
      else if status == INFEASIBLE then Some(InfeasibleInstance)
      else None
    }

    /** getSchedule: the status check, then the optimal model's schedule, a
        round robin over numRounds rounds. */
    method GetSchedule() returns (r: Result<Schedule>)
      requires Valid()
      ensures r.Ok? <==> status == OPTIMAL
      ensures status == LOADED ==> r == Err(NotRunningSolveMethod)
      ensures status == INFEASIBLE ==> r == Err(InfeasibleInstance)
      ensures r.Ok? ==> IsRoundRobin(r.value, numTeams, numRounds)
      ensures r.Ok? ==> IsReadBack(r.value, optimal.x, optimal.y, numTeams, numRounds)
    {
      var check := CheckStatus();
      if check.Some? {
        return Err(check.value);
      }
      r := optimal.GetSchedule();
    }
  }
}

=== FILE: consistency.dfy ===
/**
 * How the two ways of solving the base problem relate: a solution of the
 * integer program for R rounds, read back into a schedule, is a round robin
 * that respects every team's priority, so the priority graph is acyclic and
 * the layering schedule needs at most R rounds.
 */
module Consistency {
  import opened Types
  import opened Sums
  import opened Schedules
  import opened Graphs
  import opened Layering
  import opened Converter
  import opened IntegerProgram
  import opened Optimality
  import opened Topological
  import opened Search
  import opened IntegerPlanning
  import opened Algorithm

  /** The precedence table of a well-formed priority is defined and 0/1 on
      every triple of teams 1..N. */
  lemma TableFitsProgram(tp: TeamPriority, arr: PriorityArray)
    requires WellFormed(tp) && IsPriorityTable(tp, arr)
    ensures CoversCube(arr, tp.NumTeams()) && TableBinary(arr, tp.NumTeams())
  {
  }

  /** A binary sum of 1 over the rounds has its single 1 at every round
      where a term is 1. */
  lemma SingleMeeting(x: XValues, k: int, a: int, rounds: int, q: int, r: int)
    requires Binary1(Meetings(x, k, a), rounds) && SumRounds(x, k, a, rounds) == 1
    requires 1 <= q <= rounds && 1 <= r <= rounds && x(k, a, q) == 1 && x(k, a, r) == 1
    ensures q == r
  {
    SumOne(Meetings(x, k, a), rounds);
    var u :| OnlyOne(Meetings(x, k, a), u, rounds);
    assert Meetings(x, k, a)(q) == 1 && Meetings(x, k, a)(r) == 1;
  }

  /** For one team and two of its opponents listed in order, the read-back
      schedule meets the first one earlier. */
  lemma ReadBackPairInOrder(tp: TeamPriority, arr: PriorityArray, rounds: int, x: XValues, y: YValues,
                            s: Schedule, t: int, m: int, m': int, r: int, r': int)
    requires WellFormed(tp) && IsPriorityTable(tp, arr)
    requires Feasible(tp.NumTeams(), rounds, arr, x, y) && IsReadBack(s, x, y, tp.NumTeams(), rounds)
    requires t in tp.opponents && 0 <= m < m' < |tp.opponents[t]|
    requires t in s && r in s[t] && r' in s[t]
    requires s[t][r] == Versus(tp.opponents[t][m]) && s[t][r'] == Versus(tp.opponents[t][m'])
    ensures r < r'
  {
    var n, o := tp.NumTeams(), tp.opponents[t];
    var a, b := o[m], o[m'];
    assert IsOpponentOrder(o, t, n);
    assert a in o && b in o;
    assert IsReadRow(s[t], x, y, t, n, rounds);
    ReadCellFeasible(n, rounds, arr, x, y, t, r);
    ReadCellFeasible(n, rounds, arr, x, y, t, r');
    assert x(t, a, r) == 1 && x(t, b, r') == 1;
    assert IsPrec(tp, t, a, b);
    assert arr[(t, a, b)] == 1;
    TableFitsProgram(tp, arr);
    FirstRoundMeaning(n, arr, x);
    assert r' >= 2;
    PrecedenceMeaning(n, rounds, arr, x, y);
    var q :| 1 <= q < r' && x(t, a, q) == 1;
    assert Binary1(Meetings(x, t, a), rounds);
    SingleMeeting(x, t, a, rounds, q, r);
  }

  /** The schedule read back from a feasible solution respects every
      team's priority. */
  lemma ReadBackRespectsPriority(tp: TeamPriority, arr: PriorityArray, rounds: int, x: XValues, y: YValues, s: Schedule)
    requires WellFormed(tp) && IsPriorityTable(tp, arr)
    requires Feasible(tp.NumTeams(), rounds, arr, x, y) && IsReadBack(s, x, y, tp.NumTeams(), rounds)
    ensures RespectsPriority(s, tp)
  {
    forall t, m, m', r, r' |
      && t in tp.opponents && 0 <= m < m' < |tp.opponents[t]|
      && t in s && r in s[t] && r' in s[t]
      && s[t][r] == Versus(tp.opponents[t][m]) && s[t][r'] == Versus(tp.opponents[t][m'])
      ensures r < r'
    {
      ReadBackPairInOrder(tp, arr, rounds, x, y, s, t, m, m', r, r');
    }
  }

  /**
   * If the integer program for R rounds is feasible, the priority graph is
   * acyclic and has at most R layers: the layering never needs more rounds
   * than the search over R finds.
   */
  lemma FeasibleBoundsLayers(tp: TeamPriority, arr: PriorityArray, rounds: int, x: XValues, y: YValues, s: Schedule)
    requires WellFormed(tp) && IsPriorityTable(tp, arr) && rounds >= 0
    requires Feasible(tp.NumTeams(), rounds, arr, x, y) && IsReadBack(s, x, y, tp.NumTeams(), rounds)
    ensures Acyclic(BuildGraph(tp)) && |Layers(BuildGraph(tp))| <= rounds
  {
    BuiltGraphFitsTeams(tp);
    ReadBackIsRoundRobin(tp.NumTeams(), rounds, arr, x, y, s);
    ReadBackRespectsPriority(tp, arr, rounds, x, y, s);
    LayeringIsFewest(tp, BuildGraph(tp), s, rounds);
  }

  // ---------------------------------------------------------------------
  // From a schedule back to a solution of the integer program
  // ---------------------------------------------------------------------

  /** x of a schedule: 1 where team i meets team j in round r. */
  function XOf(s: Schedule): XValues {
    (i, j, r) => if i in s && r in s[i] && s[i][r] == Versus(j) then 1 else 0
  }

  /** y of a schedule: 1 where team i has no opponent in round r. */
  function YOf(s: Schedule): YValues {
    (i, r) => if i in s && r in s[i] && s[i][r].Versus? then 0 else 1
  }

  /** A priority-respecting round robin meets every team a team ranks
      before j before it meets j. */
  lemma MetBefore(tp: TeamPriority, arr: PriorityArray, s: Schedule, rounds: int, k: int, i: int, j: int, r: int)
    requires WellFormed(tp) && IsPriorityTable(tp, arr)
    requires IsRoundRobin(s, tp.NumTeams(), rounds) && RespectsPriority(s, tp)
    requires 1 <= k <= tp.NumTeams() && (k, i, j) in arr && arr[(k, i, j)] == 1 && XOf(s)(k, j, r) == 1
    ensures exists q :: 1 <= q < r && XOf(s)(k, i, q) == 1
  {
    var n, o := tp.NumTeams(), tp.opponents[k];
    assert IsPrec(tp, k, i, j);
    var p, p' :| 0 <= p < p' < |o| && o[p] == i && o[p'] == j;
    assert IsOpponentOrder(o, k, n);
    assert o[p] in o;
    var q := MeetingRound(s, n, rounds, k, i);
    assert k in s && r in s[k];
    assert s[k][q] == Versus(o[p]) && s[k][r] == Versus(o[p']);
    assert XOf(s)(k, i, q) == 1;
  }

  /** In a round robin every team meets every other team in some round. */
  lemma MeetingRound(s: Schedule, n: int, rounds: int, k: int, i: int) returns (q: int)
    requires IsRoundRobin(s, n, rounds) && 1 <= k <= n && 1 <= i <= n && i != k
    ensures k in s && q in s[k] && 1 <= q <= rounds && s[k][q] == Versus(i)
  {
    var met := MeetRounds(s[k], i);
    assert |met| == 1;
    assert (forall z :: z !in met) ==> met == {};
    q :| q in met;
  }

  /** (1) holds: nobody meets itself and meetings are mutual. */
  lemma ScheduleNoSelfPlay(n: int, rounds: int, s: Schedule)
    requires IsRoundRobin(s, n, rounds) && rounds >= 0
    ensures forall R :: NoSelfPlaySymmetric(n, R, XOf(s))
  {
  }

  /** (2) holds over any R >= rounds: every pair meets exactly once. */
  lemma ScheduleMeetOnce(n: int, rounds: int, s: Schedule, R: int)
    requires IsRoundRobin(s, n, rounds) && 0 <= rounds <= R
    ensures MeetOnce(n, R, XOf(s))
  {
    forall i, j | 1 <= i <= n && 1 <= j <= n && i != j ensures SumRounds(XOf(s), i, j, R) == 1 {
      SumExt(Meetings(XOf(s), i, j), CellMark(s[i], Versus(j)), R);
      CellsCount(s[i], Versus(j), R);
      assert CellsUpTo(s[i], Versus(j), R) == MeetRounds(s[i], j);
    }
  }

  /** (3) holds over any R >= rounds, and then (6). */
  lemma SchedulePlayOrBye(n: int, rounds: int, s: Schedule, R: int)
    requires IsRoundRobin(s, n, rounds) && 0 <= rounds <= R
    ensures PlayOrBye(n, R, XOf(s), YOf(s)) && AtMostOne(n, R, XOf(s))
  {
    forall r, i | 1 <= r <= R && 1 <= i <= n ensures 1 - SumOpponents(XOf(s), i, r, n) == YOf(s)(i, r) {
      CellPlayOrBye(n, rounds, s, i, r);
    }
  }

  lemma CellPlayOrBye(n: int, rounds: int, s: Schedule, i: int, r: int)
    requires IsRoundRobin(s, n, rounds) && 1 <= i <= n && 1 <= r
    ensures 1 - SumOpponents(XOf(s), i, r, n) == YOf(s)(i, r)
  {
    var col := MeetColumn(s[i], r);
    SumExt(Opponents(XOf(s), i, r), col, n);
    if r <= rounds {
      assert IsTeamRow(s[i], i, n, rounds);
      CellIsOneThing(s[i], i, n, rounds, r);
    } else {
      assert forall j :: 1 <= j <= n ==> col(j) == 0;
      SumZero(col, n);
    }
  }

  /** (4) and (5) hold for a round robin that respects the priority. */
  lemma SchedulePrecedence(tp: TeamPriority, arr: PriorityArray, s: Schedule, rounds: int, R: int)
    requires WellFormed(tp) && IsPriorityTable(tp, arr)
    requires IsRoundRobin(s, tp.NumTeams(), rounds) && RespectsPriority(s, tp) && 0 <= rounds <= R
    ensures CoversCube(arr, tp.NumTeams())
    ensures Precedence(tp.NumTeams(), R, arr, XOf(s)) && FirstRound(tp.NumTeams(), arr, XOf(s))
  {
    var n, x, y := tp.NumTeams(), XOf(s), YOf(s);
    TableFitsProgram(tp, arr);
    assert Binary(n, R, x, y);
    PrecedenceMeaning(n, R, arr, x, y);
    forall i, k, j, r |
      1 <= i <= n && 1 <= k <= n && 1 <= j <= n && 2 <= r <= R && arr[(k, i, j)] == 1 && x(k, j, r) == 1
      ensures exists q :: 1 <= q < r && x(k, i, q) == 1
    {
      MetBefore(tp, arr, s, rounds, k, i, j, r);
    }
    FirstRoundMeaning(n, arr, x);
    forall k, j, i | 1 <= k <= n && 1 <= j <= n && x(k, j, 1) == 1 && 1 <= i <= n
      ensures arr[(k, i, j)] == 0
    {
      if arr[(k, i, j)] == 1 {
        MetBefore(tp, arr, s, rounds, k, i, j, 1);
      }
    }
  }

  /**
   * A round robin over `rounds` rounds that respects every team's priority
   * is a solution of the integer program for every R >= rounds (the extra
   * rounds are byes for everybody).
   */
  lemma RoundRobinIsFeasible(tp: TeamPriority, arr: PriorityArray, s: Schedule, rounds: int, R: int)
    requires WellFormed(tp) && IsPriorityTable(tp, arr)
    requires IsRoundRobin(s, tp.NumTeams(), rounds) && RespectsPriority(s, tp) && 0 <= rounds <= R
    ensures Feasible(tp.NumTeams(), R, arr, XOf(s), YOf(s))
  {
    var n := tp.NumTeams();
    SchedulePrecedence(tp, arr, s, rounds, R);
    ScheduleNoSelfPlay(n, rounds, s);
    ScheduleMeetOnce(n, rounds, s, R);
    SchedulePlayOrBye(n, rounds, s, R);
  }

  // ---------------------------------------------------------------------
  // Both algorithms find the same number of rounds
  // ---------------------------------------------------------------------

  /** The schedule read back from any solution values (ReadSchedule's
      result, as a value). */
  ghost function ReadBackOf(x: XValues, y: YValues, n: nat, rounds: nat): (s: Schedule)
    ensures IsReadBack(s, x, y, n, rounds)
  {
    map i | i in Elems(Ids(n)) ::
      map r | r in Elems(Ids(rounds)) && ReadCell(x, y, i, r, n).Some? :: ReadCell(x, y, i, r, n).value
  }

  /** The cell of team i in the round that plays `layer`. */
  ghost function LayerCellOf(layer: set<Node>, i: int): (c: Slot)
    ensures LayerCell(c, i, layer)
  {
    if exists m :: m in layer && (m.0 == i || m.1 == i) then
      var m :| m in layer && (m.0 == i || m.1 == i);
      Versus(if m.0 == i then m.1 else m.0)
    else Bye
  }

  /** A schedule playing the layers L in order (what the layering solver
      writes, as a value). */
  ghost function LayerScheduleOf(L: seq<set<Node>>, n: nat): Schedule {
    map i | i in UpTo(n) :: LayerRowOf(L, i)
  }

  ghost function LayerRowOf(L: seq<set<Node>>, i: int): map<int, Slot> {
    map r | r in UpTo(|L|) :: LayerCellOf(L[r - 1], i)
  }

  /** The schedule built from the layers is a layer schedule. */
  lemma LayerScheduleOfIs(L: seq<set<Node>>, n: nat)
    ensures IsLayerSchedule(LayerScheduleOf(L, n), n, L)
  {
    var s := LayerScheduleOf(L, n);
    forall i, r | 1 <= i <= n && 1 <= r <= |L| ensures LayerCell(s[i][r], i, L[r - 1]) {
      assert s[i] == LayerRowOf(L, i);
      assert s[i][r] == LayerCellOf(L[r - 1], i);
    }
  }

  /**
   * The integer program for R rounds has a solution exactly when the
   * priority graph is acyclic and has at most R layers.
   */
  lemma FeasibleIffLayered(tp: TeamPriority, arr: PriorityArray, rounds: nat)
    requires WellFormed(tp) && IsPriorityTable(tp, arr)
    ensures (exists x, y :: Feasible(tp.NumTeams(), rounds, arr, x, y)) <==>
      Acyclic(BuildGraph(tp)) && |Layers(BuildGraph(tp))| <= rounds
  {
    var n, g := tp.NumTeams(), BuildGraph(tp);
    if exists x, y :: Feasible(n, rounds, arr, x, y) {
      var x, y :| Feasible(n, rounds, arr, x, y);
      FeasibleBoundsLayers(tp, arr, rounds, x, y, ReadBackOf(x, y, n, rounds));
    }
    if Acyclic(g) && |Layers(g)| <= rounds {
      var s := LayerScheduleOf(Layers(g), n);
      LayerScheduleOfIs(Layers(g), n);
      BuiltGraphFitsTeams(tp);
      LayerScheduleIsRoundRobin(tp, g, s);
      LayerScheduleRespectsPriority(tp, g, s);
      RoundRobinIsFeasible(tp, arr, s, |Layers(g)|, rounds);
    }
  }

  /** On an acyclic priority graph of N >= 1 teams there are between N - 1
      and N(N - 1)/2 layers. */
  lemma LayerCountRange(tp: TeamPriority)
    requires WellFormed(tp) && tp.NumTeams() >= 1 && Acyclic(BuildGraph(tp))
    ensures tp.NumTeams() - 1 <= |Layers(BuildGraph(tp))| <= Choose2(tp.NumTeams())
  {
    var n, g := tp.NumTeams(), BuildGraph(tp);
    var s := LayerScheduleOf(Layers(g), n);
    LayerScheduleOfIs(Layers(g), n);
    BuiltGraphFitsTeams(tp);
    LayerScheduleIsRoundRobin(tp, g, s);
    RoundRobinByes(s, n, |Layers(g)|, 1);
    LayersAtMostNodes(g);
    GraphNodes(tp);
  }

  /**
   * With a solver that reports an optimum exactly for the models that have
   * a solution, the round-count search over N - 1 .. N(N - 1)/2 succeeds
   * exactly when the priority graph is acyclic, and then stops at its
   * number of layers: the search and the layering solver agree.
   */
  lemma SearchFindsLayerCount(tp: TeamPriority, arr: PriorityArray, outcomes: int -> SolverOutcome)
    requires WellFormed(tp) && IsPriorityTable(tp, arr) && tp.NumTeams() >= 2
    requires SolverSound(tp.NumTeams(), arr, outcomes) && SolverComplete(tp.NumTeams(), arr, outcomes)
    ensures var found := FirstOptimal(StopsAt(tp.NumTeams(), arr, outcomes), tp.NumTeams() - 1, Choose2(tp.NumTeams()));
      && (found.Some? <==> Acyclic(BuildGraph(tp)))
      && (found.Some? ==> found.value == |Layers(BuildGraph(tp))|)
  {
    BoundedSearchFindsLayerCount(tp, arr, outcomes, Choose2(tp.NumTeams()));
    if Acyclic(BuildGraph(tp)) {
      LayerCountRange(tp);
    }
  }

  /** With the search bounded by `hi`, it finds the layer count exactly when
      the layers fit in hi rounds, and reports nothing otherwise (the bound
      2N - 1 of the controllers can miss a feasible priority). */
  lemma BoundedSearchFindsLayerCount(tp: TeamPriority, arr: PriorityArray, outcomes: int -> SolverOutcome, hi: int)
    requires WellFormed(tp) && IsPriorityTable(tp, arr) && tp.NumTeams() >= 2
    requires SolverSound(tp.NumTeams(), arr, outcomes) && SolverComplete(tp.NumTeams(), arr, outcomes)
    ensures var found := FirstOptimal(StopsAt(tp.NumTeams(), arr, outcomes), tp.NumTeams() - 1, hi);
      && (found.Some? <==> Acyclic(BuildGraph(tp)) && |Layers(BuildGraph(tp))| <= hi)
      && (found.Some? ==> found.value == |Layers(BuildGraph(tp))|)
  {
    var n, g := tp.NumTeams(), BuildGraph(tp);
    var stop := StopsAt(n, arr, outcomes);
    if Acyclic(g) {
      LayerCountRange(tp);
    }
    StopsFromLayerCount(tp, arr, outcomes);
    FirstOptimalThreshold(stop, n - 1, hi, Acyclic(g), if Acyclic(g) then |Layers(g)| else 0);
  }

  /** The search stops exactly at the round counts the layers fit in. */
  lemma StopsFromLayerCount(tp: TeamPriority, arr: PriorityArray, outcomes: int -> SolverOutcome)
    requires WellFormed(tp) && IsPriorityTable(tp, arr)
    requires SolverSound(tp.NumTeams(), arr, outcomes) && SolverComplete(tp.NumTeams(), arr, outcomes)
    ensures forall R :: 1 <= R ==>
      (StopsAt(tp.NumTeams(), arr, outcomes)(R) <==> Acyclic(BuildGraph(tp)) && |Layers(BuildGraph(tp))| <= R)
  {
    forall R | 1 <= R
      ensures StopsAt(tp.NumTeams(), arr, outcomes)(R) <==> Acyclic(BuildGraph(tp)) && |Layers(BuildGraph(tp))| <= R
    {
      StopsWhenLayered(tp, arr, outcomes, R);
    }
  }

  /** At every round count of the search, it stops exactly when the layers
      fit. */
  lemma StopsWhenLayered(tp: TeamPriority, arr: PriorityArray, outcomes: int -> SolverOutcome, R: int)
    requires WellFormed(tp) && IsPriorityTable(tp, arr) && 1 <= R
    requires SolverSound(tp.NumTeams(), arr, outcomes) && SolverComplete(tp.NumTeams(), arr, outcomes)
    ensures StopsAt(tp.NumTeams(), arr, outcomes)(R) <==> Acyclic(BuildGraph(tp)) && |Layers(BuildGraph(tp))| <= R
  {
    var n := tp.NumTeams();
    TableFitsProgram(tp, arr);
    assert !BuildFails(n, R, arr);
    FeasibleIffLayered(tp, arr, R);
    StopsIffFeasible(n, arr, outcomes, R);
  }

  /** With a sound and complete solver, the search stops at a model it
      could build exactly when that model has a solution. */
  lemma StopsIffFeasible(n: int, arr: PriorityArray, outcomes: int -> SolverOutcome, R: int)
    requires SolverSound(n, arr, outcomes) && SolverComplete(n, arr, outcomes)
    requires !BuildFails(n, R, arr)
    ensures StopsAt(n, arr, outcomes)(R) <==> exists x, y :: Feasible(n, R, arr, x, y)
  {
    if outcomes(R).status == GRB_OPTIMAL {
      assert Feasible(n, R, arr, outcomes(R).x, outcomes(R).y);
    }
  }
}

=== FILE: controllers.dfy ===
/**
 * The controllers that drive the integer problems: starting from N - 1
 * rounds they build the problem the factory makes for R = N - 1, N, ... up
 * to a bound, keep the first one the solver reports optimal, and hand out
 * its schedule behind their own status gate. The current controller is
 * bounded by 2N - 1 rounds, the earlier one by N(N - 1)/2.
 */
module Controllers {
  import opened Types
  import opened Schedules
  import opened IntegerProgram
  import opened IntegerPlanning
  import opened Converter
  import opened Search
  import opened Problems
  import opened Algorithm

  /** The solver only reports an optimum for a problem it could build when
      the solution satisfies that problem's constraints. */
  ghost predicate ProblemSolverSound(variant: Variant, n: int, arr: PriorityArray, outcomes: int -> SolverOutcome) {
    forall R :: !BuildFails(n, R, arr) && outcomes(R).status == GRB_OPTIMAL ==>
      && Feasible(n, R, arr, outcomes(R).x, outcomes(R).y)
      && (variant == MinimizeConsecutiveByes ==> ConsecutiveByes(n, R, outcomes(R).y, outcomes(R).m))
  }

  /**
   * OptimizeByes (and its predecessor OptimizeNumberOfByes, which differs
   * only in `maxRound`). `variant` is the problem the factory creates;
   * `status` is None until solve() assigns it; `optimal` is the problem
   * whose optimum was kept.
   */
  class OptimizeByes {
    const numTeams: int
    var numRounds: int
    const maxRound: int
    const tpArray: PriorityArray
    const variant: Variant
    var status: Option<int>
    var optimal: Problem?

    /** The status is absent or one of the three codes, and an OPTIMAL
        status comes with the optimal problem of the current round count. */
    ghost predicate Valid()
      reads this, optimal
    {
      && (status.Some? ==> status.value in {LOADED, OPTIMAL, INFEASIBLE})
      && (status == Some(OPTIMAL) ==>
            && optimal != null && optimal.Valid() && optimal.status == GRB_OPTIMAL
            && optimal.numTeams == numTeams && optimal.numRounds == numRounds
            && optimal.tpArray == tpArray && optimal.variant == variant)
    }

    /** OptimizeByes(team_sequence, problem_factory): N - 1 rounds to start
        with, the search bounded by 2N - 1, and no status yet. */
    constructor (tp: TeamPriority, variant: Variant)
      requires tp.IsDict()
      ensures numTeams == tp.NumTeams() && numRounds == numTeams - 1 && maxRound == 2 * numTeams - 1
      ensures IsPriorityTable(tp, tpArray) && this.variant == variant
      ensures status == None && optimal == null && Valid()
    {
      var arr := ConvertToPriorityArray(tp);
      numTeams := tp.NumTeams();
      numRounds := tp.NumTeams() - 1;
      maxRound := 2 * tp.NumTeams() - 1;
      tpArray := arr;
      this.variant := variant;
      status := None;
      optimal := null;
    }

    /** OptimizeNumberOfByes(team_priority, problem_factory): the same, with
        the search bounded by N(N - 1)/2. */
    constructor NumberOfByes(tp: TeamPriority, variant: Variant)
      requires tp.IsDict()
      ensures numTeams == tp.NumTeams() && numRounds == numTeams - 1 && maxRound == Choose2(numTeams)
      ensures IsPriorityTable(tp, tpArray) && this.variant == variant
      ensures status == None && optimal == null && Valid()
    {
      var arr := ConvertToPriorityArray(tp);
      numTeams := tp.NumTeams();
      numRounds := tp.NumTeams() - 1;
      maxRound := Choose2(tp.NumTeams());
      tpArray := arr;
      this.variant := variant;
      status := None;
      optimal := null;
    }

    /**
     * solve: for R = numRounds .. maxRound, a fresh problem is created, the
     * status reset to LOADED and the problem solved; the first optimum is
     * kept. Without one the status is INFEASIBLE and numRounds is one past
     * the bound. An error raised while building a problem leaves the status
     * LOADED. The solver's outcome for R rounds is outcomes(R).
     */
    method Solve(outcomes: int -> SolverOutcome) returns (raised: Option<Error>)
      requires ProblemSolverSound(variant, numTeams, tpArray, outcomes)
      modifies this
      ensures Valid()
      ensures var stop, lo, hi := StopsAt(numTeams, tpArray, outcomes), old(numRounds), maxRound;
        var found := FirstOptimal(stop, lo, hi);
        && numRounds == FinalRounds(stop, lo, hi)
        && (raised.Some? <==> found.Some? && BuildFails(numTeams, found.value, tpArray))
        && (raised.Some? ==> raised.value == MissingKey && status == Some(LOADED) && optimal == old(optimal))
        && (raised.None? ==> status == Some(OPTIMAL) || status == Some(INFEASIBLE))
        && (found.None? ==> status == Some(INFEASIBLE) && optimal == old(optimal))
        && (found.Some? && raised.None? ==>
              && status == Some(OPTIMAL) && fresh(optimal)
              && optimal.x == outcomes(numRounds).x && optimal.y == outcomes(numRounds).y)
    {
      ghost var stop := StopsAt(numTeams, tpArray, outcomes);
      ghost var lo := numRounds;
      var infeasible := true;
      raised := None;
      while numRounds <= maxRound
        invariant lo <= numRounds && (lo <= maxRound ==> numRounds <= maxRound + 1) && (lo > maxRound ==> numRounds == lo)
        invariant forall q :: lo <= q < numRounds ==> !stop(q)
        invariant infeasible && raised.None? && optimal == old(optimal)
        decreases maxRound - numRounds
      {
        var p := new Problem(variant, numTeams, numRounds, tpArray);
        status := Some(LOADED);
        raised := p.Solve(outcomes(numRounds));
        if raised.Some? {
          FirstOptimalAt(stop, lo, maxRound, numRounds);
          return;
        }
        if p.GetStatus() == OPTIMAL {
          status := Some(OPTIMAL);
          optimal := p;
          infeasible := false;
          FirstOptimalAt(stop, lo, maxRound, numRounds);
          break;
        }
        numRounds := numRounds + 1;
      }
      if infeasible {
        status := Some(INFEASIBLE);
      }
    }

    /** get_status: reading the status before solve() assigned it is a
        missing attribute. */
    function GetStatus(): (r: Result<int>)
      reads this
      ensures r.Ok? <==> status.Some?
      ensures r.Ok? ==> r.value == status.value
      ensures r.Err? ==> r.error == AttributeMissing
    {
      if status.None? then Err(AttributeMissing) else Ok(status.value)
    }

    /** _check_status: LOADED and INFEASIBLE raise their own error, an
        absent status is a missing attribute, anything else passes. */
    function CheckStatus(): (r: Option<Error>)
      reads this
      ensures r.None? <==> status.Some? && status.value != LOADED && status.value != INFEASIBLE
      ensures status.None? ==> r == Some(AttributeMissing)
      ensures status.Some? && r.Some? ==> r.value == StatusError(status.value)
    {
      if status.None? then Some(AttributeMissing)
      else if status.value == LOADED then Some(NotRunningSolveMethod)
      else if status.value == INFEASIBLE then Some(InfeasibleInstance)
      else None
    }

    /** get_schedule: the status check, then the kept problem's schedule:
        a round robin over numRounds rounds read back from the optimum. */
    method GetSchedule() returns (r: Result<Schedule>)
      requires Valid()
      ensures r.Ok? <==> status == Some(OPTIMAL)
      ensures status == None ==> r == Err(AttributeMissing)
      ensures status == Some(LOADED) ==> r == Err(NotRunningSolveMethod)
      ensures status == Some(INFEASIBLE) ==> r == Err(InfeasibleInstance)
      ensures r.Ok? ==> IsRoundRobin(r.value, numTeams, numRounds)
      ensures r.Ok? ==> IsReadBack(r.value, optimal.x, optimal.y, numTeams, numRounds)
    {
      var check := CheckStatus();
      if check.Some? {
        return Err(check.value);
      }
      r := optimal.GetSchedule();
    }
  }
}

=== FILE: converter.dfy ===
/**
 * From a team priority to the two forms the solvers consume: the 0/1
 * precedence table read by the integer programs, and the pair graph read by
 * the graph-layering solver (optbyes/utils/converter.py).
 */
module Converter {
  import opened Types
  import opened Graphs

  // ---------------------------------------------------------------------
  // Precedence table
  // ---------------------------------------------------------------------

  /** `a` stands strictly before `b` in `s`. */
  ghost predicate Precedes(s: seq<int>, a: int, b: int) {
    exists p, q :: 0 <= p < q < |s| && s[p] == a && s[q] == b
  }

  /** Team k's order places a before b. */
  ghost predicate IsPrec(tp: TeamPriority, k: int, a: int, b: int) {
    k in tp.opponents && Precedes(tp.opponents[k], a, b)
  }

  /** (k, a, b) is a triple of dictionary keys. */
  ghost predicate InKeyCube(tp: TeamPriority, k: int, a: int, b: int) {
    k in tp.opponents && a in tp.opponents && b in tp.opponents
  }

  /**
   * `arr` is the precedence table of `tp`: it is defined on every triple of
   * keys and on every triple some order puts in sequence, and holds 1 exactly
   * where team k's order places a before b, 0 everywhere else.
   */
  ghost predicate IsPriorityTable(tp: TeamPriority, arr: PriorityArray) {
    && (forall k, a, b :: (k, a, b) in arr <==> IsPrec(tp, k, a, b) || InKeyCube(tp, k, a, b))
    && (forall k, a, b :: (k, a, b) in arr ==> arr[(k, a, b)] == if IsPrec(tp, k, a, b) then 1 else 0)
  }

  /** Pairs (p, q) with p < q, p < i: the pairs the first i outer passes visit. */
  ghost predicate PrecedesBefore(s: seq<int>, a: int, b: int, i: int) {
    exists p, q :: 0 <= p < q < |s| && p < i && s[p] == a && s[q] == b
  }

  /** Pairs (i, q) with i < q < j: the pairs the current inner pass visited. */
  ghost predicate PrecedesAt(s: seq<int>, a: int, b: int, i: int, j: int) {
    0 <= i < |s| && s[i] == a && exists q :: i < q < j && q < |s| && s[q] == b
  }

  /** Keys of team entries among the first x dictionary items. */
  ghost predicate DoneTeam(tp: TeamPriority, x: int, k: int) {
    exists y :: 0 <= y < x && y < |tp.teams| && tp.teams[y] == k
  }

  lemma InnerPassDone(s: seq<int>, a: int, b: int, i: int)
    requires 0 <= i
    ensures PrecedesBefore(s, a, b, i + 1) <==> PrecedesBefore(s, a, b, i) || PrecedesAt(s, a, b, i, |s|)
  {
    if PrecedesBefore(s, a, b, i + 1) && !PrecedesBefore(s, a, b, i) {
      var p, q :| 0 <= p < q < |s| && p < i + 1 && s[p] == a && s[q] == b;
      assert p == i;
    }
  }

  lemma OuterPassDone(s: seq<int>, a: int, b: int, i: int)
    requires i >= |s| - 1
    ensures PrecedesBefore(s, a, b, i) <==> Precedes(s, a, b)
  {
  }

  /**
   * convert_team_priority_to_team_priority_array: set a 1 for every ordered
   * pair of positions of every team's order, then fill every missing triple
   * of keys with 0.
   */
  method ConvertToPriorityArray(tp: TeamPriority) returns (arr: PriorityArray)
    requires tp.IsDict()
    ensures IsPriorityTable(tp, arr)
  {
    arr := MarkOrders(tp);
    arr := FillKeyCube(tp.teams, arr);
    forall k ensures k in tp.opponents <==> IndexOf(tp.teams, k) < |tp.teams| {
    }
  }

  /** The first pass: a 1 for team k, opponent i, later opponent j. */
  method MarkOrders(tp: TeamPriority) returns (arr: PriorityArray)
    requires tp.IsDict()
    ensures forall k, a, b :: (k, a, b) in arr <==> IsPrec(tp, k, a, b)
    ensures forall key :: key in arr ==> arr[key] == 1
  {
    arr := map[];
    var x := 0;
    while x < |tp.teams|
      invariant 0 <= x <= |tp.teams|
      invariant forall k, a, b :: (k, a, b) in arr <==> DoneTeam(tp, x, k) && IsPrec(tp, k, a, b)
      invariant forall key :: key in arr ==> arr[key] == 1
    {
      var k := tp.teams[x];
      var s := tp.opponents[k];
      var i := 0;
      while i < |s| - 1
        invariant 0 <= i <= |s|
        invariant forall k', a, b :: (k', a, b) in arr <==>
          (DoneTeam(tp, x, k') && IsPrec(tp, k', a, b)) || (k' == k && PrecedesBefore(s, a, b, i))
        invariant forall key :: key in arr ==> arr[key] == 1
      {
        var j := i + 1;
        while j < |s|
          invariant i + 1 <= j <= |s|
          invariant forall k', a, b :: (k', a, b) in arr <==>
            (DoneTeam(tp, x, k') && IsPrec(tp, k', a, b))
            || (k' == k && (PrecedesBefore(s, a, b, i) || PrecedesAt(s, a, b, i, j)))
          invariant forall key :: key in arr ==> arr[key] == 1
        {
          arr := arr[(k, s[i], s[j]) := 1];
          j := j + 1;
        }
        forall a, b ensures PrecedesBefore(s, a, b, i + 1) <==> PrecedesBefore(s, a, b, i) || PrecedesAt(s, a, b, i, |s|) {
          InnerPassDone(s, a, b, i);
        }
        i := i + 1;
      }
      forall a, b ensures PrecedesBefore(s, a, b, i) <==> Precedes(s, a, b) {
        OuterPassDone(s, a, b, i);
      }
      forall k' ensures DoneTeam(tp, x + 1, k') <==> DoneTeam(tp, x, k') || k' == k {
        if DoneTeam(tp, x + 1, k') {
          var y :| 0 <= y < x + 1 && y < |tp.teams| && tp.teams[y] == k';
          assert y < x || k' == k;
        }
        if k' == k {
          assert tp.teams[x] == k';
        }
      }
      x := x + 1;
    }
    forall k | k in tp.opponents ensures DoneTeam(tp, x, k) {
      assert k in tp.teams;
    }
  }

  /** The second pass: every triple of keys the first pass left undefined
      gets a 0. */
  method FillKeyCube(keys: seq<int>, ones: PriorityArray) returns (arr: PriorityArray)
    requires Distinct(keys)
    ensures forall k, a, b :: (k, a, b) in arr <==> (k, a, b) in ones || FillDone(keys, k, a, b, |keys|, 0, 0)
    ensures forall key :: key in arr ==> arr[key] == if key in ones then ones[key] else 0
  {
    arr := ones;
    for x := 0 to |keys|
      invariant forall k, a, b :: (k, a, b) in arr <==> (k, a, b) in ones || FillDone(keys, k, a, b, x, 0, 0)
      invariant forall key :: key in arr ==> arr[key] == if key in ones then ones[key] else 0
    {
      for y := 0 to |keys|
        invariant forall k, a, b :: (k, a, b) in arr <==> (k, a, b) in ones || FillDone(keys, k, a, b, x, y, 0)
        invariant forall key :: key in arr ==> arr[key] == if key in ones then ones[key] else 0
      {
        for z := 0 to |keys|
          invariant forall k, a, b :: (k, a, b) in arr <==> (k, a, b) in ones || FillDone(keys, k, a, b, x, y, z)
          invariant forall key :: key in arr ==> arr[key] == if key in ones then ones[key] else 0
        {
          if (keys[x], keys[y], keys[z]) !in arr {
            arr := arr[(keys[x], keys[y], keys[z]) := 0];
          }
        }
      }
    }
  }

  /** The fill pass has visited (k, a, b): all three are keys and their
      positions come before (x, y, z) in the loops' lexicographic order. */
  ghost predicate FillDone(keys: seq<int>, k: int, a: int, b: int, x: int, y: int, z: int) {
    var p, q, w := IndexOf(keys, k), IndexOf(keys, a), IndexOf(keys, b);
    && p < |keys| && q < |keys| && w < |keys|
    && (p < x || (p == x && (q < y || (q == y && w < z))))
  }

  /** A precedence table has exactly one value per triple. */
  lemma TableUnique(tp: TeamPriority, arr1: PriorityArray, arr2: PriorityArray)
    requires IsPriorityTable(tp, arr1) && IsPriorityTable(tp, arr2)
    ensures arr1 == arr2
  {
    assert forall key :: key in arr1 <==> key in arr2 by {
      forall key ensures key in arr1 <==> key in arr2 {
        var (k, a, b) := key;
        assert (k, a, b) in arr1 <==> (k, a, b) in arr2;
      }
    }
    forall key | key in arr1 ensures arr1[key] == arr2[key] {
      var (k, a, b) := key;
      assert arr1[(k, a, b)] == arr2[(k, a, b)];
    }
  }

  /** Within an order without repetitions, precedence is comparison of positions. */
  lemma PrecedesByIndex(s: seq<int>, a: int, b: int)
    requires Distinct(s)
    ensures Precedes(s, a, b) <==> a in s && b in s && IndexOf(s, a) < IndexOf(s, b)
  {
    if Precedes(s, a, b) {
      var p, q :| 0 <= p < q < |s| && s[p] == a && s[q] == b;
      assert IndexOf(s, a) == p && IndexOf(s, b) == q;
    }
    if a in s && b in s && IndexOf(s, a) < IndexOf(s, b) {
      assert s[IndexOf(s, a)] == a && s[IndexOf(s, b)] == b;
    }
  }

  /**
   * For a well-formed priority, team k's slice of the table is a strict total
   * order on its opponents: nothing precedes itself, k itself is never ranked,
   * exactly one of two distinct opponents comes first, and precedence chains.
   */
  lemma TableIsStrictOrder(tp: TeamPriority, arr: PriorityArray, k: int)
    requires WellFormed(tp) && IsPriorityTable(tp, arr) && k in tp.opponents
    ensures forall a :: a in tp.opponents ==> arr[(k, a, a)] == 0 && arr[(k, k, a)] == 0 && arr[(k, a, k)] == 0
    ensures forall a, b :: a in tp.opponents && b in tp.opponents && a != b && a != k && b != k ==>
      arr[(k, a, b)] + arr[(k, b, a)] == 1
    ensures forall a, b, c ::
      (k, a, b) in arr && (k, b, c) in arr && (k, a, c) in arr && arr[(k, a, b)] == 1 && arr[(k, b, c)] == 1
      ==> arr[(k, a, c)] == 1
  {
    var s := tp.opponents[k];
    forall a, b ensures Precedes(s, a, b) <==> a in s && b in s && IndexOf(s, a) < IndexOf(s, b) {
      PrecedesByIndex(s, a, b);
    }
  }

  /** Sum over the keys i of arr[(k, i, j)]. */
  function ColumnSum(arr: PriorityArray, k: int, j: int, keys: seq<int>): int
    requires forall x :: 0 <= x < |keys| ==> (k, keys[x], j) in arr
  {
    if keys == [] then 0
    else ColumnSum(arr, k, j, keys[..|keys| - 1]) + arr[(k, keys[|keys| - 1], j)]
  }

  lemma {:induction false} ColumnSumCounts(arr: PriorityArray, k: int, j: int, keys: seq<int>, S: set<int>)
    requires forall x :: 0 <= x < |keys| ==> (k, keys[x], j) in arr
    requires forall x :: 0 <= x < |keys| ==> arr[(k, keys[x], j)] == if keys[x] in S then 1 else 0
    ensures ColumnSum(arr, k, j, keys) == CountIn(keys, S)
  {
    if keys != [] {
      ColumnSumCounts(arr, k, j, keys[..|keys| - 1], S);
    }
  }

  /**
   * For a well-formed priority, summing team k's table column j over all
   * keys gives j's 0-based position in k's order: the number of opponents
   * k meets before j.
   */
  lemma ColumnSumIsPosition(tp: TeamPriority, arr: PriorityArray, k: int, j: int)
    requires WellFormed(tp) && IsPriorityTable(tp, arr) && k in tp.opponents
    requires j in tp.opponents[k]
    ensures forall x :: 0 <= x < |tp.teams| ==> (k, tp.teams[x], j) in arr
    ensures ColumnSum(arr, k, j, tp.teams) == IndexOf(tp.opponents[k], j)
  {
    var s := tp.opponents[k];
    var p := IndexOf(s, j);
    var before := Elems(s[..p]);
    forall x | 0 <= x < |tp.teams|
      ensures (k, tp.teams[x], j) in arr && arr[(k, tp.teams[x], j)] == if tp.teams[x] in before then 1 else 0
    {
      var i := tp.teams[x];
      PrecedesByIndex(s, i, j);
      if i in before {
        var q :| 0 <= q < p && s[q] == i;
        assert IndexOf(s, i) <= q;
      }
      if i in s && IndexOf(s, i) < p {
        assert s[..p][IndexOf(s, i)] == i;
      }
    }
    ColumnSumCounts(arr, k, j, tp.teams, before);
    CountInCard(tp.teams, before);
    forall i | i in before ensures i in Elems(tp.teams) {
      assert i in s;
      assert i in tp.opponents;
    }
    assert Elems(tp.teams) * before == before;
    assert Distinct(s[..p]);
    DistinctCard(s[..p]);
  }

  // ---------------------------------------------------------------------
  // Edge list
  // ---------------------------------------------------------------------

  /** The pair node of teams t and u: (min(t, u), max(t, u)). */
  function Canon(t: int, u: int): (n: Node)
    ensures n.0 <= n.1
    ensures {n.0, n.1} == {t, u}
  {
    if t <= u then (t, u) else (u, t)
  }

  /** The edges contributed by team t with order s: consecutive opponents,
      as pair nodes. */
  function TeamEdges(t: int, s: seq<int>): (es: seq<Edge>)
    ensures |es| == if |s| <= 1 then 0 else |s| - 1
    ensures forall m :: 0 <= m < |es| ==> es[m] == (Canon(t, s[m]), Canon(t, s[m + 1]))
    decreases |s|
  {
    if |s| <= 1 then [] else [(Canon(t, s[0]), Canon(t, s[1]))] + TeamEdges(t, s[1..])
  }

  /** The edges of the teams listed in `keys`, team after team. */
  function EdgesOf(keys: seq<int>, opp: map<int, seq<int>>): seq<Edge>
    requires forall x :: 0 <= x < |keys| ==> keys[x] in opp
  {
    if keys == [] then []
    else EdgesOf(keys[..|keys| - 1], opp) + TeamEdges(keys[|keys| - 1], opp[keys[|keys| - 1]])
  }

  /** The edge list of a priority, in dictionary order. */
  function EdgeList(tp: TeamPriority): seq<Edge>
    requires tp.IsDict()
  {
    EdgesOf(tp.teams, tp.opponents)
  }

  /** convert_team_priority_to_edges: one edge per consecutive pair of every
      team's order, appended team by team. */
  method ConvertToEdges(tp: TeamPriority) returns (edges: seq<Edge>)
    requires tp.IsDict()
    ensures edges == EdgeList(tp)
  {
    edges := [];
    for x := 0 to |tp.teams|
      invariant edges == EdgesOf(tp.teams[..x], tp.opponents)
    {
      var t := tp.teams[x];
      var s := tp.opponents[t];
      ghost var before := edges;
      var i := 0;
      while i < |s| - 1
        invariant 0 <= i <= |TeamEdges(t, s)|
        invariant edges == before + TeamEdges(t, s)[..i]
      {
        var start, end := Canon(t, s[i]), Canon(t, s[i + 1]);
        edges := edges + [(start, end)];
        i := i + 1;
      }
      assert tp.teams[..x + 1][..x] == tp.teams[..x];
    }
    assert tp.teams[..|tp.teams|] == tp.teams;
  }

  /** The edge list of keys a + b is the list of a followed by that of b. */
  lemma {:induction false} EdgesOfAppend(a: seq<int>, b: seq<int>, opp: map<int, seq<int>>)
    requires forall x :: 0 <= x < |a + b| ==> (a + b)[x] in opp
    ensures forall x :: 0 <= x < |a| ==> a[x] in opp
    ensures forall x :: 0 <= x < |b| ==> b[x] in opp
    ensures EdgesOf(a + b, opp) == EdgesOf(a, opp) + EdgesOf(b, opp)
  {
    assert forall x :: 0 <= x < |a| ==> a[x] == (a + b)[x];
    assert forall x :: 0 <= x < |b| ==> b[x] == (a + b)[|a| + x];
    if b == [] {
      assert a + b == a;
    } else {
      var b' := b[..|b| - 1];
      assert (a + b)[..|a + b| - 1] == a + b';
      assert (a + b)[|a + b| - 1] == b[|b| - 1];
      EdgesOfAppend(a, b', opp);
    }
  }

  /**
   * Edge m of the team at dictionary position x sits right after the edges
   * of the teams before it, and joins (t, s[m]) to (t, s[m + 1]).
   */
  lemma EdgeAt(tp: TeamPriority, x: int, m: int)
    requires tp.IsDict() && 0 <= x < |tp.teams|
    requires 0 <= m < |tp.opponents[tp.teams[x]]| - 1
    ensures var t := tp.teams[x]; var s := tp.opponents[t];
      var at := |EdgesOf(tp.teams[..x], tp.opponents)| + m;
      at < |EdgeList(tp)| && EdgeList(tp)[at] == (Canon(t, s[m]), Canon(t, s[m + 1]))
  {
    var keys := tp.teams;
    assert keys == keys[..x] + [keys[x]] + keys[x + 1..];
    EdgesOfAppend(keys[..x] + [keys[x]], keys[x + 1..], tp.opponents);
    EdgesOfAppend(keys[..x], [keys[x]], tp.opponents);
    assert EdgesOf([keys[x]], tp.opponents) == TeamEdges(keys[x], tp.opponents[keys[x]]);
  }

  /** Team t's edges, when every team has n - 1 opponents, number n - 2. */
  lemma {:induction false} EdgesOfLength(keys: seq<int>, opp: map<int, seq<int>>, n: int)
    requires n >= 2
    requires forall x :: 0 <= x < |keys| ==> keys[x] in opp && |opp[keys[x]]| == n - 1
    ensures |EdgesOf(keys, opp)| == |keys| * (n - 2)
  {
    if keys != [] {
      EdgesOfLength(keys[..|keys| - 1], opp, n);
      assert |keys| * (n - 2) == (|keys| - 1) * (n - 2) + (n - 2);
    }
  }

  /** For a well-formed priority of N >= 2 teams the edge list has N(N - 2)
      entries: N - 2 per team. */
  lemma EdgeCount(tp: TeamPriority)
    requires WellFormed(tp) && tp.NumTeams() >= 2
    ensures |EdgeList(tp)| == tp.NumTeams() * (tp.NumTeams() - 2)
  {
    forall x | 0 <= x < |tp.teams| ensures |tp.opponents[tp.teams[x]]| == tp.NumTeams() - 1 {
      OpponentOrderLength(tp.opponents[tp.teams[x]], tp.teams[x], tp.NumTeams());
    }
    EdgesOfLength(tp.teams, tp.opponents, tp.NumTeams());
  }

  /** The example of the converter's documentation. */
  lemma ThreeTeamEdges()
    ensures var tp := TeamPriority([1, 2, 3], map[1 := [2, 3], 2 := [1, 3], 3 := [1, 2]]);
      tp.IsDict() && EdgeList(tp) == [((1, 2), (1, 3)), ((1, 2), (2, 3)), ((1, 3), (2, 3))]
  {
    var tp := TeamPriority([1, 2, 3], map[1 := [2, 3], 2 := [1, 3], 3 := [1, 2]]);
    assert tp.teams[..2] == [1, 2] && [1, 2][..1] == [1] && [1][..0] == [];
    assert TeamEdges(1, [2, 3]) == [((1, 2), (1, 3))];
    assert TeamEdges(2, [1, 3]) == [((1, 2), (2, 3))];
    assert TeamEdges(3, [1, 2]) == [((1, 3), (2, 3))];
    assert EdgesOf([1], tp.opponents) == [((1, 2), (1, 3))];
    assert EdgesOf([1, 2], tp.opponents) == [((1, 2), (1, 3)), ((1, 2), (2, 3))];
  }

  /** (a, b) is edge m of team k's order. */
  ghost predicate IsTeamEdge(tp: TeamPriority, e: Edge) {
    exists k, m :: k in tp.opponents && 0 <= m < |tp.opponents[k]| - 1 &&
      e == (Canon(k, tp.opponents[k][m]), Canon(k, tp.opponents[k][m + 1]))
  }

  /** e is edge m of the team at position x of `keys`. */
  ghost predicate IsEdgeOfKeys(keys: seq<int>, opp: map<int, seq<int>>, e: Edge)
    requires forall x :: 0 <= x < |keys| ==> keys[x] in opp
  {
    exists x, m :: 0 <= x < |keys| && 0 <= m < |opp[keys[x]]| - 1 &&
      e == (Canon(keys[x], opp[keys[x]][m]), Canon(keys[x], opp[keys[x]][m + 1]))
  }

  lemma {:induction false} EdgesOfMembers(keys: seq<int>, opp: map<int, seq<int>>, e: Edge)
    requires forall x :: 0 <= x < |keys| ==> keys[x] in opp
    ensures e in EdgesOf(keys, opp) <==> IsEdgeOfKeys(keys, opp, e)
  {
    if keys != [] {
      var init, t := keys[..|keys| - 1], keys[|keys| - 1];
      EdgesOfMembers(init, opp, e);
      var te := TeamEdges(t, opp[t]);
      assert EdgesOf(keys, opp) == EdgesOf(init, opp) + te;
      if e in te {
        var m :| 0 <= m < |te| && te[m] == e;
        assert 0 <= m < |opp[keys[|keys| - 1]]| - 1;
        assert e == (Canon(keys[|keys| - 1], opp[keys[|keys| - 1]][m]), Canon(keys[|keys| - 1], opp[keys[|keys| - 1]][m + 1]));
      }
      if e in EdgesOf(init, opp) {
        var x, m :| 0 <= x < |init| && 0 <= m < |opp[init[x]]| - 1 &&
          e == (Canon(init[x], opp[init[x]][m]), Canon(init[x], opp[init[x]][m + 1]));
        assert keys[x] == init[x];
        assert IsEdgeOfKeys(keys, opp, e);
      }
      if IsEdgeOfKeys(keys, opp, e) {
        var x, m :| 0 <= x < |keys| && 0 <= m < |opp[keys[x]]| - 1 &&
          e == (Canon(keys[x], opp[keys[x]][m]), Canon(keys[x], opp[keys[x]][m + 1]));
        if x == |keys| - 1 {
          assert te[m] == e;
        } else {
          assert init[x] == keys[x];
          assert IsEdgeOfKeys(init, opp, e);
        }
      }
    }
  }

  /** The edge list holds exactly the consecutive pairs of every team's order. */
  lemma EdgeListMembers(tp: TeamPriority, e: Edge)
    requires tp.IsDict()
    ensures e in EdgeList(tp) <==> IsTeamEdge(tp, e)
  {
    EdgesOfMembers(tp.teams, tp.opponents, e);
    if IsTeamEdge(tp, e) {
      var k, m :| k in tp.opponents && 0 <= m < |tp.opponents[k]| - 1 &&
        e == (Canon(k, tp.opponents[k][m]), Canon(k, tp.opponents[k][m + 1]));
      assert k in tp.teams;
      var x :| 0 <= x < |tp.teams| && tp.teams[x] == k;
    }
  }

  /** Both ends of a team-t edge are matches of t; when t is not in its own
      order they are matches between two different teams. */
  lemma TeamEdgesTouch(t: int, s: seq<int>)
    ensures forall e :: e in TeamEdges(t, s) ==> (e.0.0 == t || e.0.1 == t) && (e.1.0 == t || e.1.1 == t)
    ensures t !in s ==> forall e :: e in TeamEdges(t, s) ==> e.0.0 < e.0.1 && e.1.0 < e.1.1
  {
  }

  /** Team t's matches in the order t wishes to play them. */
  function TeamPath(t: int, s: seq<int>): (path: seq<Node>)
    ensures |path| == |s| && forall m :: 0 <= m < |s| ==> path[m] == Canon(t, s[m])
  {
    if s == [] then [] else [Canon(t, s[0])] + TeamPath(t, s[1..])
  }

  /**
   * For a well-formed priority, team t's edges form one path that visits
   * every match of t exactly once, in t's priority order.
   */
  lemma TeamPathCovers(tp: TeamPriority, t: int)
    requires WellFormed(tp) && t in tp.opponents
    ensures var s := tp.opponents[t]; var path := TeamPath(t, s);
      && IsPath(Elems(TeamEdges(t, s)), path)
      && Distinct(path)
      && forall i, j :: (i, j) in path <==> 1 <= i < j <= tp.NumTeams() && (i == t || j == t)
  {
    var s := tp.opponents[t];
    assert IsOpponentOrder(s, t, tp.NumTeams());
    TeamPathAlongEdges(t, s);
    TeamPathMatches(t, s, tp.NumTeams());
  }

  lemma TeamPathAlongEdges(t: int, s: seq<int>)
    requires Distinct(s)
    ensures IsPath(Elems(TeamEdges(t, s)), TeamPath(t, s))
    ensures Distinct(TeamPath(t, s))
  {
    var path := TeamPath(t, s);
    var te := TeamEdges(t, s);
    forall m | 0 <= m < |path| - 1 ensures (path[m], path[m + 1]) in Elems(te) {
      assert te[m] == (path[m], path[m + 1]);
    }
    forall a, b | 0 <= a < b < |path| ensures path[a] != path[b] {
      assert s[a] != s[b];
    }
  }

  lemma TeamPathMatches(t: int, s: seq<int>, n: int)
    requires IsOpponentOrder(s, t, n) && 1 <= t <= n
    ensures forall i, j :: (i, j) in TeamPath(t, s) <==> 1 <= i < j <= n && (i == t || j == t)
  {
    var path := TeamPath(t, s);
    forall i, j ensures (i, j) in path <==> 1 <= i < j <= n && (i == t || j == t) {
      if (i, j) in path {
        var m :| 0 <= m < |path| && path[m] == (i, j);
        assert s[m] in s;
        assert path[m] == Canon(t, s[m]);
      }
      if 1 <= i < j <= n && (i == t || j == t) {
        var u := if i == t then j else i;
        assert u in s;
        assert path[IndexOf(s, u)] == (i, j);
      }
    }
  }

  // ---------------------------------------------------------------------
  // Pair graph
  // ---------------------------------------------------------------------

  /** The pairs (i, j) with lo <= i < j <= n, row by row. */
  function PairsFrom(lo: int, n: int): seq<Node>
    decreases n - lo
  {
    if lo >= n then [] else seq(n - lo, k => (lo, lo + 1 + k)) + PairsFrom(lo + 1, n)
  }

  /** The node list of the pair graph: every match (i, j), 1 <= i < j <= n. */
  function PairNodes(n: int): seq<Node> {
    PairsFrom(1, n)
  }

  lemma {:induction false} PairsFromFacts(lo: int, n: int)
    ensures forall p :: p in PairsFrom(lo, n) <==> lo <= p.0 < p.1 <= n
    ensures |PairsFrom(lo, n)| == Choose2(n - lo + 1)
    ensures Distinct(PairsFrom(lo, n))
    decreases n - lo
  {
    if lo < n {
      PairsFromFacts(lo + 1, n);
      var row := seq(n - lo, k => (lo, lo + 1 + k));
      var rest := PairsFrom(lo + 1, n);
      forall p: Node | lo <= p.0 < p.1 <= n ensures p in PairsFrom(lo, n) {
        if p.0 == lo {
          assert row[p.1 - lo - 1] == p;
        } else {
          assert p in rest;
        }
      }
      var m := n - lo + 1;
      assert (m - 1) * m == (m - 1) * (m - 2) + 2 * (m - 1);
      forall a, b | 0 <= a < b < |row| + |rest| ensures (row + rest)[a] != (row + rest)[b] {
        if a < |row| && b >= |row| {
          assert rest[b - |row|] in rest;
        }
      }
    }
  }

  /** The nodes of the pair graph are exactly the N(N - 1)/2 matches. */
  lemma PairNodesFacts(n: int)
    ensures forall p :: p in PairNodes(n) <==> 1 <= p.0 < p.1 <= n
    ensures |Elems(PairNodes(n))| == |PairNodes(n)| == Choose2(n)
  {
    PairsFromFacts(1, n);
    DistinctCard(PairNodes(n));
  }

  /** The end nodes of a list of edges. */
  function Endpoints(es: seq<Edge>): set<Node> {
    (set e | e in es :: e.0) + (set e | e in es :: e.1)
  }

  /**
   * convert_team_priority_to_graph: the nodes are all matches of 1..N (the
   * number of dictionary entries) plus whatever ends the edges name, the
   * edges those of the edge list.
   */
  function BuildGraph(tp: TeamPriority): (g: Graph)
    requires tp.IsDict()
    ensures Closed(g)
    ensures forall e :: e in g.edges <==> IsTeamEdge(tp, e)
  {
    var es := EdgeList(tp);
    forall e ensures e in es <==> IsTeamEdge(tp, e) {
      EdgeListMembers(tp, e);
    }
    Graph(Elems(PairNodes(tp.NumTeams())) + Endpoints(es), Elems(es))
  }

  /** For a well-formed priority every edge joins two matches of 1..N. */
  lemma TeamEdgeInRange(tp: TeamPriority, e: Edge)
    requires WellFormed(tp) && IsTeamEdge(tp, e)
    ensures 1 <= e.0.0 < e.0.1 <= tp.NumTeams() && 1 <= e.1.0 < e.1.1 <= tp.NumTeams()
  {
    var k, m :| k in tp.opponents && 0 <= m < |tp.opponents[k]| - 1 &&
      e == (Canon(k, tp.opponents[k][m]), Canon(k, tp.opponents[k][m + 1]));
    var s := tp.opponents[k];
    assert IsOpponentOrder(s, k, tp.NumTeams());
    assert s[m] in s && s[m + 1] in s;
  }

  /** For a well-formed priority the graph adds no node beyond the matches:
      its nodes are exactly the N(N - 1)/2 pairs (i, j), 1 <= i < j <= N. */
  lemma GraphNodes(tp: TeamPriority)
    requires WellFormed(tp)
    ensures forall p :: p in BuildGraph(tp).nodes <==> 1 <= p.0 < p.1 <= tp.NumTeams()
    ensures |BuildGraph(tp).nodes| == Choose2(tp.NumTeams())
  {
    var n := tp.NumTeams();
    var es := EdgeList(tp);
    var pairs := Elems(PairNodes(n));
    PairNodesFacts(n);
    forall p | p in Endpoints(es) ensures p in pairs {
      var e :| e in es && (p == e.0 || p == e.1);
      EdgeListMembers(tp, e);
      TeamEdgeInRange(tp, e);
    }
    assert BuildGraph(tp).nodes == pairs;
  }
}

=== FILE: generator.dfy ===
/**
 * The generator of team priorities used by the experiments: teams 1..F keep
 * their opponents in ascending order, every other team takes each ordering
 * of its opponents in turn, and the result lists one priority per
 * combination, in the order of Python's itertools.permutations and
 * itertools.product.
 */
module Generator {
  import opened Types

  // ---------------------------------------------------------------------
  // Ranges, factorials and powers
  // ---------------------------------------------------------------------

  /** range(lo, hi + 1) is range(lo, hi) followed by hi. */
  lemma RangeSnoc(lo: int, hi: int)
    requires lo <= hi
    ensures Range(lo, hi + 1) == Range(lo, hi) + [hi]
  {
  }

  /** Python's range(lo, hi). */
  function Range(lo: int, hi: int): (s: seq<int>)
    ensures |s| == if hi <= lo then 0 else hi - lo
    ensures forall k :: 0 <= k < |s| ==> s[k] == lo + k
    decreases hi - lo
  {
    if hi <= lo then [] else [lo] + Range(lo + 1, hi)
  }

  /** The set lo..hi - 1. */
  function Between(lo: int, hi: int): (s: set<int>)
    ensures forall i :: i in s <==> lo <= i < hi
    decreases hi - lo
  {
    if hi <= lo then {} else {lo} + Between(lo + 1, hi)
  }

  function Fact(k: int): nat
    decreases k
  {
    if k <= 0 then 1 else k * Fact(k - 1)
  }

  function Pow(b: nat, e: int): nat
    decreases e
  {
    if e <= 0 then 1 else b * Pow(b, e - 1)
  }

  /** [t for t in range(1, n + 1) if t != i]: the opponents of i, ascending. */
  function Others(n: int, i: int): (s: seq<int>)
    ensures forall u :: u in s <==> 1 <= u <= n && u != i
    ensures forall a :: 0 <= a < |s| ==> 1 <= s[a] <= n
    ensures forall a, b :: 0 <= a < b < |s| ==> s[a] < s[b]
    decreases n
  {
    if n < 1 then [] else Others(n - 1, i) + (if n == i then [] else [n])
  }

  /** The ascending opponents of a team of 1..n are an opponent order of
      length n - 1. */
  lemma OthersIsOrder(n: int, i: int)
    requires 1 <= i <= n
    ensures IsOpponentOrder(Others(n, i), i, n) && |Others(n, i)| == n - 1
  {
    OpponentOrderLength(Others(n, i), i, n);
  }

  // ---------------------------------------------------------------------
  // itertools.permutations
  // ---------------------------------------------------------------------

  /** Every sequence of P with `a` put in front. */
  function Prefixed<T>(a: T, P: seq<seq<T>>): (Q: seq<seq<T>>)
    ensures |Q| == |P| && forall k :: 0 <= k < |Q| ==> Q[k] == [a] + P[k]
  {
    seq(|P|, k requires 0 <= k < |P| => [a] + P[k])
  }

  /** s without its k-th element. */
  function RemoveAt<T>(s: seq<T>, k: int): (t: seq<T>)
    requires 0 <= k < |s|
    ensures |t| == |s| - 1
  {
    s[..k] + s[k + 1..]
  }

  /** itertools.permutations(s): for each position k in order, s[k] followed
      by every permutation of the other elements. */
  function Permutations(s: seq<int>): seq<seq<int>>
    decreases |s|, 1
  {
    if s == [] then [[]] else PermutationsFrom(s, 0)
  }

  /** The permutations of s that start with the element at position k or
      a later one. */
  function PermutationsFrom(s: seq<int>, k: int): seq<seq<int>>
    requires 0 <= k <= |s|
    decreases |s|, 0, |s| - k
  {
    if k == |s| then []
    else Prefixed(s[k], Permutations(RemoveAt(s, k))) + PermutationsFrom(s, k + 1)
  }

  /** Removing position k removes one copy of s[k]. */
  lemma RemoveAtMultiset(s: seq<int>, k: int)
    requires 0 <= k < |s|
    ensures multiset(s) == multiset(RemoveAt(s, k)) + multiset{s[k]}
  {
    assert s == s[..k] + [s[k]] + s[k + 1..];
  }

  /** There are |s|! permutations. */
  lemma {:induction false} PermutationsCount(s: seq<int>)
    ensures |Permutations(s)| == Fact(|s|)
    decreases |s|, 1
  {
    if s != [] {
      PermutationsFromCount(s, 0);
    }
  }

  lemma {:induction false} PermutationsFromCount(s: seq<int>, k: int)
    requires 0 <= k <= |s| && s != []
    ensures |PermutationsFrom(s, k)| == (|s| - k) * Fact(|s| - 1)
    decreases |s|, 0, |s| - k
  {
    if k < |s| {
      var f := Fact(|s| - 1);
      PermutationsCount(RemoveAt(s, k));
      PermutationsFromCount(s, k + 1);
      assert |PermutationsFrom(s, k)| == f + (|s| - k - 1) * f;
    }
  }

  /** Every permutation rearranges the elements of s. */
  lemma {:induction false} PermutationsSound(s: seq<int>)
    ensures forall p :: p in Permutations(s) ==> multiset(p) == multiset(s)
    decreases |s|, 1
  {
    if s != [] {
      PermutationsFromSound(s, 0);
    }
  }

  lemma {:induction false} PermutationsFromSound(s: seq<int>, k: int)
    requires 0 <= k <= |s|
    ensures forall p :: p in PermutationsFrom(s, k) ==> multiset(p) == multiset(s)
    decreases |s|, 0, |s| - k
  {
    if k < |s| {
      var rest := RemoveAt(s, k);
      PermutationsSound(rest);
      PermutationsFromSound(s, k + 1);
      RemoveAtMultiset(s, k);
      PrefixedSound(s[k], Permutations(rest), multiset(rest));
    }
  }

  /** Putting `a` in front of sequences with the elements M gives sequences
      with the elements M and one more a. */
  lemma PrefixedSound(a: int, P: seq<seq<int>>, M: multiset<int>)
    requires forall p :: p in P ==> multiset(p) == M
    ensures forall p :: p in Prefixed(a, P) ==> multiset(p) == M + multiset{a}
  {
    var Q := Prefixed(a, P);
    forall p | p in Q ensures multiset(p) == M + multiset{a} {
      var q :| 0 <= q < |Q| && Q[q] == p;
      assert P[q] in P;
      assert p == [a] + P[q];
    }
  }

  /** Every rearrangement of s is among its permutations. */
  lemma {:induction false} PermutationsComplete(s: seq<int>, p: seq<int>)
    requires multiset(p) == multiset(s)
    ensures p in Permutations(s)
    decreases |s|
  {
    if s == [] {
      assert |multiset(p)| == 0;
    } else {
      assert |p| == |s| by {
        assert |multiset(p)| == |multiset(s)|;
      }
      assert p[0] in multiset(s);
      var j := IndexOf(s, p[0]);
      RemoveAtMultiset(s, j);
      assert p == [p[0]] + p[1..];
      assert multiset(p) == multiset{p[0]} + multiset(p[1..]);
      assert multiset(p[1..]) == multiset(p) - multiset{p[0]};
      assert multiset(p[1..]) == multiset(RemoveAt(s, j));
      PermutationsComplete(RemoveAt(s, j), p[1..]);
      var P := Permutations(RemoveAt(s, j));
      var q :| 0 <= q < |P| && P[q] == p[1..];
      assert Prefixed(s[j], P)[q] == p;
      PermutationsFromHas(s, 0, j, p);
    }
  }

  /** What position j contributes lies in every PermutationsFrom(s, k) with
      k <= j. */
  lemma {:induction false} PermutationsFromHas(s: seq<int>, k: int, j: int, p: seq<int>)
    requires 0 <= k <= j < |s|
    requires p in Prefixed(s[j], Permutations(RemoveAt(s, j)))
    ensures p in PermutationsFrom(s, k)
    decreases j - k
  {
    if k < j {
      PermutationsFromHas(s, k + 1, j, p);
    }
  }

  /** In a sequence without repetitions every element occurs once. */
  lemma {:induction false} DistinctMultiplicity(s: seq<int>)
    requires Distinct(s)
    ensures forall u :: multiset(s)[u] == if u in s then 1 else 0
    decreases |s|
  {
    if s != [] {
      var init, last := s[..|s| - 1], s[|s| - 1];
      assert s == init + [last];
      DistinctSnoc(s);
      DistinctMultiplicity(init);
      assert last !in init;
    }
  }

  /** A rearrangement of a sequence without repetitions has none, and the
      same elements. */
  lemma PermutationDistinct(s: seq<int>, p: seq<int>)
    requires Distinct(s) && multiset(p) == multiset(s)
    ensures Distinct(p) && forall u :: u in p <==> u in s
  {
    DistinctMultiplicity(s);
    forall a, b | 0 <= a < b < |p| ensures p[a] != p[b] {
      RepeatCounts(p, a, b);
    }
    forall u ensures u in p <==> u in s {
      assert u in p <==> u in multiset(p);
    }
  }

  /** An element found at two positions occurs at least twice. */
  lemma RepeatCounts(p: seq<int>, a: int, b: int)
    requires 0 <= a < b < |p|
    ensures p[a] == p[b] ==> multiset(p)[p[a]] >= 2
  {
    assert p == p[..a] + [p[a]] + p[a + 1..b] + [p[b]] + p[b + 1..];
  }

  /** Two sequences without repetitions and with the same elements are
      rearrangements of each other. */
  lemma SameElementsMultiset(a: seq<int>, b: seq<int>)
    requires Distinct(a) && Distinct(b) && forall u :: u in a <==> u in b
    ensures multiset(a) == multiset(b)
  {
    DistinctMultiplicity(a);
    DistinctMultiplicity(b);
    assert forall u :: multiset(a)[u] == multiset(b)[u];
  }

  // ---------------------------------------------------------------------
  // itertools.product
  // ---------------------------------------------------------------------

  /** itertools.product(*lists): one pick from every list, the first list
      varying slowest. */
  function Product<T>(lists: seq<seq<T>>): seq<seq<T>>
    decreases |lists|
  {
    if lists == [] then [[]] else Extend(lists[0], Product(lists[1..]))
  }

  /** Every element of l put in front of every sequence of P, l in order. */
  function Extend<T>(l: seq<T>, P: seq<seq<T>>): seq<seq<T>>
    decreases |l|
  {
    if l == [] then [] else Prefixed(l[0], P) + Extend(l[1..], P)
  }

  /** |l0| * |l1| * ... */
  function LengthsProduct<T>(lists: seq<seq<T>>): nat
    decreases |lists|
  {
    if lists == [] then 1 else |lists[0]| * LengthsProduct(lists[1..])
  }

  lemma {:induction false} ExtendCount<T>(l: seq<T>, P: seq<seq<T>>)
    ensures |Extend(l, P)| == |l| * |P|
    decreases |l|
  {
    if l != [] {
      ExtendCount(l[1..], P);
    }
  }

  /** The product has one combination per choice of one element from every
      list. */
  lemma {:induction false} ProductCount<T>(lists: seq<seq<T>>)
    ensures |Product(lists)| == LengthsProduct(lists)
    decreases |lists|
  {
    if lists != [] {
      ProductCount(lists[1..]);
      ExtendCount(lists[0], Product(lists[1..]));
    }
  }

  /** A member of Extend(l, P) is an element of l before a member of P. */
  lemma {:induction false} ExtendSound<T>(l: seq<T>, P: seq<seq<T>>, p: seq<T>)
    requires p in Extend(l, P)
    ensures |p| >= 1 && p[0] in l && p[1..] in P
    decreases |l|
  {
    var Q := Prefixed(l[0], P);
    if p in Q {
      var q :| 0 <= q < |Q| && Q[q] == p;
      assert p[1..] == P[q];
    } else {
      ExtendSound(l[1..], P, p);
    }
  }

  /** Every combination picks its k-th element from the k-th list. */
  lemma {:induction false} ProductSound<T>(lists: seq<seq<T>>, p: seq<T>)
    requires p in Product(lists)
    ensures |p| == |lists| && forall k :: 0 <= k < |p| ==> p[k] in lists[k]
    decreases |lists|
  {
    if lists != [] {
      ExtendSound(lists[0], Product(lists[1..]), p);
      ProductSound(lists[1..], p[1..]);
      forall k | 0 <= k < |p| ensures p[k] in lists[k] {
        if k > 0 {
          assert p[k] == p[1..][k - 1];
        }
      }
    }
  }

  /** An element of l before a member of P is in Extend(l, P). */
  lemma {:induction false} ExtendComplete<T>(l: seq<T>, P: seq<seq<T>>, a: T, q: seq<T>)
    requires a in l && q in P
    ensures [a] + q in Extend(l, P)
    decreases |l|
  {
    if l[0] == a {
      var k :| 0 <= k < |P| && P[k] == q;
      assert Prefixed(l[0], P)[k] == [a] + q;
    } else {
      ExtendComplete(l[1..], P, a, q);
    }
  }

  /** Every choice of one element per list is a combination. */
  lemma {:induction false} ProductComplete<T>(lists: seq<seq<T>>, p: seq<T>)
    requires |p| == |lists| && forall k :: 0 <= k < |p| ==> p[k] in lists[k]
    ensures p in Product(lists)
    decreases |lists|
  {
    if lists != [] {
      forall k | 0 <= k < |p| - 1 ensures p[1..][k] in lists[1..][k] {
        assert p[1..][k] == p[k + 1];
      }
      ProductComplete(lists[1..], p[1..]);
      ExtendComplete(lists[0], Product(lists[1..]), p[0], p[1..]);
      assert p == [p[0]] + p[1..];
    }
  }

  // ---------------------------------------------------------------------
  // The generated priorities
  // ---------------------------------------------------------------------

  /** The values of priorities_for_team: for each flexible team F + 1..n in
      order, every ordering of its opponents. */
  function FlexLists(n: int, F: int): (lists: seq<seq<seq<int>>>)
    ensures |lists| == if n <= F then 0 else n - F
    ensures forall k :: 0 <= k < |lists| ==> lists[k] == Permutations(Others(n, F + 1 + k))
  {
    var m := if n <= F then 0 else n - F;
    seq(m, k requires 0 <= k < m => Permutations(Others(n, F + 1 + k)))
  }

  /** The keys of a generated priority: the fixed teams 1..F, then one
      flexible team per pick. */
  function PriorityKeys(F: int, m: nat): seq<int> {
    Range(1, F + 1) + Range(F + 1, F + 1 + m)
  }

  /** One more flexible team appends its id to the keys. */
  lemma KeysSnoc(F: int, m: nat)
    ensures PriorityKeys(F, m + 1) == PriorityKeys(F, m) + [F + 1 + m]
  {
    RangeSnoc(F + 1, F + 1 + m);
    assert Range(1, F + 1) + (Range(F + 1, F + 1 + m) + [F + 1 + m])
        == (Range(1, F + 1) + Range(F + 1, F + 1 + m)) + [F + 1 + m];
  }

  /** The priority built from one combination x of the flexible teams'
      orderings. */
  function Assemble(n: int, F: int, x: seq<seq<int>>): TeamPriority {
    var lo := if F >= 0 then 1 else F + 1;
    TeamPriority(
      PriorityKeys(F, |x|),
      map i | i in Between(lo, F + 1 + |x|) :: if i <= F then Others(n, i) else x[i - F - 1])
  }

  /** generate_team_priorities(n, F): a ValueError when F > n, otherwise
      one priority per combination of the product, in its order. */
  function GeneratedPriorities(n: int, F: int): (r: Result<seq<TeamPriority>>)
    ensures r.Err? <==> F > n
    ensures r.Err? ==> r.error == ValueError
  {
    if F > n then Err(ValueError)
    else
      var P := Product(FlexLists(n, F));
      Ok(seq(|P|, k requires 0 <= k < |P| => Assemble(n, F, P[k])))
  }

  /** With 0 <= F <= n there are ((n - 1)!)^(n - F) priorities; fixing
      every team leaves exactly one. */
  lemma GeneratedCount(n: int, F: int)
    requires 0 <= F <= n
    ensures |GeneratedPriorities(n, F).value| == Pow(Fact(n - 1), n - F)
  {
    var lists := FlexLists(n, F);
    ProductCount(lists);
    forall k | 0 <= k < |lists| ensures |lists[k]| == Fact(n - 1) {
      OthersIsOrder(n, F + 1 + k);
      PermutationsCount(Others(n, F + 1 + k));
    }
    LengthsOfEqual(lists, Fact(n - 1));
  }

  lemma {:induction false} LengthsOfEqual<T>(lists: seq<seq<T>>, c: nat)
    requires forall k :: 0 <= k < |lists| ==> |lists[k]| == c
    ensures LengthsProduct(lists) == Pow(c, |lists|)
    decreases |lists|
  {
    if lists != [] {
      LengthsOfEqual(lists[1..], c);
    }
  }

  /** The counts the repository's tests expect for four teams. */
  lemma FourTeamCounts()
    ensures |GeneratedPriorities(4, 0).value| == 1296
    ensures |GeneratedPriorities(4, 1).value| == 216
    ensures |GeneratedPriorities(4, 2).value| == 36
    ensures |GeneratedPriorities(4, 3).value| == 6
    ensures |GeneratedPriorities(4, 4).value| == 1
  {
    assert Fact(3) == 6 by {
      assert Fact(1) == 1;
      assert Fact(2) == 2;
    }
    assert Pow(6, 4) == 1296 by {
      assert Pow(6, 1) == 6;
      assert Pow(6, 2) == 36;
      assert Pow(6, 3) == 216;
    }
    GeneratedCount(4, 0);
    GeneratedCount(4, 1);
    GeneratedCount(4, 2);
    GeneratedCount(4, 3);
    GeneratedCount(4, 4);
  }

  /** With 0 <= F <= n the keys of a generated priority are 1..n in order. */
  lemma KeysAreIds(n: int, F: int)
    requires 0 <= F <= n
    ensures PriorityKeys(F, n - F) == Ids(n)
  {
    var keys := PriorityKeys(F, n - F);
    assert |keys| == n;
    forall k | 0 <= k < n ensures keys[k] == Ids(n)[k] {
      if k >= F {
        assert keys[k] == Range(F + 1, n + 1)[k - F];
      }
    }
  }

  /** The k-th generated priority is assembled from the k-th combination. */
  lemma GeneratedAt(n: int, F: int, k: int)
    requires F <= n && 0 <= k < |Product(FlexLists(n, F))|
    ensures |GeneratedPriorities(n, F).value| == |Product(FlexLists(n, F))|
    ensures GeneratedPriorities(n, F).value[k] == Assemble(n, F, Product(FlexLists(n, F))[k])
  {
  }

  /** With 0 <= F <= n and one ordering per flexible team, the assembled
      priority has the keys 1..n in order, the ascending opponents for the
      fixed teams and the picked orderings for the others. */
  lemma AssembleParts(n: int, F: int, x: seq<seq<int>>)
    requires 0 <= F <= n && |x| == n - F
    ensures var tp := Assemble(n, F, x);
      && tp.teams == Ids(n)
      && (forall i :: i in tp.opponents <==> 1 <= i <= n)
      && (forall i :: 1 <= i <= F ==> tp.opponents[i] == Others(n, i))
      && (forall i :: F < i <= n ==> tp.opponents[i] == x[i - F - 1])
  {
    KeysAreIds(n, F);
    var tp := Assemble(n, F, x);
    forall i ensures i in tp.opponents <==> 1 <= i <= n {
      assert i in tp.opponents <==> i in Between(1, n + 1);
    }
  }

  /** The map the assembling loops leave is the assembled priority's map. */
  lemma AssembledMap(n: int, F: int, x: seq<seq<int>>, opp: map<int, seq<int>>)
    requires forall t :: t in opp <==> 1 <= t <= F || F + 1 <= t < F + 1 + |x|
    requires forall t :: t in opp ==> opp[t] == if t <= F then Others(n, t) else x[t - F - 1]
    ensures opp == Assemble(n, F, x).opponents
  {
    var lo := if F >= 0 then 1 else F + 1;
    assert forall t :: t in opp <==> lo <= t < F + 1 + |x|;
    MapsEqual(opp, Assemble(n, F, x).opponents);
  }

  /** Two maps with the same keys and the same value at every key are
      equal. */
  lemma MapsEqual(a: map<int, seq<int>>, b: map<int, seq<int>>)
    requires forall i :: i in a <==> i in b
    requires forall i :: i in a ==> a[i] == b[i]
    ensures a == b
  {
    forall i | i in a.Keys ensures i in b.Keys {
      assert i in a;
    }
    forall i | i in b.Keys ensures i in a.Keys {
      assert i in b;
    }
    assert a.Keys == b.Keys;
    forall i | i in a ensures a[i] == b[i] {
    }
  }

  /** An ordering of the opponents of t picked from its permutations is an
      opponent order of t. */
  lemma PickedIsOrder(n: int, t: int, p: seq<int>)
    requires 1 <= t <= n && p in Permutations(Others(n, t))
    ensures IsOpponentOrder(p, t, n)
  {
    OthersIsOrder(n, t);
    PermutationsSound(Others(n, t));
    PermutationDistinct(Others(n, t), p);
  }

  /**
   * With 0 <= F <= n every generated priority is one the engine accepts:
   * keys 1..n in order, every team's value an ordering of the other teams,
   * and the fixed teams' values ascending.
   */
  lemma GeneratedWellFormed(n: int, F: int, k: int)
    requires 0 <= F <= n
    requires 0 <= k < |GeneratedPriorities(n, F).value|
    ensures var tp := GeneratedPriorities(n, F).value[k];
      && WellFormed(tp) && tp.teams == Ids(n)
      && forall i :: 1 <= i <= F ==> tp.opponents[i] == Others(n, i)
  {
    var lists := FlexLists(n, F);
    var x := Product(lists)[k];
    GeneratedAt(n, F, k);
    ProductSound(lists, x);
    var tp := Assemble(n, F, x);
    AssembleParts(n, F, x);
    forall t | 1 <= t <= n ensures IsOpponentOrder(tp.opponents[t], t, n) {
      OthersIsOrder(n, t);
      if t > F {
        assert x[t - F - 1] in lists[t - F - 1];
        PickedIsOrder(n, t, x[t - F - 1]);
      }
    }
    WellFormedOfIds(n, tp);
  }

  /** A priority keyed by 1..n in order whose every team has an opponent
      order is well formed. */
  lemma WellFormedOfIds(n: nat, tp: TeamPriority)
    requires tp.teams == Ids(n)
    requires forall t :: t in tp.opponents <==> 1 <= t <= n
    requires forall t :: 1 <= t <= n ==> IsOpponentOrder(tp.opponents[t], t, n)
    ensures WellFormed(tp)
  {
  }

  /** An opponent order of t is among the permutations of its ascending
      opponents. */
  lemma OrderIsPicked(n: int, t: int, p: seq<int>)
    requires 1 <= t <= n && IsOpponentOrder(p, t, n)
    ensures p in Permutations(Others(n, t))
  {
    OthersIsOrder(n, t);
    SameElementsMultiset(p, Others(n, t));
    PermutationsComplete(Others(n, t), p);
  }

  /**
   * Conversely, with 0 <= F <= n every priority the engine accepts whose
   * keys are 1..n in order and whose fixed teams are ascending is
   * generated.
   */
  lemma GeneratedComplete(n: int, F: int, tp: TeamPriority)
    requires 0 <= F <= n
    requires WellFormed(tp) && tp.teams == Ids(n)
    requires forall i :: 1 <= i <= F ==> tp.opponents[i] == Others(n, i)
    ensures tp in GeneratedPriorities(n, F).value
  {
    var x := seq(n - F, q requires 0 <= q < n - F => tp.opponents[F + 1 + q]);
    PicksInProduct(n, F, tp, x);
    AssemblePicks(n, F, tp, x);
    var P := Product(FlexLists(n, F));
    var k :| 0 <= k < |P| && P[k] == x;
    GeneratedAt(n, F, k);
  }

  /** The flexible teams' orderings of an accepted priority form a
      combination of the product. */
  lemma PicksInProduct(n: int, F: int, tp: TeamPriority, x: seq<seq<int>>)
    requires 0 <= F <= n && WellFormed(tp) && tp.NumTeams() == n
    requires |x| == n - F && forall q :: 0 <= q < |x| ==> F + 1 + q in tp.opponents && x[q] == tp.opponents[F + 1 + q]
    ensures x in Product(FlexLists(n, F))
  {
    var lists := FlexLists(n, F);
    forall q | 0 <= q < |x| ensures x[q] in lists[q] {
      OrderIsPicked(n, F + 1 + q, x[q]);
    }
    ProductComplete(lists, x);
  }

  /** Assembling the flexible teams' orderings of an accepted priority with
      ascending fixed teams gives that priority back. */
  lemma AssemblePicks(n: int, F: int, tp: TeamPriority, x: seq<seq<int>>)
    requires 0 <= F <= n && WellFormed(tp) && tp.teams == Ids(n)
    requires forall i :: 1 <= i <= F ==> tp.opponents[i] == Others(n, i)
    requires |x| == n - F && forall q :: 0 <= q < |x| ==> F + 1 + q in tp.opponents && x[q] == tp.opponents[F + 1 + q]
    ensures Assemble(n, F, x) == tp
  {
    AssembleParts(n, F, x);
    var a := Assemble(n, F, x);
    forall i | i in a.opponents ensures a.opponents[i] == tp.opponents[i] {
      if i > F {
        assert x[i - F - 1] == tp.opponents[i];
      }
    }
    MapsEqual(a.opponents, tp.opponents);
  }

  // ---------------------------------------------------------------------
  // The generator itself
  // ---------------------------------------------------------------------

  /** generate_team_priorities(num_teams, num_fixed) */
  method GenerateTeamPriorities(numTeams: int, numFixed: int) returns (r: Result<seq<TeamPriority>>)
    ensures r == GeneratedPriorities(numTeams, numFixed)
  {
    if numFixed > numTeams {
      return Err(ValueError);
    }
    var fixed := FixedPriorities(numTeams, numFixed);
    var lists := PrioritiesForTeams(numTeams, numFixed);
    var P := Product(lists);
    var result: seq<TeamPriority> := [];
    var k := 0;
    while k < |P|
      invariant 0 <= k <= |P|
      invariant |result| == k && forall q :: 0 <= q < k ==> result[q] == Assemble(numTeams, numFixed, P[q])
    {
      var tp := AssemblePriority(numTeams, numFixed, fixed, P[k]);
      result := result + [tp];
      k := k + 1;
    }
    assert result == GeneratedPriorities(numTeams, numFixed).value;
    return Ok(result);
  }

  /** The fixed teams 1..F and their ascending opponents. */
  method FixedPriorities(n: int, F: int) returns (fixed: map<int, seq<int>>)
    ensures forall i :: i in fixed <==> 1 <= i <= F
    ensures forall i :: i in fixed ==> fixed[i] == Others(n, i)
  {
    fixed := map[];
    var i := 1;
    while i <= F
      invariant 1 <= i && (i == 1 || i <= F + 1)
      invariant forall t :: t in fixed <==> 1 <= t < i
      invariant forall t :: t in fixed ==> fixed[t] == Others(n, t)
    {
      fixed := fixed[i := Others(n, i)];
      i := i + 1;
    }
  }

  /** priorities_for_team: for each flexible team in order, its opponents'
      orderings appended one by one. */
  method PrioritiesForTeams(n: int, F: int) returns (lists: seq<seq<seq<int>>>)
    ensures lists == FlexLists(n, F)
  {
    lists := [];
    var i := F + 1;
    while i <= n
      invariant F + 1 <= i && (i == F + 1 || i <= n + 1)
      invariant |lists| == i - F - 1
      invariant forall k :: 0 <= k < |lists| ==> lists[k] == Permutations(Others(n, F + 1 + k))
    {
      var perms := Permutations(Others(n, i));
      var acc: seq<seq<int>> := [];
      var q := 0;
      while q < |perms|
        invariant 0 <= q <= |perms| && acc == perms[..q]
      {
        acc := acc + [perms[q]];
        q := q + 1;
      }
      assert acc == perms;
      lists := lists + [acc];
      i := i + 1;
    }
  }

  /** One priority: the fixed teams, then the flexible teams F + 1, F + 2,
      ... with the orderings of the combination x. */
  method AssemblePriority(n: int, F: int, fixed: map<int, seq<int>>, x: seq<seq<int>>) returns (tp: TeamPriority)
    requires forall i :: i in fixed <==> 1 <= i <= F
    requires forall i :: i in fixed ==> fixed[i] == Others(n, i)
    ensures tp == Assemble(n, F, x)
  {
    var teams, opp := FixedPart(n, F, fixed);
    teams, opp := FlexPart(n, F, x, teams, opp);
    AssembledMap(n, F, x, opp);
    tp := TeamPriority(teams, opp);
  }

  /** The fixed teams 1..F of a priority, with their ascending orders. */
  method FixedPart(n: int, F: int, fixed: map<int, seq<int>>) returns (teams: seq<int>, opp: map<int, seq<int>>)
    requires forall i :: i in fixed <==> 1 <= i <= F
    requires forall i :: i in fixed ==> fixed[i] == Others(n, i)
    ensures teams == Range(1, F + 1)
    ensures forall t :: t in opp <==> 1 <= t <= F
    ensures forall t :: t in opp ==> opp[t] == Others(n, t)
  {
    teams, opp := [], map[];
    var i := 1;
    while i <= F
      invariant 1 <= i && (i == 1 || i <= F + 1)
      invariant teams == Range(1, i)
      invariant forall t :: t in opp <==> 1 <= t < i
      invariant forall t :: t in opp ==> opp[t] == Others(n, t)
    {
      RangeSnoc(1, i);
      teams := teams + [i];
      opp := opp[i := fixed[i]];
      i := i + 1;
    }
  }

  /** The flexible teams F + 1, F + 2, ... appended with the orderings of
      the combination x. */
  method FlexPart(n: int, F: int, x: seq<seq<int>>, teams0: seq<int>, opp0: map<int, seq<int>>)
    returns (teams: seq<int>, opp: map<int, seq<int>>)
    requires teams0 == Range(1, F + 1)
    requires forall t :: t in opp0 <==> 1 <= t <= F
    requires forall t :: t in opp0 ==> opp0[t] == Others(n, t)
    ensures teams == PriorityKeys(F, |x|)
    ensures forall t :: t in opp <==> 1 <= t <= F || F + 1 <= t < F + 1 + |x|
    ensures forall t :: t in opp ==> opp[t] == if t <= F then Others(n, t) else x[t - F - 1]
  {
    teams, opp := teams0, opp0;
    assert teams == PriorityKeys(F, 0);
    var q := 0;
    while q < |x|
      invariant 0 <= q <= |x|
      invariant teams == PriorityKeys(F, q)
      invariant forall t :: t in opp <==> 1 <= t <= F || F + 1 <= t < F + 1 + q
      invariant forall t :: t in opp && t <= F ==> opp[t] == Others(n, t)
      invariant forall t :: t in opp && t > F ==> opp[t] == x[t - F - 1]
    {
      KeysSnoc(F, q);
      teams := teams + [F + 1 + q];
      opp := opp[F + 1 + q := x[q]];
      q := q + 1;
    }
  }
}

=== FILE: graphs.dfy ===
/**
 * Directed graphs over team pairs, as finite sets of nodes and edges, with
 * the acyclicity test that the graph-layering solver relies on.
 */
module Graphs {

  /** A match between two teams, written (smaller id, larger id). */
  type Node = (int, int)
  type Edge = (Node, Node)

  datatype Graph = Graph(nodes: set<Node>, edges: set<Edge>)

  /** Every edge joins two nodes of the graph (a directed graph library keeps
      this by adding the endpoints of every edge it is given). */
  ghost predicate Closed(g: Graph) {
    forall e :: e in g.edges ==> e.0 in g.nodes && e.1 in g.nodes
  }

  /** Some member of `s` has no predecessor inside `s`. */
  predicate HasSource(edges: set<Edge>, s: set<Node>) {
    exists n :: n in s && forall p :: p in s ==> (p, n) !in edges
  }

  /**
   * The graph has no directed cycle: every non-empty set of its nodes has a
   * member with no predecessor inside the set (for a finite graph this is
   * exactly the existence of a topological order).
   */
  predicate Acyclic(g: Graph) {
    forall s | s <= g.nodes :: s != {} ==> HasSource(g.edges, s)
  }

  /** `n` has in-degree zero in `g`. */
  predicate IsSource(g: Graph, n: Node) {
    forall e | e in g.edges :: e.1 != n
  }

  /** The graph after removing `n` and every edge incident to it. */
  function RemoveNode(g: Graph, n: Node): (h: Graph)
    ensures h.nodes == g.nodes - {n}
    ensures forall e :: e in h.edges <==> e in g.edges && e.0 != n && e.1 != n
  {
    Graph(g.nodes - {n}, set e | e in g.edges && e.0 != n && e.1 != n)
  }

  /** The subgraph of `g` induced by the node set `keep`. */
  ghost predicate IsInduced(h: Graph, g: Graph) {
    && h.nodes <= g.nodes
    && forall e :: e in h.edges <==> e in g.edges && e.0 in h.nodes && e.1 in h.nodes
  }

  /** A walk along edges. */
  ghost predicate IsPath(edges: set<Edge>, path: seq<Node>) {
    forall m :: 0 <= m < |path| - 1 ==> (path[m], path[m + 1]) in edges
  }

  /** A closed walk of at least one edge through nodes of `g`. */
  ghost predicate IsCycle(g: Graph, path: seq<Node>) {
    && |path| >= 2
    && path[0] == path[|path| - 1]
    && IsPath(g.edges, path)
    && forall m :: 0 <= m < |path| ==> path[m] in g.nodes
  }

  /** Some element of a non-empty set has the least rank. */
  lemma {:induction false} LeastRanked(s: set<Node>, rank: Node -> int) returns (n: Node)
    requires s != {}
    ensures n in s && forall m :: m in s ==> rank(n) <= rank(m)
  {
    var a :| a in s;
    if s == {a} {
      n := a;
    } else {
      var b := LeastRanked(s - {a}, rank);
      n := if rank(a) <= rank(b) then a else b;
    }
  }

  /** A graph whose edges strictly increase some rank is acyclic. */
  lemma RankedIsAcyclic(g: Graph, rank: Node -> int)
    requires forall e :: e in g.edges ==> rank(e.0) < rank(e.1)
    ensures Acyclic(g)
  {
    forall s | s <= g.nodes && s != {}
      ensures HasSource(g.edges, s)
    {
      var n := LeastRanked(s, rank);
      assert forall p :: p in s ==> (p, n) !in g.edges;
    }
  }

  /** Every node of a cycle has a predecessor on the cycle. */
  lemma CycleHasNoSource(g: Graph, path: seq<Node>) returns (s: set<Node>)
    requires IsCycle(g, path)
    ensures s <= g.nodes && s != {}
    ensures forall n :: n in s ==> exists p :: p in s && (p, n) in g.edges
  {
    s := set m | 0 <= m < |path| :: path[m];
    assert path[0] in s;
    forall n | n in s
      ensures exists p :: p in s && (p, n) in g.edges
    {
      var m :| 0 <= m < |path| && path[m] == n;
      var k := if m == 0 then |path| - 2 else m - 1;
      assert path[k] in s;
      assert (path[k], path[k + 1]) in g.edges;
    }
  }

  /** The nodes of a cycle form a set without a source, so a graph with a
      cycle is not acyclic. */
  lemma CycleRefutesAcyclic(g: Graph, path: seq<Node>)
    requires IsCycle(g, path)
    ensures !Acyclic(g)
  {
    var s := CycleHasNoSource(g, path);
    assert !HasSource(g.edges, s);
  }

  /** Along a walk, if every edge ends in `done` only when it starts in
      `done`, a walk ending in `done` starts in `done`. */
  lemma {:induction false} PathBackwards(edges: set<Edge>, path: seq<Node>, done: set<Node>)
    requires |path| >= 1 && IsPath(edges, path)
    requires forall e :: e in edges && e.1 in done ==> e.0 in done
    requires path[|path| - 1] in done
    ensures path[0] in done
  {
    if |path| > 1 {
      assert (path[|path| - 2], path[|path| - 1]) in edges;
      PathBackwards(edges, path[..|path| - 1], done);
    }
  }
}

=== FILE: ilp.dfy ===
/**
 * The integer program solved for a fixed number of rounds R, without the
 * solver: the 0/1 solution values, the constraint families (1)-(6) shared by
 * every integer model of the engine, the consecutive-bye constraint (7), the
 * read-back of a solution into a schedule, and what the constraints force on
 * that schedule.
 */
module IntegerProgram {
  import opened Types
  import opened Sums
  import opened Schedules

  /** x[i, j, r].X: 1 when team i meets team j in round r. */
  type XValues = (int, int, int) -> int
  /** y[i, r].X: 1 when team i has a bye in round r. */
  type YValues = (int, int) -> int
  /** m[i, r].X of the consecutive-bye model (r >= 2). */
  type MValues = (int, int) -> int

  /** What one call of the solver reports: its status code, whether it holds
      a solution whose values can be read (Gurobi's SolCount > 0), and the
      values of the variables. */
  datatype SolverOutcome = SolverOutcome(status: int, hasIncumbent: bool, x: XValues, y: YValues, m: MValues)

  // ---------------------------------------------------------------------
  // The constraint families
  // ---------------------------------------------------------------------

  /** r |-> x[i, j, r] */
  function Meetings(x: XValues, i: int, j: int): int -> int {
    r => x(i, j, r)
  }

  /** j |-> x[i, j, r] */
  function Opponents(x: XValues, i: int, r: int): int -> int {
    j => x(i, j, r)
  }

  /** r |-> y[i, r] */
  function ByeRow(y: YValues, i: int): int -> int {
    r => y(i, r)
  }

  /** sum over r = 1..hi of x[i, j, r]: how often i met j up to round hi. */
  function SumRounds(x: XValues, i: int, j: int, hi: int): int {
    Sum(Meetings(x, i, j), hi)
  }

  /** sum over j = 1..n of x[i, j, r]: how many opponents i meets in round r. */
  function SumOpponents(x: XValues, i: int, r: int, n: int): int {
    Sum(Opponents(x, i, r), n)
  }

  /** The table holds a value for every triple of teams 1..n (the
      constraint builders read every such entry). */
  predicate CoversCube(arr: PriorityArray, n: int) {
    forall k, i, j :: 1 <= k <= n && 1 <= i <= n && 1 <= j <= n ==> (k, i, j) in arr
  }

  /** Every entry of the table read by the constraints is 0 or 1. */
  ghost predicate TableBinary(arr: PriorityArray, n: int)
    requires CoversCube(arr, n)
  {
    forall k, i, j :: 1 <= k <= n && 1 <= i <= n && 1 <= j <= n ==> arr[(k, i, j)] == 0 || arr[(k, i, j)] == 1
  }

  /** i |-> arr[k, i, j] */
  function PrecColumn(arr: PriorityArray, k: int, j: int): int -> int {
    i => if (k, i, j) in arr then arr[(k, i, j)] else 0
  }

  /** sum over i = 1..n of arr[k, i, j]: how many teams k ranks before j. */
  function SumPrec(arr: PriorityArray, k: int, j: int, n: int): int {
    Sum(PrecColumn(arr, k, j), n)
  }

  /** The variables are binary (vtype "B"). */
  ghost predicate Binary(n: int, rounds: int, x: XValues, y: YValues) {
    && (forall i, j, r :: 1 <= i <= n && 1 <= j <= n && 1 <= r <= rounds ==> x(i, j, r) == 0 || x(i, j, r) == 1)
    && (forall i, r :: 1 <= i <= n && 1 <= r <= rounds ==> y(i, r) == 0 || y(i, r) == 1)
  }

  /** (1) Nobody meets itself, and meeting is mutual. */
  ghost predicate NoSelfPlaySymmetric(n: int, rounds: int, x: XValues) {
    forall r, i, j :: 1 <= r <= rounds && 1 <= i <= n && 1 <= j <= n ==>
      (i == j ==> x(i, j, r) == 0) && x(i, j, r) == x(j, i, r)
  }

  /** (2) Two different teams meet in exactly one round. */
  ghost predicate MeetOnce(n: int, rounds: int, x: XValues) {
    forall i, j :: 1 <= i <= n && 1 <= j <= n && i != j ==> SumRounds(x, i, j, rounds) == 1
  }

  /** (3) A team without an opponent in a round has a bye there. */
  ghost predicate PlayOrBye(n: int, rounds: int, x: XValues, y: YValues) {
    forall r, i :: 1 <= r <= rounds && 1 <= i <= n ==> 1 - SumOpponents(x, i, r, n) == y(i, r)
  }

  /** (4) If k ranks i before j, k meets j in round r >= 2 only after meeting
      i in an earlier round. */
  ghost predicate Precedence(n: int, rounds: int, arr: PriorityArray, x: XValues)
    requires CoversCube(arr, n)
  {
    forall i, k, j, r :: 1 <= i <= n && 1 <= k <= n && 1 <= j <= n && 2 <= r <= rounds ==>
      arr[(k, i, j)] * SumRounds(x, k, i, r - 1) >= arr[(k, i, j)] * x(k, j, r)
  }

  /** (5) In round 1, k only meets a team it ranks before every other. */
  ghost predicate FirstRound(n: int, arr: PriorityArray, x: XValues) {
    forall k, j :: 1 <= k <= n && 1 <= j <= n ==> n * (1 - x(k, j, 1)) >= SumPrec(arr, k, j, n)
  }

  /** (6) At most one opponent per round. */
  ghost predicate AtMostOne(n: int, rounds: int, x: XValues) {
    forall r, i :: 1 <= r <= rounds && 1 <= i <= n ==> SumOpponents(x, i, r, n) <= 1
  }

  /** The solution satisfies families (1)-(6) over a table defined on every
      triple of teams. */
  ghost predicate Feasible(n: int, rounds: int, arr: PriorityArray, x: XValues, y: YValues) {
    && CoversCube(arr, n)
    && Binary(n, rounds, x, y)
    && NoSelfPlaySymmetric(n, rounds, x)
    && MeetOnce(n, rounds, x)
    && PlayOrBye(n, rounds, x, y)
    && Precedence(n, rounds, arr, x)
    && FirstRound(n, arr, x)
    && AtMostOne(n, rounds, x)
  }

  /** (7) of the consecutive-bye model, over binary m: m[i, r] may be 0 only
      if a bye in round r - 1 is not followed by a match in round r. */
  ghost predicate ConsecutiveByes(n: int, rounds: int, y: YValues, m: MValues) {
    && (forall i, r :: 1 <= i <= n && 2 <= r <= rounds ==> m(i, r) == 0 || m(i, r) == 1)
    && (forall i, r :: 1 <= i <= n && 2 <= r <= rounds ==> y(i, r - 1) <= m(i, r) + y(i, r))
  }

  // ---------------------------------------------------------------------
  // What the constraints mean
  // ---------------------------------------------------------------------

  /** Under (3) with binary y, family (6) adds nothing. */
  lemma PlayOrByeImpliesAtMostOne(n: int, rounds: int, x: XValues, y: YValues)
    requires Binary(n, rounds, x, y) && PlayOrBye(n, rounds, x, y)
    ensures AtMostOne(n, rounds, x)
  {
  }

  /** Under (3), each team and round has either a bye and no opponent, or no
      bye and exactly one opponent. */
  lemma CellCases(n: int, rounds: int, x: XValues, y: YValues, i: int, r: int)
    requires Binary(n, rounds, x, y) && PlayOrBye(n, rounds, x, y)
    requires 1 <= i <= n && 1 <= r <= rounds
    ensures y(i, r) == 1 ==> forall j :: 1 <= j <= n ==> x(i, j, r) == 0
    ensures y(i, r) == 0 ==> exists j :: 1 <= j <= n && x(i, j, r) == 1 && forall u :: 1 <= u <= n && u != j ==> x(i, u, r) == 0
  {
    var f := Opponents(x, i, r);
    SumZero(f, n);
    SumOne(f, n);
    if y(i, r) == 1 {
      forall j | 1 <= j <= n ensures x(i, j, r) == 0 {
        assert f(j) == 0;
      }
    } else {
      var t :| OnlyOne(f, t, n);
      forall u | 1 <= u <= n && u != t ensures x(i, u, r) == 0 {
        assert f(u) == 0;
      }
    }
  }

  /** With a 0/1 table, (5) says: the team k meets in round 1 is one it ranks
      after nobody. */
  lemma FirstRoundMeaning(n: int, arr: PriorityArray, x: XValues)
    requires n >= 0 && CoversCube(arr, n) && TableBinary(arr, n)
    requires forall k, j :: 1 <= k <= n && 1 <= j <= n ==> x(k, j, 1) == 0 || x(k, j, 1) == 1
    ensures FirstRound(n, arr, x) <==>
      forall k, j :: 1 <= k <= n && 1 <= j <= n && x(k, j, 1) == 1 ==>
        forall i :: 1 <= i <= n ==> arr[(k, i, j)] == 0
  {
    forall k, j | 1 <= k <= n && 1 <= j <= n
      ensures n * (1 - x(k, j, 1)) >= SumPrec(arr, k, j, n) <==>
        (x(k, j, 1) == 1 ==> forall i :: 1 <= i <= n ==> arr[(k, i, j)] == 0)
    {
      var f := PrecColumn(arr, k, j);
      SumBounds(f, n);
      SumZero(f, n);
      assert forall i :: 1 <= i <= n ==> f(i) == arr[(k, i, j)];
    }
  }

  /** With a 0/1 table, (4) says: if k ranks i before j and meets j in round
      r >= 2, it met i in some round before r. */
  lemma PrecedenceMeaning(n: int, rounds: int, arr: PriorityArray, x: XValues, y: YValues)
    requires CoversCube(arr, n) && TableBinary(arr, n) && Binary(n, rounds, x, y)
    ensures Precedence(n, rounds, arr, x) <==>
      forall i, k, j, r ::
        (1 <= i <= n && 1 <= k <= n && 1 <= j <= n && 2 <= r <= rounds && arr[(k, i, j)] == 1 && x(k, j, r) == 1)
        ==> exists q :: 1 <= q < r && x(k, i, q) == 1
  {
    forall i, k, j, r | 1 <= i <= n && 1 <= k <= n && 1 <= j <= n && 2 <= r <= rounds
      ensures arr[(k, i, j)] * SumRounds(x, k, i, r - 1) >= arr[(k, i, j)] * x(k, j, r) <==>
        (arr[(k, i, j)] == 1 && x(k, j, r) == 1 ==> exists q :: 1 <= q < r && x(k, i, q) == 1)
    {
      var f := Meetings(x, k, i);
      assert Binary1(f, r - 1);
      SumBounds(f, r - 1);
      SumZero(f, r - 1);
      if SumRounds(x, k, i, r - 1) != 0 {
        var q :| 1 <= q <= r - 1 && f(q) != 0;
        assert x(k, i, q) == 1;
      }
      if exists q :: 1 <= q < r && x(k, i, q) == 1 {
        var q :| 1 <= q < r && x(k, i, q) == 1;
        assert f(q) == 1;
      }
    }
  }

  /** Over binary m and y, (7) says: a bye followed by a match sets m. */
  lemma ConsecutiveByesMeaning(n: int, rounds: int, y: YValues, m: MValues)
    requires forall i, r :: 1 <= i <= n && 1 <= r <= rounds ==> y(i, r) == 0 || y(i, r) == 1
    requires forall i, r :: 1 <= i <= n && 2 <= r <= rounds ==> m(i, r) == 0 || m(i, r) == 1
    ensures ConsecutiveByes(n, rounds, y, m) <==>
      forall i, r :: 1 <= i <= n && 2 <= r <= rounds && y(i, r - 1) == 1 && y(i, r) == 0 ==> m(i, r) == 1
  {
  }

  /** Under (1)-(3) every team has R - (N - 1) byes: R rounds, N - 1 of
      which it spends meeting each other team once. */
  lemma ByesPerTeam(n: int, rounds: int, arr: PriorityArray, x: XValues, y: YValues, i: int)
    requires Feasible(n, rounds, arr, x, y) && 1 <= i <= n && rounds >= 0
    ensures Sum(ByeRow(y, i), rounds) == rounds - (n - 1)
  {
    var g := (j, r) => x(i, j, r);
    var opp := r => SumOpponents(x, i, r, n);
    SumAffine(opp, ByeRow(y, i), 1, rounds);
    forall r | 1 <= r <= rounds ensures opp(r) == Sum(j => g(j, r), n) {
      SumExt(Opponents(x, i, r), j => g(j, r), n);
    }
    SumExt(opp, r => Sum(j => g(j, r), n), rounds);
    SumSwap(g, n, rounds);
    var met := j => Sum(r => g(j, r), rounds);
    forall j | 1 <= j <= n ensures met(j) == if j == i then 0 else 1 {
      if j == i {
        SumExt(r => g(j, r), t => 0, rounds);
        SumConst0(rounds);
      } else {
        SumExt(r => g(j, r), Meetings(x, i, j), rounds);
        assert SumRounds(x, i, j, rounds) == 1;
      }
    }
    SumAllBut(met, i, n);
  }

  /** sum over i = 1..n, r = 1..rounds of y[i, r]: the objective both
      integer models minimize. */
  function Objective(n: int, rounds: int, y: YValues): int {
    Sum(TeamByes(y, rounds), n)
  }

  /** i |-> sum over r = 1..rounds of y[i, r] */
  function TeamByes(y: YValues, rounds: int): int -> int {
    i => Sum(ByeRow(y, i), rounds)
  }

  /** Every feasible solution has the same objective n * (R - (N - 1)), so
      minimizing the byes for a fixed R only decides feasibility. */
  lemma ObjectiveIsConstant(n: int, rounds: int, arr: PriorityArray, x: XValues, y: YValues)
    requires Feasible(n, rounds, arr, x, y) && n >= 0 && rounds >= 0
    ensures Objective(n, rounds, y) == n * (rounds - (n - 1))
  {
    forall i | 1 <= i <= n ensures TeamByes(y, rounds)(i) == rounds - (n - 1) {
      ByesPerTeam(n, rounds, arr, x, y, i);
    }
    SumExt(TeamByes(y, rounds), t => rounds - (n - 1), n);
    SumConst(rounds - (n - 1), n);
  }

  /** Four teams: a feasible five-round solution has 8 byes, a feasible
      six-round one 12. */
  lemma FourTeamByes(n: int, rounds: int, arr: PriorityArray, x: XValues, y: YValues)
    requires Feasible(n, rounds, arr, x, y) && n == 4 && (rounds == 5 || rounds == 6)
    ensures rounds == 5 ==> Objective(n, rounds, y) == 8
    ensures rounds == 6 ==> Objective(n, rounds, y) == 12
  {
    ObjectiveIsConstant(n, rounds, arr, x, y);
    FourTeamCount(n, rounds, Objective(n, rounds, y));
  }

  /** The arithmetic of the step above, apart from the model's constraints. */
  lemma FourTeamCount(n: int, rounds: int, v: int)
    requires v == n * (rounds - (n - 1)) && n == 4
    ensures rounds == 5 ==> v == 8
    ensures rounds == 6 ==> v == 12
  {
  }
  // ---------------------------------------------------------------------
  // Reading a solution back into a schedule
  // ---------------------------------------------------------------------

  /**
   * Team i's cell of round r once the read-back has looked at the opponents
   * 1..j: the last of them with x = 1; failing that a bye when y = 1;
   * failing that no entry at all.
   */
  function ReadCell(x: XValues, y: YValues, i: int, r: int, j: int): (c: Option<Slot>)
    ensures c.Some? && c.value.Versus? ==>
      && 1 <= c.value.opponent <= j
      && x(i, c.value.opponent, r) == 1
      && forall u :: c.value.opponent < u <= j ==> x(i, u, r) != 1
    ensures c == Some(Bye) <==> y(i, r) == 1 && forall u :: 1 <= u <= j ==> x(i, u, r) != 1
    ensures c == None <==> y(i, r) != 1 && forall u :: 1 <= u <= j ==> x(i, u, r) != 1
    decreases j
  {
    if j < 1 then (if y(i, r) == 1 then Some(Bye) else None)
    else if x(i, j, r) == 1 then Some(Versus(j))
    else ReadCell(x, y, i, r, j - 1)
  }

  /** `row` is team i's row read back from a solution over n teams and
      `rounds` rounds. */
  ghost predicate IsReadRow(row: map<int, Slot>, x: XValues, y: YValues, i: int, n: int, rounds: int) {
    forall r ::
      && (r in row <==> 1 <= r <= rounds && ReadCell(x, y, i, r, n).Some?)
      && (r in row ==> row[r] == ReadCell(x, y, i, r, n).value)
  }

  /** `s` is the schedule read back from a solution: a row per team 1..n. */
  ghost predicate IsReadBack(s: Schedule, x: XValues, y: YValues, n: int, rounds: int) {
    forall i ::
      && (i in s <==> 1 <= i <= n)
      && (i in s ==> IsReadRow(s[i], x, y, i, n, rounds))
  }

  /** Reads team i's row: per round, a bye when y = 1, overwritten by every
      opponent with x = 1 in increasing order. */
  method ReadRow(n: int, rounds: int, x: XValues, y: YValues, i: int) returns (row: map<int, Slot>)
    ensures IsReadRow(row, x, y, i, n, rounds)
  {
    row := map[];
    var r := 1;
    while r <= rounds
      invariant r == 1 || r <= rounds + 1
      invariant forall q :: q in row <==> 1 <= q < r && ReadCell(x, y, i, q, n).Some?
      invariant forall q :: q in row ==> row[q] == ReadCell(x, y, i, q, n).value
    {
      if y(i, r) == 1 {
        row := row[r := Bye];
      }
      var j := 1;
      while j <= n
        invariant j == 1 || j <= n + 1
        invariant forall q :: q in row <==>
          (1 <= q < r && ReadCell(x, y, i, q, n).Some?) || (q == r && ReadCell(x, y, i, r, j - 1).Some?)
        invariant forall q :: q in row ==>
          row[q] == if q == r then ReadCell(x, y, i, r, j - 1).value else ReadCell(x, y, i, q, n).value
      {
        if x(i, j, r) == 1 {
          row := row[r := Versus(j)];
        }
        j := j + 1;
      }
      assert ReadCell(x, y, i, r, j - 1) == ReadCell(x, y, i, r, n);
      r := r + 1;
    }
  }

  /** Reads the whole schedule, team by team. */
  method ReadSchedule(n: int, rounds: int, x: XValues, y: YValues) returns (s: Schedule)
    ensures IsReadBack(s, x, y, n, rounds)
  {
    s := map[];
    var i := 1;
    while i <= n
      invariant i == 1 || i <= n + 1
      invariant forall t :: t in s <==> 1 <= t < i
      invariant forall t :: t in s ==> IsReadRow(s[t], x, y, t, n, rounds)
    {
      var row := ReadRow(n, rounds, x, y, i);
      s := s[i := row];
      i := i + 1;
    }
  }

  /** On a feasible solution every cell is read: a bye exactly when y = 1,
      and otherwise the one opponent with x = 1. */
  lemma ReadCellFeasible(n: int, rounds: int, arr: PriorityArray, x: XValues, y: YValues, i: int, r: int)
    requires Feasible(n, rounds, arr, x, y) && 1 <= i <= n && 1 <= r <= rounds
    ensures ReadCell(x, y, i, r, n).Some?
    ensures ReadCell(x, y, i, r, n) == Some(Bye) <==> y(i, r) == 1
    ensures forall j :: 1 <= j <= n ==> (ReadCell(x, y, i, r, n) == Some(Versus(j)) <==> x(i, j, r) == 1)
  {
    CellCases(n, rounds, x, y, i, r);
    if y(i, r) != 1 {
      var j :| 1 <= j <= n && x(i, j, r) == 1 && forall u :: 1 <= u <= n && u != j ==> x(i, u, r) == 0;
      ReadCellOne(x, y, i, r, n, j);
    }
  }

  /** When exactly one opponent j has x = 1, the cell reads j. */
  lemma ReadCellOne(x: XValues, y: YValues, i: int, r: int, n: int, j: int)
    requires 1 <= j <= n && x(i, j, r) == 1
    requires forall u :: 1 <= u <= n && u != j ==> x(i, u, r) == 0
    ensures ReadCell(x, y, i, r, n) == Some(Versus(j))
  {
    var c := ReadCell(x, y, i, r, n);
    assert c != None && c != Some(Bye);
    assert c.value.Versus?;
  }

  /** The schedule read back from a feasible solution is a single round
      robin: every cell filled, meetings mutual, every pair met once. */
  lemma ReadBackIsRoundRobin(n: int, rounds: int, arr: PriorityArray, x: XValues, y: YValues, s: Schedule)
    requires Feasible(n, rounds, arr, x, y) && IsReadBack(s, x, y, n, rounds)
    ensures IsRoundRobin(s, n, rounds)
  {
    forall i, r | 1 <= i <= n && 1 <= r <= rounds
      ensures r in s[i] && (s[i][r] == Bye <==> y(i, r) == 1)
      ensures forall j :: 1 <= j <= n ==> (s[i][r] == Versus(j) <==> x(i, j, r) == 1)
    {
      ReadCellFeasible(n, rounds, arr, x, y, i, r);
    }
    forall i, j | i in s && 1 <= j <= n && j != i
      ensures |MeetRounds(s[i], j)| == 1
    {
      RowCounts(s[i], rounds, j);
      SumExt(CellMark(s[i], Versus(j)), Meetings(x, i, j), rounds);
      assert SumRounds(x, i, j, rounds) == 1;
    }
  }
}

=== FILE: instances.dfy ===
/**
 * Concrete priorities from the repository's tests, and the round counts
 * the engine is expected to find for them. The layer count of a priority's
 * pair graph is bounded from above by a round robin that respects the
 * priority, and from below by a chain of matches each of which must come
 * after the one before; the search and the integer program then inherit
 * the count.
 */
module Instances {
  import opened Types
  import opened Graphs
  import opened Layering
  import opened Schedules
  import opened Converter
  import opened IntegerProgram
  import opened Optimality
  import opened Consistency
  import opened Search
  import opened Algorithm
  import opened IntegerPlanning

  /** Row `row` meets the opponents of `order` in the strictly increasing
      rounds `when`, and meets each of them in no other round. */
  ghost predicate PlaysInOrder(row: map<int, Slot>, order: seq<int>, when: seq<int>) {
    && |when| == |order|
    && (forall m :: 0 <= m < |order| ==> when[m] in row && row[when[m]] == Versus(order[m]))
    && (forall m, r :: 0 <= m < |order| && r in row && row[r] == Versus(order[m]) ==> r == when[m])
    && (forall m, m' :: 0 <= m < m' < |order| ==> when[m] < when[m'])
  }

  /** Such a row meets every opponent of the order exactly once, and in the
      order's sequence. */
  lemma PlaysInOrderMeets(row: map<int, Slot>, order: seq<int>, when: seq<int>)
    requires PlaysInOrder(row, order, when)
    ensures forall m :: 0 <= m < |order| ==> |MeetRounds(row, order[m])| == 1
    ensures forall m, m', r, r' ::
      && 0 <= m < m' < |order| && r in row && r' in row
      && row[r] == Versus(order[m]) && row[r'] == Versus(order[m'])
      ==> r < r'
  {
    forall m | 0 <= m < |order| ensures |MeetRounds(row, order[m])| == 1 {
      assert forall q :: q in MeetRounds(row, order[m]) <==> q == when[m];
      assert MeetRounds(row, order[m]) == {when[m]};
    }
  }

  /** A schedule whose every row plays its team's order in increasing
      rounds meets each opponent once and respects the priority. */
  lemma RowsInOrder(s: Schedule, tp: TeamPriority, when: map<int, seq<int>>)
    requires WellFormed(tp)
    requires forall t :: t in s <==> t in tp.opponents
    requires forall t :: t in s ==> t in when && PlaysInOrder(s[t], tp.opponents[t], when[t])
    ensures MeetsEachOnce(s, tp.NumTeams())
    ensures RespectsPriority(s, tp)
  {
    var n := tp.NumTeams();
    forall i, j | i in s && 1 <= j <= n && j != i ensures |MeetRounds(s[i], j)| == 1 {
      var o := tp.opponents[i];
      assert j in o;
      var m :| 0 <= m < |o| && o[m] == j;
      PlaysInOrderMeets(s[i], o, when[i]);
    }
    forall t | t in s
      ensures forall m, m', r, r' ::
        && 0 <= m < m' < |tp.opponents[t]| && r in s[t] && r' in s[t]
        && s[t][r] == Versus(tp.opponents[t][m]) && s[t][r'] == Versus(tp.opponents[t][m'])
        ==> r < r'
    {
      PlaysInOrderMeets(s[t], tp.opponents[t], when[t]);
    }
  }

  // ---------------------------------------------------------------------
  // Four teams in three rounds (tests/test_optbyes.py, first priority)
  // ---------------------------------------------------------------------

  /** {1: (2, 3, 4), 2: (1, 4, 3), 3: (4, 1, 2), 4: (3, 2, 1)} */
  function ThreeRoundPriority(): TeamPriority {
    TeamPriority([1, 2, 3, 4], map[1 := [2, 3, 4], 2 := [1, 4, 3], 3 := [4, 1, 2], 4 := [3, 2, 1]])
  }

  /** Round 1: 1-2, 3-4; round 2: 1-3, 2-4; round 3: 1-4, 2-3. */
  function ThreeRoundSchedule(): Schedule {
    map[1 := map[1 := Versus(2), 2 := Versus(3), 3 := Versus(4)],
        2 := map[1 := Versus(1), 2 := Versus(4), 3 := Versus(3)],
        3 := map[1 := Versus(4), 2 := Versus(1), 3 := Versus(2)],
        4 := map[1 := Versus(3), 2 := Versus(2), 3 := Versus(1)]]
  }

  lemma ThreeRoundPriorityWellFormed()
    ensures WellFormed(ThreeRoundPriority())
  {
    var tp := ThreeRoundPriority();
    forall t | t in tp.opponents ensures IsOpponentOrder(tp.opponents[t], t, 4) {
    }
  }

  /** A row meeting a, b and c in rounds 1, 2 and 3 plays the order
      (a, b, c). */
  lemma InOrderRow(a: int, b: int, c: int)
    requires a != b && b != c && a != c
    ensures PlaysInOrder(map[1 := Versus(a), 2 := Versus(b), 3 := Versus(c)], [a, b, c], [1, 2, 3])
  {
  }

  lemma ThreeRoundShape()
    ensures HasShape(ThreeRoundSchedule(), 4, 3)
  {
  }

  lemma ThreeRoundMutual()
    ensures Mutual(ThreeRoundSchedule(), 4)
  {
    var s := ThreeRoundSchedule();
    forall i, j, r | i in s && r in s[i] && s[i][r] == Versus(j)
      ensures 1 <= j <= 4 && j != i && j in s && r in s[j] && s[j][r] == Versus(i)
    {
      if i == 1 {} else if i == 2 {} else if i == 3 {} else {}
    }
  }

  lemma ThreeRoundInOrder()
    ensures MeetsEachOnce(ThreeRoundSchedule(), 4)
    ensures RespectsPriority(ThreeRoundSchedule(), ThreeRoundPriority())
  {
    var s, tp := ThreeRoundSchedule(), ThreeRoundPriority();
    ThreeRoundPriorityWellFormed();
    var when := map[1 := [1, 2, 3], 2 := [1, 2, 3], 3 := [1, 2, 3], 4 := [1, 2, 3]];
    forall t | t in s ensures PlaysInOrder(s[t], tp.opponents[t], when[t]) {
      var o := tp.opponents[t];
      InOrderRow(o[0], o[1], o[2]);
    }
    RowsInOrder(s, tp, when);
  }

  /** The schedule is a round robin of four teams in three rounds that
      respects the priority. */
  lemma ThreeRoundScheduleFits()
    ensures IsRoundRobin(ThreeRoundSchedule(), 4, 3)
    ensures RespectsPriority(ThreeRoundSchedule(), ThreeRoundPriority())
  {
    ThreeRoundShape();
    ThreeRoundMutual();
    ThreeRoundInOrder();
  }

  /** The pair graph of the priority has exactly three layers. */
  lemma ThreeRoundLayers()
    ensures WellFormed(ThreeRoundPriority())
    ensures Acyclic(BuildGraph(ThreeRoundPriority())) && |Layers(BuildGraph(ThreeRoundPriority()))| == 3
  {
    var tp := ThreeRoundPriority();
    ThreeRoundPriorityWellFormed();
    BuiltGraphFitsTeams(tp);
    ThreeRoundScheduleFits();
    LayeringIsFewest(tp, BuildGraph(tp), ThreeRoundSchedule(), 3);
    LayerCountRange(tp);
  }

  /** With a table built from the priority and a solver that reports an
      optimum exactly for the models that have a solution, the search of
      OptimizeNumberOfByes over R = 3 .. 2 * 4 - 1 stops at R = 3. */
  lemma ThreeRoundSearch(arr: PriorityArray, outcomes: int -> SolverOutcome)
    requires IsPriorityTable(ThreeRoundPriority(), arr)
    requires SolverSound(4, arr, outcomes) && SolverComplete(4, arr, outcomes)
    ensures FirstOptimal(StopsAt(4, arr, outcomes), 3, 7) == Some(3)
  {
    var tp := ThreeRoundPriority();
    ThreeRoundLayers();
    BoundedSearchFindsLayerCount(tp, arr, outcomes, 7);
  }

  // ---------------------------------------------------------------------
  // Four teams in five rounds (tests/problem/test_base_problem.py, first test)
  // ---------------------------------------------------------------------

  /** {1: (2, 3, 4), 2: (1, 3, 4), 3: (2, 1, 4), 4: (2, 3, 1)} */
  function FiveRoundPriority(): TeamPriority {
    TeamPriority([1, 2, 3, 4], map[1 := [2, 3, 4], 2 := [1, 3, 4], 3 := [2, 1, 4], 4 := [2, 3, 1]])
  }

  /** Round 1: 1-2; round 2: 2-3; round 3: 1-3, 2-4; round 4: 3-4;
      round 5: 1-4; every other cell is a bye. */
  function FiveRoundSchedule(): Schedule {
    map[1 := map[1 := Versus(2), 2 := Bye, 3 := Versus(3), 4 := Bye, 5 := Versus(4)],
        2 := map[1 := Versus(1), 2 := Versus(3), 3 := Versus(4), 4 := Bye, 5 := Bye],
        3 := map[1 := Bye, 2 := Versus(2), 3 := Versus(1), 4 := Versus(4), 5 := Bye],
        4 := map[1 := Bye, 2 := Bye, 3 := Versus(2), 4 := Versus(3), 5 := Versus(1)]]
  }

  lemma FiveRoundPriorityWellFormed()
    ensures WellFormed(FiveRoundPriority())
  {
    var tp := FiveRoundPriority();
    forall t | t in tp.opponents ensures IsOpponentOrder(tp.opponents[t], t, 4) {
    }
  }

  lemma FiveRoundShape()
    ensures HasShape(FiveRoundSchedule(), 4, 5)
  {
  }

  lemma FiveRoundMutual()
    ensures Mutual(FiveRoundSchedule(), 4)
  {
    var s := FiveRoundSchedule();
    forall i, j, r | i in s && r in s[i] && s[i][r] == Versus(j)
      ensures 1 <= j <= 4 && j != i && j in s && r in s[j] && s[j][r] == Versus(i)
    {
      if i == 1 {} else if i == 2 {} else if i == 3 {} else {}
    }
  }

  /** A five-round row meeting a, b and c in rounds p < q < r and having a
      bye in every other round plays the order (a, b, c). */
  lemma InOrderFiveRow(row: map<int, Slot>, a: int, b: int, c: int, p: int, q: int, r: int)
    requires a != b && b != c && a != c && 1 <= p < q < r <= 5
    requires forall k :: k in row <==> 1 <= k <= 5
    requires row[p] == Versus(a) && row[q] == Versus(b) && row[r] == Versus(c)
    requires forall k :: k in row && k != p && k != q && k != r ==> row[k] == Bye
    ensures PlaysInOrder(row, [a, b, c], [p, q, r])
  {
  }

  lemma FiveRoundInOrder()
    ensures MeetsEachOnce(FiveRoundSchedule(), 4)
    ensures RespectsPriority(FiveRoundSchedule(), FiveRoundPriority())
  {
    var s, tp := FiveRoundSchedule(), FiveRoundPriority();
    FiveRoundPriorityWellFormed();
    var when := map[1 := [1, 3, 5], 2 := [1, 2, 3], 3 := [2, 3, 4], 4 := [3, 4, 5]];
    forall t | t in s ensures PlaysInOrder(s[t], tp.opponents[t], when[t]) {
      var o, w := tp.opponents[t], when[t];
      InOrderFiveRow(s[t], o[0], o[1], o[2], w[0], w[1], w[2]);
    }
    RowsInOrder(s, tp, when);
  }

  /** The schedule is a round robin of four teams in five rounds that
      respects the priority. */
  lemma FiveRoundScheduleFits()
    ensures IsRoundRobin(FiveRoundSchedule(), 4, 5)
    ensures RespectsPriority(FiveRoundSchedule(), FiveRoundPriority())
  {
    FiveRoundShape();
    FiveRoundMutual();
    FiveRoundInOrder();
  }

  /** The pair graph holds the chain (1,2) -> (2,3) -> (1,3) -> (3,4) ->
      (1,4): team 2 plays 1 before 3, team 3 plays 2 before 1 before 4, and
      team 4 plays 3 before 1. */
  lemma FiveRoundChain()
    ensures WellFormed(FiveRoundPriority())
    ensures var g := BuildGraph(FiveRoundPriority());
      && ((1, 2), (2, 3)) in g.edges && ((2, 3), (1, 3)) in g.edges
      && ((1, 3), (3, 4)) in g.edges && ((3, 4), (1, 4)) in g.edges
  {
    var tp := FiveRoundPriority();
    FiveRoundPriorityWellFormed();
    OpponentEdge(tp, 2, 0);
    OpponentEdge(tp, 3, 0);
    OpponentEdge(tp, 3, 1);
    OpponentEdge(tp, 4, 1);
  }

  /** Team k playing the m-th and (m+1)-th opponents of its order gives an
      edge of the pair graph. */
  lemma OpponentEdge(tp: TeamPriority, k: int, m: int)
    requires tp.IsDict() && k in tp.opponents && 0 <= m < |tp.opponents[k]| - 1
    ensures (Canon(k, tp.opponents[k][m]), Canon(k, tp.opponents[k][m + 1])) in BuildGraph(tp).edges
  {
    assert IsTeamEdge(tp, (Canon(k, tp.opponents[k][m]), Canon(k, tp.opponents[k][m + 1])));
  }

  /** The pair graph of the priority has exactly five layers: a round robin
      in five rounds bounds it from above, the chain of four edges from
      below. */
  lemma FiveRoundLayers()
    ensures WellFormed(FiveRoundPriority())
    ensures Acyclic(BuildGraph(FiveRoundPriority())) && |Layers(BuildGraph(FiveRoundPriority()))| == 5
  {
    var tp := FiveRoundPriority();
    var g := BuildGraph(tp);
    FiveRoundChain();
    BuiltGraphFitsTeams(tp);
    FiveRoundScheduleFits();
    LayeringIsFewest(tp, g, FiveRoundSchedule(), 5);
    EdgesClimb(g);
    LayersCover(g);
    var L := Layers(g);
    assert LayerIndex(L, (1, 2)) < LayerIndex(L, (2, 3)) < LayerIndex(L, (1, 3))
      < LayerIndex(L, (3, 4)) < LayerIndex(L, (1, 4));
    assert (1, 4) in g.nodes;
  }

  /** With a solver that reports an optimum exactly for the models that
      have a solution, BaseProblem reports no optimum for four rounds, and
      an optimum with 8 byes for five. */
  lemma FiveRoundStatus(arr: PriorityArray, outcomes: int -> SolverOutcome)
    requires IsPriorityTable(FiveRoundPriority(), arr)
    requires SolverSound(4, arr, outcomes) && SolverComplete(4, arr, outcomes)
    ensures outcomes(4).status != GRB_OPTIMAL
    ensures outcomes(5).status == GRB_OPTIMAL
    ensures Objective(4, 5, outcomes(5).y) == 8
  {
    FiveRoundLayers();
    LayerCountDecides(FiveRoundPriority(), arr, 4, 4, 5);
    SolverDecides(FiveRoundPriority(), arr, outcomes, 4, 5);
    TableFitsProgram(FiveRoundPriority(), arr);
    OptimumByes(arr, outcomes);
  }

  /** A sound solver's five-round optimum for four teams has 8 byes. */
  lemma OptimumByes(arr: PriorityArray, outcomes: int -> SolverOutcome)
    requires SolverSound(4, arr, outcomes) && outcomes(5).status == GRB_OPTIMAL && !BuildFails(4, 5, arr)
    ensures Objective(4, 5, outcomes(5).y) == 8
  {
    FourTeamByes(4, 5, arr, outcomes(5).x, outcomes(5).y);
  }

  /** A priority whose pair graph has k layers has a solution of its
      integer program in k rounds and none in k - 1. */
  lemma LayerCountDecides(tp: TeamPriority, arr: PriorityArray, n: int, fewer: nat, k: nat)
    requires WellFormed(tp) && IsPriorityTable(tp, arr) && tp.NumTeams() == n
    requires Acyclic(BuildGraph(tp)) && |Layers(BuildGraph(tp))| == k && fewer + 1 == k
    ensures !exists x, y :: Feasible(n, fewer, arr, x, y)
    ensures exists x, y :: Feasible(n, k, arr, x, y)
  {
    FeasibleIffLayered(tp, arr, fewer);
    FeasibleIffLayered(tp, arr, k);
  }

  /** Under a sound and complete solver, the k-layer priority's model is
      optimal in k rounds and not in k - 1. */
  lemma SolverDecides(tp: TeamPriority, arr: PriorityArray, outcomes: int -> SolverOutcome, fewer: nat, k: nat)
    requires WellFormed(tp) && IsPriorityTable(tp, arr) && fewer >= 1 && fewer + 1 == k
    requires SolverSound(tp.NumTeams(), arr, outcomes) && SolverComplete(tp.NumTeams(), arr, outcomes)
    requires !exists x, y :: Feasible(tp.NumTeams(), fewer, arr, x, y)
    requires exists x, y :: Feasible(tp.NumTeams(), k, arr, x, y)
    ensures outcomes(fewer).status != GRB_OPTIMAL
    ensures outcomes(k).status == GRB_OPTIMAL
  {
    TableFitsProgram(tp, arr);
  }
}

=== FILE: integer_planning_problems.dfy ===
/**
 * The integer programming model of the engine for a fixed number of rounds:
 * it is built from the precedence table, handed to the solver, and the
 * solution is read back into a schedule behind a status gate.
 */
module IntegerPlanning {
  import opened Types
  import opened IntegerProgram
  import opened Schedules

  /** The constraint builders look up x[i, j, 1] and every entry of the
      table; with at least one team, a missing round 1 or a missing triple
      is a missing key. */
  predicate BuildFails(numTeams: int, numRounds: int, tpArray: PriorityArray) {
    numTeams >= 1 && (numRounds < 1 || !CoversCube(tpArray, numTeams))
  }

  /**
   * The base byes model over (1)-(6) for `numRounds` rounds. The solver is
   * not part of the model: `Solve` receives its outcome, and a reported
   * optimum is taken to satisfy the constraints it was given.
   */
  class BaseILP {
    const numTeams: int
    const numRounds: int
    const tpArray: PriorityArray
    var status: int
    var schedule: Schedule

    constructor (numTeams: int, numRounds: int, tpArray: PriorityArray)
      ensures this.numTeams == numTeams && this.numRounds == numRounds && this.tpArray == tpArray
      ensures status == LOADED && schedule == map[]
    {
      this.numTeams := numTeams;
      this.numRounds := numRounds;
      this.tpArray := tpArray;
      status := LOADED;
      schedule := map[];
    }

    /**
     * Builds the variables, the constraints and the objective, runs the
     * solver, and on an optimum reads the solution back into the schedule.
     * A failed build raises a missing key and changes nothing.
     */
    method Solve(outcome: SolverOutcome) returns (raised: Option<Error>)
      requires !BuildFails(numTeams, numRounds, tpArray) && outcome.status == GRB_OPTIMAL ==>
        Feasible(numTeams, numRounds, tpArray, outcome.x, outcome.y)
      modifies this
      ensures raised.Some? <==> BuildFails(numTeams, numRounds, tpArray)
      ensures raised.Some? ==> raised.value == MissingKey && status == old(status) && schedule == old(schedule)
      ensures raised.None? && outcome.status != GRB_OPTIMAL ==> status == INFEASIBLE && schedule == old(schedule)
      ensures raised.None? && outcome.status == GRB_OPTIMAL ==>
        && status == OPTIMAL
        && (forall i :: i in schedule <==> i in old(schedule) || 1 <= i <= numTeams)
        && (forall i :: i in old(schedule) && !(1 <= i <= numTeams) ==> schedule[i] == old(schedule)[i])
        && (forall i :: 1 <= i <= numTeams ==> IsReadRow(schedule[i], outcome.x, outcome.y, i, numTeams, numRounds))
      ensures raised.None? && outcome.status == GRB_OPTIMAL && old(schedule) == map[] ==>
        IsRoundRobin(schedule, numTeams, numRounds)
    {
      if BuildFails(numTeams, numRounds, tpArray) {
        return Some(MissingKey);
      }
      raised := None;
      if outcome.status != GRB_OPTIMAL {
        status := INFEASIBLE;
        return;
      }
      status := OPTIMAL;
      var read := ReadSchedule(numTeams, numRounds, outcome.x, outcome.y);
      schedule := schedule + read;
      if old(schedule) == map[] {
        assert schedule == read;
        ReadBackIsRoundRobin(numTeams, numRounds, tpArray, outcome.x, outcome.y, read);
      }
    }

    function GetStatus(): (s: int)
      reads this
      ensures s == status
    {
      status
    }

    /** The schedule, behind the gate: any status other than OPTIMAL raises
        that status's entry of the error dictionary. */
    function GetSchedule(): (r: Result<Schedule>)
      reads this
      ensures r.Ok? <==> status == OPTIMAL
      ensures r.Ok? ==> r.value == schedule
      ensures r.Err? ==> r.error == ErrorsEntry(status)
    {
      if status != OPTIMAL then Err(ErrorsEntry(status)) else Ok(schedule)
    }
  }
}

=== FILE: layering.dfy ===
/**
 * What the graph-layering solver computes, stated on graph values: the
 * layers obtained by repeatedly removing every node without a predecessor,
 * and why they are the fewest rounds that respect every edge.
 */
module Layering {
  import opened Graphs

  /** The nodes without a predecessor: what one pass of the solver schedules. */
  function Sources(g: Graph): set<Node> {
    set n | n in g.nodes && IsSource(g, n)
  }

  /** The graph without the nodes of `layer` and their edges. */
  function Peel(g: Graph, layer: set<Node>): Graph {
    Graph(g.nodes - layer, set e | e in g.edges && e.0 !in layer && e.1 !in layer)
  }

  /** A non-empty acyclic graph has a source. */
  lemma SourcesNonEmpty(g: Graph)
    requires Closed(g) && Acyclic(g) && g.nodes != {}
    ensures Sources(g) != {} && Sources(g) <= g.nodes
  {
    assert HasSource(g.edges, g.nodes);
    var n :| n in g.nodes && forall p :: p in g.nodes ==> (p, n) !in g.edges;
    forall e | e in g.edges ensures e.1 != n {
      assert e.0 in g.nodes && e == (e.0, e.1);
    }
    assert n in Sources(g);
  }

  /** Removing nodes keeps a graph closed. */
  lemma PeelClosed(g: Graph, layer: set<Node>)
    requires Closed(g)
    ensures Closed(Peel(g, layer))
  {
  }

  /** Removing the nodes one at a time is removing them all at once. */
  lemma PeelOneMore(g: Graph, done: set<Node>, n: Node)
    ensures RemoveNode(Peel(g, done), n) == Peel(g, done + {n})
  {
    var a, b := RemoveNode(Peel(g, done), n), Peel(g, done + {n});
    assert a.nodes == b.nodes;
    assert a.edges == b.edges;
  }

  /** Removing nodes keeps a graph closed and acyclic. */
  lemma PeelKeeps(g: Graph, layer: set<Node>)
    requires Closed(g) && Acyclic(g)
    ensures Closed(Peel(g, layer)) && Acyclic(Peel(g, layer))
  {
    var h := Peel(g, layer);
    forall s | s <= h.nodes && s != {} ensures HasSource(h.edges, s) {
      assert HasSource(g.edges, s);
      var n :| n in s && forall p :: p in s ==> (p, n) !in g.edges;
      assert forall p :: p in s ==> (p, n) !in h.edges;
    }
  }

  /** Peeling a non-empty set of nodes shrinks the graph. */
  lemma PeelShrinks(g: Graph, layer: set<Node>)
    requires layer != {} && layer <= g.nodes
    ensures |Peel(g, layer).nodes| < |g.nodes|
  {
    var n :| n in layer;
    assert g.nodes - layer <= g.nodes - {n};
    assert |g.nodes - {n}| == |g.nodes| - 1;
  }

  /**
   * The layers of an acyclic graph: the sources, then the layers of what
   * remains once the sources are removed.
   */
  ghost function Layers(g: Graph): seq<set<Node>>
    requires Closed(g) && Acyclic(g)
    decreases |g.nodes|
  {
    if g.nodes == {} then []
    else
      var layer := Sources(g);
      SourcesNonEmpty(g);
      PeelKeeps(g, layer);
      PeelShrinks(g, layer);
      [layer] + Layers(Peel(g, layer))
  }

  /** Index of the first layer holding `n` (|L| when none does). */
  function LayerIndex(L: seq<set<Node>>, n: Node): (k: nat)
    ensures k <= |L|
    ensures k < |L| ==> n in L[k]
    ensures forall q :: 0 <= q < k ==> n !in L[q]
  {
    if L == [] then 0 else if n in L[0] then 0 else 1 + LayerIndex(L[1..], n)
  }

  /** Every layer is a non-empty set of nodes of the graph. */
  lemma {:induction false} LayersAreNodes(g: Graph)
    requires Closed(g) && Acyclic(g)
    ensures forall k :: 0 <= k < |Layers(g)| ==> Layers(g)[k] != {} && Layers(g)[k] <= g.nodes
    decreases |g.nodes|
  {
    if g.nodes != {} {
      var layer := Sources(g);
      SourcesNonEmpty(g);
      PeelKeeps(g, layer);
      PeelShrinks(g, layer);
      LayersAreNodes(Peel(g, layer));
    }
  }

  /** There are no more layers than nodes. */
  lemma {:induction false} LayersAtMostNodes(g: Graph)
    requires Closed(g) && Acyclic(g)
    ensures |Layers(g)| <= |g.nodes|
    decreases |g.nodes|
  {
    if g.nodes != {} {
      var layer := Sources(g);
      SourcesNonEmpty(g);
      PeelKeeps(g, layer);
      PeelShrinks(g, layer);
      LayersAtMostNodes(Peel(g, layer));
    }
  }

  /** Every node lies in exactly one layer: the layer its index names. */
  lemma LayersCover(g: Graph)
    requires Closed(g) && Acyclic(g)
    ensures forall n :: n in g.nodes ==> LayerIndex(Layers(g), n) < |Layers(g)|
    ensures forall k, n :: 0 <= k < |Layers(g)| && n in Layers(g)[k] ==> LayerIndex(Layers(g), n) == k
  {
    forall n | n in g.nodes ensures LayerIndex(Layers(g), n) < |Layers(g)| {
      NodeHasLayer(g, n);
    }
    forall k, n | 0 <= k < |Layers(g)| && n in Layers(g)[k] ensures LayerIndex(Layers(g), n) == k {
      LayerOfMember(g, k, n);
    }
  }

  lemma {:induction false} NodeHasLayer(g: Graph, n: Node)
    requires Closed(g) && Acyclic(g) && n in g.nodes
    ensures LayerIndex(Layers(g), n) < |Layers(g)|
    decreases |g.nodes|
  {
    var layer := Sources(g);
    SourcesNonEmpty(g);
    PeelKeeps(g, layer);
    PeelShrinks(g, layer);
    var h := Peel(g, layer);
    var L, M := Layers(g), Layers(h);
    assert L == [layer] + M;
    if n !in layer {
      NodeHasLayer(h, n);
      assert L[1..] == M;
    }
  }

  lemma {:induction false} LayerOfMember(g: Graph, k: int, n: Node)
    requires Closed(g) && Acyclic(g)
    requires 0 <= k < |Layers(g)| && n in Layers(g)[k]
    ensures LayerIndex(Layers(g), n) == k
    decreases |g.nodes|
  {
    var layer := Sources(g);
    SourcesNonEmpty(g);
    PeelKeeps(g, layer);
    PeelShrinks(g, layer);
    var h := Peel(g, layer);
    var L, M := Layers(g), Layers(h);
    assert L == [layer] + M;
    if k > 0 {
      LayersAreNodes(h);
      assert n in M[k - 1] && n in h.nodes;
      LayerOfMember(h, k - 1, n);
      assert L[1..] == M;
    }
  }

  /** Every edge goes from an earlier layer to a later one. */
  lemma {:induction false} EdgesClimb(g: Graph)
    requires Closed(g) && Acyclic(g)
    ensures forall e :: e in g.edges ==> LayerIndex(Layers(g), e.0) < LayerIndex(Layers(g), e.1)
    decreases |g.nodes|
  {
    if g.nodes != {} {
      var layer := Sources(g);
      SourcesNonEmpty(g);
      PeelKeeps(g, layer);
      PeelShrinks(g, layer);
      var h := Peel(g, layer);
      EdgesClimb(h);
      var L, M := Layers(g), Layers(h);
      assert L == [layer] + M;
      forall e | e in g.edges ensures LayerIndex(L, e.0) < LayerIndex(L, e.1) {
        assert e.1 !in layer by {
          assert !IsSource(g, e.1);
        }
        if e.0 !in layer {
          assert e in h.edges;
          assert LayerIndex(L, e.0) == 1 + LayerIndex(M, e.0);
        }
        assert LayerIndex(L, e.1) == 1 + LayerIndex(M, e.1);
      }
    }
  }

  /** A node beyond the first layer has a predecessor in the layer before. */
  lemma {:induction false} LayerTight(g: Graph, k: int, n: Node) returns (p: Node)
    requires Closed(g) && Acyclic(g)
    requires 1 <= k < |Layers(g)| && n in Layers(g)[k]
    ensures p in Layers(g)[k - 1] && (p, n) in g.edges
    decreases |g.nodes|
  {
    var layer := Sources(g);
    SourcesNonEmpty(g);
    PeelKeeps(g, layer);
    PeelShrinks(g, layer);
    var h := Peel(g, layer);
    var L, M := Layers(g), Layers(h);
    assert L == [layer] + M;
    assert n in M[k - 1];
    if k == 1 {
      LayersAreNodes(h);
      assert n in h.nodes && !IsSource(g, n);
      var e :| e in g.edges && e.1 == n;
      assert IsSource(h, n);
      assert e !in h.edges;
      p := e.0;
      assert e == (p, n);
    } else {
      p := LayerTight(h, k - 1, n);
    }
  }

  /**
   * No ordering of the matches into rounds that puts the start of every edge
   * in an earlier round than its end can do with fewer rounds: a node of
   * layer k gets round >= k + 1 from any such ordering.
   */
  lemma {:induction false} LayeringIsShortest(g: Graph, rank: Node -> int, k: nat, n: Node)
    requires Closed(g) && Acyclic(g)
    requires forall e :: e in g.edges ==> rank(e.0) < rank(e.1)
    requires forall p :: p in g.nodes ==> rank(p) >= 1
    requires k < |Layers(g)| && n in Layers(g)[k]
    ensures rank(n) >= k + 1
  {
    if k > 0 {
      var p := LayerTight(g, k, n);
      LayeringIsShortest(g, rank, k - 1, p);
    }
  }

  /** Along a walk of the graph the layer index strictly increases. */
  lemma {:induction false} PathClimbs(g: Graph, path: seq<Node>)
    requires Closed(g) && Acyclic(g)
    requires |path| >= 2 && IsPath(g.edges, path)
    ensures LayerIndex(Layers(g), path[0]) < LayerIndex(Layers(g), path[|path| - 1])
    decreases |path|
  {
    EdgesClimb(g);
    assert (path[0], path[1]) in g.edges;
    if |path| > 2 {
      assert IsPath(g.edges, path[1..]);
      PathClimbs(g, path[1..]);
    }
  }
}

=== FILE: optimality.dfy ===
/**
 * Why the graph-layering schedule is the answer for a well-formed priority:
 * it is a single round robin, every team meets its opponents in the order it
 * wished, and no schedule with both properties has fewer rounds.
 */
module Optimality {
  import opened Types
  import opened Graphs
  import opened Layering
  import opened Schedules
  import opened Converter
  import opened Topological

  /** Every team meets the opponents it lists earlier in earlier rounds. */
  ghost predicate RespectsPriority(s: Schedule, tp: TeamPriority) {
    forall t, m, m', r, r' ::
      && t in tp.opponents && 0 <= m < m' < |tp.opponents[t]|
      && t in s && r in s[t] && r' in s[t]
      && s[t][r] == Versus(tp.opponents[t][m]) && s[t][r'] == Versus(tp.opponents[t][m'])
      ==> r < r'
  }

  /** g is the priority graph of a well-formed priority: a node per match
      of 1..N and an edge per pair of consecutive opponents. */
  ghost predicate IsPriorityGraph(tp: TeamPriority, g: Graph) {
    && WellFormed(tp)
    && Closed(g)
    && (forall e :: e in g.edges <==> IsTeamEdge(tp, e))
    && (forall p :: p in g.nodes <==> 1 <= p.0 < p.1 <= tp.NumTeams())
  }

  /** The converter builds the priority graph of a well-formed priority, so
      every match names two rows 1..N and the layering solver never raises
      a key error on it. */
  lemma BuiltGraphFitsTeams(tp: TeamPriority)
    requires WellFormed(tp)
    ensures IsPriorityGraph(tp, BuildGraph(tp))
    ensures Closed(BuildGraph(tp)) && TeamsIn(BuildGraph(tp), tp.NumTeams())
  {
    GraphNodes(tp);
  }

  /** Team t's consecutive-opponent edges are edges of the priority graph. */
  lemma TeamEdgesInGraph(tp: TeamPriority, g: Graph, t: int)
    requires IsPriorityGraph(tp, g) && t in tp.opponents
    ensures Elems(TeamEdges(t, tp.opponents[t])) <= g.edges
  {
    var s := tp.opponents[t];
    var es := TeamEdges(t, s);
    forall e | e in Elems(es) ensures IsTeamEdge(tp, e) {
      var m :| 0 <= m < |es| && es[m] == e;
      assert e == (Canon(t, s[m]), Canon(t, s[m + 1]));
    }
  }

  /** A stretch of a walk along a larger edge set is a walk. */
  lemma SubWalk(E: set<Edge>, F: set<Edge>, path: seq<Node>, a: int, b: int)
    requires IsPath(E, path) && E <= F && 0 <= a < b < |path|
    ensures IsPath(F, path[a..b + 1]) && |path[a..b + 1]| >= 2
    ensures path[a..b + 1][0] == path[a] && path[a..b + 1][b - a] == path[b]
  {
    var sub := path[a..b + 1];
    forall q | 0 <= q < |sub| - 1 ensures (sub[q], sub[q + 1]) in F {
      assert (path[a + q], path[a + q + 1]) in E;
    }
  }

  /** For every team, an opponent listed earlier is played in an earlier
      layer. */
  lemma OrderClimbs(tp: TeamPriority, g: Graph, t: int, m: int, m': int)
    requires IsPriorityGraph(tp, g) && Acyclic(g) && t in tp.opponents
    requires 0 <= m < m' < |tp.opponents[t]|
    ensures var L, s := Layers(g), tp.opponents[t];
      LayerIndex(L, Canon(t, s[m])) < LayerIndex(L, Canon(t, s[m']))
  {
    var s := tp.opponents[t];
    assert IsOpponentOrder(s, t, tp.NumTeams());
    TeamEdgesInGraph(tp, g, t);
    var walk := TeamStretch(t, s, g.edges, m, m');
    PathClimbs(g, walk);
  }

  /** The stretch of team t's priority path from its m-th to its m'-th
      opponent is a walk along any edge set holding t's edges. */
  lemma TeamStretch(t: int, s: seq<int>, E: set<Edge>, m: int, m': int) returns (walk: seq<Node>)
    requires Distinct(s) && Elems(TeamEdges(t, s)) <= E
    requires 0 <= m < m' < |s|
    ensures |walk| >= 2 && IsPath(E, walk)
    ensures walk[0] == Canon(t, s[m]) && walk[|walk| - 1] == Canon(t, s[m'])
  {
    var path := TeamPath(t, s);
    TeamPathAlongEdges(t, s);
    SubWalk(Elems(TeamEdges(t, s)), E, path, m, m');
    walk := path[m..m' + 1];
  }

  /** A match of 1..N involving t lies on t's priority path. */
  lemma OnTeamPath(tp: TeamPriority, t: int, p: Node) returns (x: int)
    requires WellFormed(tp) && t in tp.opponents
    requires 1 <= p.0 < p.1 <= tp.NumTeams() && (p.0 == t || p.1 == t)
    ensures 0 <= x < |tp.opponents[t]| && p == Canon(t, tp.opponents[t][x])
  {
    var path := TeamPath(t, tp.opponents[t]);
    TeamPathCovers(tp, t);
    assert (p.0, p.1) in path;
    x :| 0 <= x < |path| && path[x] == p;
  }

  /** No layer holds two matches of the same team. */
  lemma TeamOnceInLayer(tp: TeamPriority, g: Graph, t: int, k: int, a: Node, b: Node)
    requires IsPriorityGraph(tp, g) && Acyclic(g) && 1 <= t <= tp.NumTeams()
    requires 0 <= k < |Layers(g)|
    requires a in Layers(g)[k] && b in Layers(g)[k]
    requires (a.0 == t || a.1 == t) && (b.0 == t || b.1 == t)
    ensures a == b
  {
    var L := Layers(g);
    LayersAreNodes(g);
    LayersCover(g);
    assert LayerIndex(L, a) == k && LayerIndex(L, b) == k;
    var x := OnTeamPath(tp, t, a);
    var y := OnTeamPath(tp, t, b);
    if x < y {
      OrderClimbs(tp, g, t, x, y);
    } else if y < x {
      OrderClimbs(tp, g, t, y, x);
    }
    assert x == y;
  }

  /** A meeting written in round r of a layer schedule is a match of layer
      r - 1 between two different teams of 1..N. */
  lemma CellMatch(tp: TeamPriority, g: Graph, s: Schedule, i: int, r: int)
    requires IsPriorityGraph(tp, g) && Acyclic(g)
    requires IsLayerSchedule(s, tp.NumTeams(), Layers(g))
    requires 1 <= i <= tp.NumTeams() && 1 <= r <= |Layers(g)| && s[i][r].Versus?
    ensures var j := s[i][r].opponent; var L := Layers(g);
      1 <= j <= tp.NumTeams() && j != i && Canon(i, j) in L[r - 1] && LayerIndex(L, Canon(i, j)) == r - 1
  {
    var L := Layers(g);
    var j := s[i][r].opponent;
    assert LayerCell(s[i][r], i, L[r - 1]);
    LayersAreNodes(g);
    LayersCover(g);
    if (i, j) in L[r - 1] {
      assert (i, j) in g.nodes;
    } else {
      assert (j, i) in g.nodes;
    }
  }

  /** Two different teams of 1..N meet in the round after the index of
      their match's layer. */
  lemma MatchCell(tp: TeamPriority, g: Graph, s: Schedule, i: int, j: int)
    requires IsPriorityGraph(tp, g) && Acyclic(g)
    requires IsLayerSchedule(s, tp.NumTeams(), Layers(g))
    requires 1 <= i <= tp.NumTeams() && 1 <= j <= tp.NumTeams() && i != j
    ensures var L := Layers(g); var k := LayerIndex(L, Canon(i, j));
      k < |L| && s[i][k + 1] == Versus(j)
  {
    var L := Layers(g);
    var p := Canon(i, j);
    assert p in g.nodes;
    NodeHasLayer(g, p);
    var k := LayerIndex(L, p);
    var c := s[i][k + 1];
    assert LayerCell(c, i, L[k]);
    assert c != Bye;
    var q := if (i, c.opponent) in L[k] then (i, c.opponent) else (c.opponent, i);
    TeamOnceInLayer(tp, g, i, k, p, q);
  }

  /** On a well-formed priority the layer schedule is a single round robin
      over as many rounds as there are layers. */
  lemma LayerScheduleIsRoundRobin(tp: TeamPriority, g: Graph, s: Schedule)
    requires IsPriorityGraph(tp, g) && Acyclic(g)
    requires IsLayerSchedule(s, tp.NumTeams(), Layers(g))
    ensures IsRoundRobin(s, tp.NumTeams(), |Layers(g)|)
  {
    LayerScheduleMutual(tp, g, s);
    LayerScheduleMeetsOnce(tp, g, s);
  }

  lemma LayerScheduleMutual(tp: TeamPriority, g: Graph, s: Schedule)
    requires IsPriorityGraph(tp, g) && Acyclic(g)
    requires IsLayerSchedule(s, tp.NumTeams(), Layers(g))
    ensures Mutual(s, tp.NumTeams())
  {
    forall i, j, r | i in s && r in s[i] && s[i][r] == Versus(j)
      ensures 1 <= j <= tp.NumTeams() && j != i && j in s && r in s[j] && s[j][r] == Versus(i)
    {
      MeetingIsMutual(tp, g, s, i, j, r);
    }
  }

  lemma LayerScheduleMeetsOnce(tp: TeamPriority, g: Graph, s: Schedule)
    requires IsPriorityGraph(tp, g) && Acyclic(g)
    requires IsLayerSchedule(s, tp.NumTeams(), Layers(g))
    ensures MeetsEachOnce(s, tp.NumTeams())
  {
    forall i, j | i in s && 1 <= j <= tp.NumTeams() && j != i ensures |MeetRounds(s[i], j)| == 1 {
      MeetsOnce(tp, g, s, i, j);
    }
  }

  lemma MeetingIsMutual(tp: TeamPriority, g: Graph, s: Schedule, i: int, j: int, r: int)
    requires IsPriorityGraph(tp, g) && Acyclic(g)
    requires IsLayerSchedule(s, tp.NumTeams(), Layers(g))
    requires i in s && r in s[i] && s[i][r] == Versus(j)
    ensures 1 <= j <= tp.NumTeams() && j != i && j in s && r in s[j] && s[j][r] == Versus(i)
  {
    CellMatch(tp, g, s, i, r);
    MatchCell(tp, g, s, j, i);
    assert Canon(j, i) == Canon(i, j);
  }

  lemma MeetsOnce(tp: TeamPriority, g: Graph, s: Schedule, i: int, j: int)
    requires IsPriorityGraph(tp, g) && Acyclic(g)
    requires IsLayerSchedule(s, tp.NumTeams(), Layers(g))
    requires 1 <= i <= tp.NumTeams() && 1 <= j <= tp.NumTeams() && i != j
    ensures |MeetRounds(s[i], j)| == 1
  {
    var L := Layers(g);
    MatchCell(tp, g, s, i, j);
    var k := LayerIndex(L, Canon(i, j));
    forall r | r in MeetRounds(s[i], j) ensures r == k + 1 {
      CellMatch(tp, g, s, i, r);
    }
    assert MeetRounds(s[i], j) == {k + 1};
  }

  /** On a well-formed priority the layer schedule plays every team's
      opponents in the order the team listed them. */
  lemma LayerScheduleRespectsPriority(tp: TeamPriority, g: Graph, s: Schedule)
    requires IsPriorityGraph(tp, g) && Acyclic(g)
    requires IsLayerSchedule(s, tp.NumTeams(), Layers(g))
    ensures RespectsPriority(s, tp)
  {
    var L := Layers(g);
    forall t, m, m', r, r' |
      && t in tp.opponents && 0 <= m < m' < |tp.opponents[t]|
      && t in s && r in s[t] && r' in s[t]
      && s[t][r] == Versus(tp.opponents[t][m]) && s[t][r'] == Versus(tp.opponents[t][m'])
      ensures r < r'
    {
      CellMatch(tp, g, s, t, r);
      CellMatch(tp, g, s, t, r');
      OrderClimbs(tp, g, t, m, m');
    }
  }

  /** The round in which the teams of match p meet (0 when they never do). */
  ghost function MeetRound(s: Schedule, p: Node): int {
    if p.0 in s && MeetRounds(s[p.0], p.1) != {} then
      var S := MeetRounds(s[p.0], p.1);
      assert (forall x :: x !in S) ==> S == {};
      var r :| r in S; r
    else 0
  }

  /** In a round robin, team k meets u in round MeetRound of their match. */
  lemma MeetRoundIsRound(s: Schedule, n: int, rounds: int, k: int, u: int)
    requires IsRoundRobin(s, n, rounds) && 1 <= k <= n && 1 <= u <= n && k != u
    ensures var r := MeetRound(s, Canon(k, u));
      1 <= r <= rounds && r in s[k] && s[k][r] == Versus(u)
  {
    var p := Canon(k, u);
    assert |MeetRounds(s[p.0], p.1)| == 1;
    var r := MeetRound(s, p);
    assert r in MeetRounds(s[p.0], p.1);
  }

  /**
   * No round robin that respects the priorities needs fewer rounds than the
   * layer schedule has: the priority graph is then acyclic, and the rounds
   * of the matches rank its nodes along every edge, so the last layer's
   * matches come no earlier than round |layers|.
   */
  lemma LayeringIsFewest(tp: TeamPriority, g: Graph, s: Schedule, rounds: int)
    requires IsPriorityGraph(tp, g) && IsRoundRobin(s, tp.NumTeams(), rounds) && rounds >= 0
    requires RespectsPriority(s, tp)
    ensures Acyclic(g) && |Layers(g)| <= rounds
  {
    var n := tp.NumTeams();
    var rank := p => MeetRound(s, p);
    forall e | e in g.edges ensures rank(e.0) < rank(e.1) {
      EdgeRanks(tp, g, s, rounds, e);
    }
    RankedIsAcyclic(g, rank);
    forall p | p in g.nodes ensures 1 <= rank(p) <= rounds {
      MeetRoundIsRound(s, n, rounds, p.0, p.1);
    }
    var L := Layers(g);
    if |L| > 0 {
      LayersAreNodes(g);
      var last :| last in L[|L| - 1];
      LayeringIsShortest(g, rank, |L| - 1, last);
      assert last in g.nodes;
    }
  }

  /** Every edge of the priority graph goes to a later meeting round. */
  lemma EdgeRanks(tp: TeamPriority, g: Graph, s: Schedule, rounds: int, e: Edge)
    requires IsPriorityGraph(tp, g) && IsRoundRobin(s, tp.NumTeams(), rounds)
    requires RespectsPriority(s, tp) && e in g.edges
    ensures MeetRound(s, e.0) < MeetRound(s, e.1)
  {
    var n := tp.NumTeams();
    var k, m :| k in tp.opponents && 0 <= m < |tp.opponents[k]| - 1 &&
      e == (Canon(k, tp.opponents[k][m]), Canon(k, tp.opponents[k][m + 1]));
    var o := tp.opponents[k];
    assert IsOpponentOrder(o, k, n);
    assert o[m] in o && o[m + 1] in o;
    MeetRoundIsRound(s, n, rounds, k, o[m]);
    MeetRoundIsRound(s, n, rounds, k, o[m + 1]);
  }
}

=== FILE: problem.dfy ===
/**
 * The integer programming problems of the second generation of the engine:
 * the base model and the consecutive-bye model. Unlike the base model of
 * `IntegerPlanning`, they keep the solver's raw status and read the
 * schedule back from the solution on demand.
 */
module Problems {
  import opened Types
  import opened Sums
  import opened Schedules
  import opened IntegerProgram
  import opened IntegerPlanning

  /** The two concrete problems, as a closed set of variants. */
  datatype Variant = Base | MinimizeConsecutiveByes

  // ---------------------------------------------------------------------
  // The consecutive-bye objective
  // ---------------------------------------------------------------------

  /** r |-> m[i, r] for r >= 2 (m has no round 1). */
  function MRow(m: MValues, i: int): int -> int {
    r => if r >= 2 then m(i, r) else 0
  }

  /** i |-> sum over r = 2..rounds of m[i, r] */
  function MTeam(m: MValues, rounds: int): int -> int {
    i => Sum(MRow(m, i), rounds)
  }

  /** sum over i = 1..n, r = 2..rounds of m[i, r]: the maximized objective. */
  function MObjective(n: int, rounds: int, m: MValues): int {
    Sum(MTeam(m, rounds), n)
  }

  /** m set to 1 everywhere. */
  function AllOnes(): MValues {
    (i, r) => 1
  }

  /** As written, (7) only bounds m from below, so m = 1 everywhere satisfies
      it for every binary y and reaches the largest possible objective
      n * (R - 1): the maximization cannot tell schedules apart. */
  lemma ConsecutiveObjectiveIgnoresByes(n: int, rounds: int, y: YValues, m: MValues)
    requires n >= 0 && rounds >= 1
    requires forall i, r :: 1 <= i <= n && 1 <= r <= rounds ==> y(i, r) == 0 || y(i, r) == 1
    requires ConsecutiveByes(n, rounds, y, m)
    ensures ConsecutiveByes(n, rounds, y, AllOnes())
    ensures MObjective(n, rounds, m) <= MObjective(n, rounds, AllOnes()) == n * (rounds - 1)
  {
    AllOnesFeasible(n, rounds, y);
    AllOnesBest(n, rounds, y, m);
  }

  /** m = 1 everywhere satisfies (7) as written for every binary y. */
  lemma AllOnesFeasible(n: int, rounds: int, y: YValues)
    requires forall i, r :: 1 <= i <= n && 1 <= r <= rounds ==> y(i, r) == 0 || y(i, r) == 1
    ensures ConsecutiveByes(n, rounds, y, AllOnes())
  {
    forall i, r | 1 <= i <= n && 2 <= r <= rounds
      ensures y(i, r - 1) <= AllOnes()(i, r) + y(i, r)
    {
      assert y(i, r - 1) <= 1 && y(i, r) >= 0;
    }
  }

  /** No feasible m beats m = 1 everywhere, whose objective is n * (R - 1). */
  lemma AllOnesBest(n: int, rounds: int, y: YValues, m: MValues)
    requires n >= 0 && rounds >= 1
    requires ConsecutiveByes(n, rounds, y, m)
    ensures MObjective(n, rounds, m) <= MObjective(n, rounds, AllOnes()) == n * (rounds - 1)
  {
    forall i | 1 <= i <= n
      ensures MTeam(m, rounds)(i) <= MTeam(AllOnes(), rounds)(i) == rounds - 1
    {
      TeamBound(n, rounds, y, m, i);
    }
    SumLe(MTeam(m, rounds), MTeam(AllOnes(), rounds), n);
    SumExt(MTeam(AllOnes(), rounds), t => rounds - 1, n);
    SumConst(rounds - 1, n);
  }

  lemma TeamBound(n: int, rounds: int, y: YValues, m: MValues, i: int)
    requires rounds >= 1 && 1 <= i <= n
    requires ConsecutiveByes(n, rounds, y, m)
    ensures MTeam(m, rounds)(i) <= MTeam(AllOnes(), rounds)(i) == rounds - 1
  {
    SumLe(MRow(m, i), MRow(AllOnes(), i), rounds);
    SumFromTwo(i, rounds);
  }

  /** sum over r = 1..n of (1 when r >= 2) is n - 1. */
  lemma {:induction false} SumFromTwo(i: int, n: int)
    requires n >= 1
    ensures Sum(MRow(AllOnes(), i), n) == n - 1
    decreases n
  {
    if n > 1 {
      SumFromTwo(i, n - 1);
    }
  }

  /** (7) with the two upper bounds it evidently needs: m[i, r] <= y[i, r - 1]
      and m[i, r] + y[i, r] <= 1. */
  ghost predicate ConsecutiveByesCorrected(n: int, rounds: int, y: YValues, m: MValues) {
    && ConsecutiveByes(n, rounds, y, m)
    && (forall i, r :: 1 <= i <= n && 2 <= r <= rounds ==> m(i, r) <= y(i, r - 1) && m(i, r) + y(i, r) <= 1)
  }

  /** r |-> 1 when team i has a bye in round r - 1 and plays in round r. */
  function BreakMark(y: YValues, i: int): int -> int {
    r => if r >= 2 && y(i, r - 1) == 1 && y(i, r) == 0 then 1 else 0
  }

  /** i |-> how often team i's byes are followed by a match. */
  function Breaks(y: YValues, rounds: int): int -> int {
    i => Sum(BreakMark(y, i), rounds)
  }

  /** Over binary y, the corrected (7) makes m exactly the marker of a bye
      followed by a match, so the objective counts those and rewards
      spreading byes out. */
  lemma CorrectedObjectiveCountsBreaks(n: int, rounds: int, y: YValues, m: MValues)
    requires forall i, r :: 1 <= i <= n && 1 <= r <= rounds ==> y(i, r) == 0 || y(i, r) == 1
    requires ConsecutiveByesCorrected(n, rounds, y, m)
    ensures forall i, r :: 1 <= i <= n && 2 <= r <= rounds ==> (m(i, r) == 1 <==> y(i, r - 1) == 1 && y(i, r) == 0)
    ensures MObjective(n, rounds, m) == Sum(Breaks(y, rounds), n)
  {
    forall i | 1 <= i <= n ensures MTeam(m, rounds)(i) == Breaks(y, rounds)(i) {
      SumExt(MRow(m, i), BreakMark(y, i), rounds);
    }
    SumExt(MTeam(m, rounds), Breaks(y, rounds), n);
  }

  // ---------------------------------------------------------------------
  // Counting byes
  // ---------------------------------------------------------------------

  /** Every cell (i, 1..rounds) can be looked up. */
  predicate HasCells(s: Schedule, i: int, rounds: int) {
    rounds < 1 || (i in s && forall q :: 1 <= q <= rounds ==> q in s[i])
  }

  /** Counts the bye cells of teams 1..n over rounds 1..rounds, looking
      each cell up; a missing team or cell is a missing key. */
  method CountByes(s: Schedule, n: int, rounds: int) returns (r: Result<int>)
    ensures r.Ok? <==> forall i :: 1 <= i <= n ==> HasCells(s, i, rounds)
    ensures r.Err? ==> r.error == MissingKey
    ensures r.Ok? ==> r.value == Sum(ByeTally(s, rounds), n)
  {
    var count := 0;
    var i := 1;
    while i <= n
      invariant 1 <= i && (i == 1 || i <= n + 1)
      invariant forall t :: 1 <= t < i ==> HasCells(s, t, rounds)
      invariant count == Sum(ByeTally(s, rounds), i - 1)
    {
      var ok, row := CountTeamByes(s, i, rounds);
      if !ok {
        return Err(MissingKey);
      }
      count := count + row;
      i := i + 1;
    }
    return Ok(count);
  }

  /** The inner loop of the count: team i's cells 1..rounds, looked up one
      by one; `ok` is false at the first missing key. */
  method CountTeamByes(s: Schedule, i: int, rounds: int) returns (ok: bool, row: int)
    ensures ok <==> HasCells(s, i, rounds)
    ensures ok ==> row == ByeTally(s, rounds)(i)
  {
    var q := 1;
    row := 0;
    while q <= rounds
      invariant 1 <= q && (q == 1 || q <= rounds + 1)
      invariant forall p :: 1 <= p < q ==> i in s && p in s[i]
      invariant q > 1 ==> i in s && row == Sum(CellMark(s[i], Bye), q - 1)
      invariant q == 1 ==> row == 0
    {
      if !(i in s && q in s[i]) {
        return false, row;
      }
      if s[i][q] == Bye {
        row := row + 1;
      }
      q := q + 1;
    }
    ok := true;
  }

  /** Every cell of a round robin can be looked up, and the byes add up to
      n * (R - (n - 1)). */
  lemma RoundRobinCells(s: Schedule, n: int, rounds: int)
    requires IsRoundRobin(s, n, rounds) && n >= 1 && rounds >= 1
    ensures forall i :: 1 <= i <= n ==> HasCells(s, i, rounds)
    ensures Sum(ByeTally(s, rounds), n) == n * (rounds - (n - 1))
  {
    RoundRobinTotalByes(s, n, rounds);
  }

  /** Counting the byes of a round robin finds every cell and gives
      n * (R - (n - 1)). */
  method CountRoundRobinByes(s: Schedule, n: int, rounds: int) returns (r: Result<int>)
    requires IsRoundRobin(s, n, rounds) && (n >= 1 ==> rounds >= 1)
    ensures r.Ok? && (n >= 0 ==> r.value == n * (rounds - (n - 1)))
  {
    if n >= 1 {
      RoundRobinCells(s, n, rounds);
    }
    r := CountByes(s, n, rounds);
  }

  // ---------------------------------------------------------------------
  // The problem object
  // ---------------------------------------------------------------------

  /**
   * A base or consecutive-bye problem for `numRounds` rounds. `status` is
   * the solver's raw status code; x, y and m are the values of the solution
   * the solver reported. The solver itself is not modelled: `Solve` receives
   * its outcome.
   */
  class Problem {
    const variant: Variant
    const numTeams: int
    const numRounds: int
    const tpArray: PriorityArray
    var status: int
    var x: XValues
    var y: YValues
    var m: MValues

    /** A reported optimum satisfies the constraints of the problem that was
        built, (7) as the program states it for the consecutive-bye variant. */
    ghost predicate Valid()
      reads this
    {
      status == GRB_OPTIMAL ==>
        && !BuildFails(numTeams, numRounds, tpArray)
        && Feasible(numTeams, numRounds, tpArray, x, y)
        && (variant == MinimizeConsecutiveByes ==> ConsecutiveByes(numTeams, numRounds, y, m))
    }

    constructor (variant: Variant, numTeams: int, numRounds: int, tpArray: PriorityArray)
      ensures this.variant == variant && this.numTeams == numTeams && this.numRounds == numRounds
      ensures this.tpArray == tpArray
      ensures status == LOADED && Valid()
    {
      this.variant := variant;
      this.numTeams := numTeams;
      this.numRounds := numRounds;
      this.tpArray := tpArray;
      status := LOADED;
      x := (i, j, r) => 0;
      y := (i, r) => 0;
      m := (i, r) => 0;
    }

    /**
     * Builds the variables, the constraints and the objective of the
     * variant, runs the solver and keeps its status and solution. A failed
     * build raises a missing key and changes nothing.
     */
    method Solve(outcome: SolverOutcome) returns (raised: Option<Error>)
      requires !BuildFails(numTeams, numRounds, tpArray) && outcome.status == GRB_OPTIMAL ==>
        && Feasible(numTeams, numRounds, tpArray, outcome.x, outcome.y)
        && (variant == MinimizeConsecutiveByes ==> ConsecutiveByes(numTeams, numRounds, outcome.y, outcome.m))
      requires Valid()
      modifies this
      ensures Valid()
      ensures raised.Some? <==> BuildFails(numTeams, numRounds, tpArray)
      ensures raised.Some? ==> raised.value == MissingKey && unchanged(this)
      ensures raised.None? ==> status == outcome.status && x == outcome.x && y == outcome.y && m == outcome.m
    {
      if BuildFails(numTeams, numRounds, tpArray) {
        return Some(MissingKey);
      }
      status, x, y, m := outcome.status, outcome.x, outcome.y, outcome.m;
      return None;
    }

    function GetStatus(): (s: int)
      reads this
      ensures s == status
    {
      status
    }

    /** The status check: OPTIMAL passes; LOADED, INFEASIBLE and any other
        status raise their own error. */
    function CheckStatus(): (r: Option<Error>)
      reads this
      ensures r.None? <==> status == OPTIMAL
      ensures r.Some? ==> r.value == StatusError(status)
    {
      if status == OPTIMAL then None else Some(StatusError(status))
    }

    /** Checks the status, then reads the schedule back from the solution;
        of an optimum it is a single round robin. */
    method GetSchedule() returns (r: Result<Schedule>)
      requires Valid()
      ensures r.Err? <==> status != OPTIMAL
      ensures r.Err? ==> r.error == StatusError(status)
      ensures r.Ok? ==> IsReadBack(r.value, x, y, numTeams, numRounds)
      ensures r.Ok? ==> IsRoundRobin(r.value, numTeams, numRounds)
    {
      var check := CheckStatus();
      if check.Some? {
        return Err(check.value);
      }
      var s := ReadSchedule(numTeams, numRounds, x, y);
      ReadBackIsRoundRobin(numTeams, numRounds, tpArray, x, y, s);
      return Ok(s);
    }

    /** The number of bye cells of the schedule: n * (R - (n - 1)) for an
        optimum. */
    method GetNumByes() returns (r: Result<int>)
      requires Valid()
      ensures r.Err? <==> status != OPTIMAL
      ensures r.Err? ==> r.error == StatusError(status)
      ensures r.Ok? && numTeams >= 0 ==> r.value == numTeams * (numRounds - (numTeams - 1))
    {
      var s := GetSchedule();
      if s.Err? {
        return Err(s.error);
      }
      assert numTeams >= 1 ==> numRounds >= 1;
      r := CountRoundRobinByes(s.value, numTeams, numRounds);
    }
  }
}

=== FILE: schedules.dfy ===
/**
 * What a schedule is supposed to be: a row per team, a cell per round, and
 * every two teams meeting exactly once, with byes filling the other cells.
 */
module Schedules {
  import opened Types
  import opened Sums

  /** Rows for the teams 1..n, each with a cell for every round 1..rounds. */
  ghost predicate HasShape(s: Schedule, n: int, rounds: int) {
    && (forall i :: i in s <==> 1 <= i <= n)
    && (forall i :: i in s ==> forall r :: r in s[i] <==> 1 <= r <= rounds)
  }

  /** Nobody meets itself or a team outside 1..n, and every meeting is
      written in both teams' rows. */
  ghost predicate Mutual(s: Schedule, n: int) {
    forall i, j, r :: i in s && r in s[i] && s[i][r] == Versus(j) ==>
      1 <= j <= n && j != i && j in s && r in s[j] && s[j][r] == Versus(i)
  }

  /** The rounds in which a row meets `j`. */
  function MeetRounds(row: map<int, Slot>, j: int): set<int> {
    set r | r in row && row[r] == Versus(j)
  }

  /** The rounds in which a row has a bye. */
  function ByeRounds(row: map<int, Slot>): set<int> {
    set r | r in row && row[r] == Bye
  }

  /** Every team meets every other team exactly once. */
  ghost predicate MeetsEachOnce(s: Schedule, n: int) {
    forall i, j :: i in s && 1 <= j <= n && j != i ==> |MeetRounds(s[i], j)| == 1
  }

  /** A single round robin of the teams 1..n played over `rounds` rounds. */
  ghost predicate IsRoundRobin(s: Schedule, n: int, rounds: int) {
    HasShape(s, n, rounds) && Mutual(s, n) && MeetsEachOnce(s, n)
  }

  /** r |-> 1 when the row's cell r is `c`. */
  function CellMark(row: map<int, Slot>, c: Slot): int -> int {
    r => if r in row && row[r] == c then 1 else 0
  }

  /** The rounds 1..hi of a row holding `c`. */
  function CellsUpTo(row: map<int, Slot>, c: Slot, hi: int): set<int> {
    set r | r in row && 1 <= r <= hi && row[r] == c
  }

  /** Counting the cells holding `c` is summing their marks. */
  lemma {:induction false} CellsCount(row: map<int, Slot>, c: Slot, hi: int)
    ensures |CellsUpTo(row, c, hi)| == Sum(CellMark(row, c), hi)
    decreases hi
  {
    if hi < 1 {
      assert CellsUpTo(row, c, hi) == {};
    } else {
      CellsCount(row, c, hi - 1);
      CellsUpToStep(row, c, hi);
    }
  }

  /** Extending the range by round hi adds that round's cell when it holds
      `c`. */
  lemma CellsUpToStep(row: map<int, Slot>, c: Slot, hi: int)
    requires hi >= 1
    ensures |CellsUpTo(row, c, hi)| == |CellsUpTo(row, c, hi - 1)| + CellMark(row, c)(hi)
  {
    if hi in row && row[hi] == c {
      CellsUpToGrow(row, c, hi);
    } else {
      assert CellsUpTo(row, c, hi) == CellsUpTo(row, c, hi - 1);
    }
  }

  lemma CellsUpToGrow(row: map<int, Slot>, c: Slot, hi: int)
    requires hi >= 1 && hi in row && row[hi] == c
    ensures |CellsUpTo(row, c, hi)| == |CellsUpTo(row, c, hi - 1)| + 1
  {
    var below := CellsUpTo(row, c, hi - 1);
    assert hi !in below;
    assert CellsUpTo(row, c, hi) == below + {hi};
  }

  /** Over a row with the cells 1..rounds, the bye rounds and the rounds
      against `j` are counted by sums of marks. */
  lemma RowCounts(row: map<int, Slot>, rounds: int, j: int)
    requires forall r :: r in row <==> 1 <= r <= rounds
    ensures |ByeRounds(row)| == Sum(CellMark(row, Bye), rounds)
    ensures |MeetRounds(row, j)| == Sum(CellMark(row, Versus(j)), rounds)
  {
    CellsCount(row, Bye, rounds);
    CellsCount(row, Versus(j), rounds);
    assert ByeRounds(row) == CellsUpTo(row, Bye, rounds);
    assert MeetRounds(row, j) == CellsUpTo(row, Versus(j), rounds);
  }

  /** Team i's row over the rounds 1..rounds: every cell is a bye or a
      meeting with another team of 1..n. */
  ghost predicate IsTeamRow(row: map<int, Slot>, i: int, n: int, rounds: int) {
    && (forall r :: r in row <==> 1 <= r <= rounds)
    && (forall r, j :: r in row && row[r] == Versus(j) ==> 1 <= j <= n && j != i)
  }

  /** j |-> 1 when the row meets j in round r. */
  function MeetColumn(row: map<int, Slot>, r: int): int -> int {
    j => if r in row && row[r] == Versus(j) then 1 else 0
  }

  /** Each cell of a team row is exactly one thing: a bye or one meeting. */
  lemma CellIsOneThing(row: map<int, Slot>, i: int, n: int, rounds: int, r: int)
    requires IsTeamRow(row, i, n, rounds) && 1 <= r <= rounds
    ensures CellMark(row, Bye)(r) + Sum(MeetColumn(row, r), n) == 1
  {
    var col := MeetColumn(row, r);
    assert r in row;
    if row[r] == Bye {
      SumExt(col, t => 0, n);
      SumConst0(n);
    } else {
      var o := row[r].opponent;
      assert row[r] == Versus(o);
      assert OnlyOne(col, o, n);
      SumOnlyOne(col, o, n);
    }
  }

  /** A team row meeting each other team once has rounds - (n - 1) byes. */
  lemma RowByes(row: map<int, Slot>, i: int, n: int, rounds: int)
    requires IsTeamRow(row, i, n, rounds) && 1 <= i <= n && rounds >= 0
    requires forall j :: 1 <= j <= n && j != i ==> |MeetRounds(row, j)| == 1
    ensures |ByeRounds(row)| == rounds - (n - 1)
  {
    var g := (j, r) => CellMark(row, Versus(j))(r);
    var meets := r => Sum(j => g(j, r), n);
    forall r | 1 <= r <= rounds
      ensures CellMark(row, Bye)(r) + meets(r) == 1
    {
      forall j | 1 <= j <= n ensures g(j, r) == MeetColumn(row, r)(j) {
        assert g(j, r) == CellMark(row, Versus(j))(r);
      }
      SumExt(j => g(j, r), MeetColumn(row, r), n);
      CellIsOneThing(row, i, n, rounds, r);
    }
    SumAffine(meets, CellMark(row, Bye), 1, rounds);
    SumSwap(g, n, rounds);
    var met := j => Sum(r => g(j, r), rounds);
    forall j | 1 <= j <= n ensures met(j) == if j == i then 0 else 1 {
      SumExt(r => g(j, r), CellMark(row, Versus(j)), rounds);
      RowCounts(row, rounds, j);
      if j == i {
        assert MeetRounds(row, j) == {};
      }
    }
    SumAllBut(met, i, n);
    RowCounts(row, rounds, i);
  }

  /** In a round robin every team has rounds - (n - 1) byes: each of its
      cells is a bye or one of its n - 1 meetings. */
  lemma RoundRobinByes(s: Schedule, n: int, rounds: int, i: int)
    requires IsRoundRobin(s, n, rounds) && i in s && rounds >= 0
    ensures |ByeRounds(s[i])| == rounds - (n - 1)
  {
    assert IsTeamRow(s[i], i, n, rounds);
    RowByes(s[i], i, n, rounds);
  }

  /** i |-> the number of byes in rounds 1..rounds of team i's row. */
  function ByeTally(s: Schedule, rounds: int): int -> int {
    i => if i in s then Sum(CellMark(s[i], Bye), rounds) else 0
  }

  /** In a round robin of n teams over R rounds there are n * (R - (n - 1))
      byes in all. */
  lemma RoundRobinTotalByes(s: Schedule, n: int, rounds: int)
    requires IsRoundRobin(s, n, rounds) && n >= 0 && rounds >= 0
    ensures Sum(ByeTally(s, rounds), n) == n * (rounds - (n - 1))
  {
    EveryTeamByeTally(s, n, rounds);
    SumOfConstant(ByeTally(s, rounds), rounds - (n - 1), n);
  }

  lemma EveryTeamByeTally(s: Schedule, n: int, rounds: int)
    requires IsRoundRobin(s, n, rounds) && rounds >= 0
    ensures forall i :: 1 <= i <= n ==> ByeTally(s, rounds)(i) == rounds - (n - 1)
  {
    forall i | 1 <= i <= n ensures ByeTally(s, rounds)(i) == rounds - (n - 1) {
      RoundRobinByes(s, n, rounds, i);
      RowCounts(s[i], rounds, i);
    }
  }
}

=== FILE: search.dfy ===
/**
 * The round-count search shared by every controller of the engine: starting
 * from N - 1 rounds, solve for R = N - 1, N, ... up to a bound and stop at
 * the first R the solver reports optimal.
 */
module Search {
  import opened Types

  /** The least R in lo..hi with ok(R), if there is one. */
  function FirstOptimal(ok: int -> bool, lo: int, hi: int): (r: Option<int>)
    ensures r.Some? ==> lo <= r.value <= hi && ok(r.value)
    ensures r.Some? ==> forall q :: lo <= q < r.value ==> !ok(q)
    ensures r.None? <==> forall q :: lo <= q <= hi ==> !ok(q)
    decreases hi - lo
  {
    if lo > hi then None
    else if ok(lo) then Some(lo)
    else FirstOptimal(ok, lo + 1, hi)
  }

  /** The round count a controller is left with: the R found, or one past
      the bound when the search ran out (the start when it never ran). */
  function FinalRounds(ok: int -> bool, lo: int, hi: int): (r: int)
    ensures FirstOptimal(ok, lo, hi).Some? ==> r == FirstOptimal(ok, lo, hi).value
    ensures FirstOptimal(ok, lo, hi).None? ==> r == if lo <= hi then hi + 1 else lo
  {
    match FirstOptimal(ok, lo, hi)
    case Some(q) => q
    case None => if lo <= hi then hi + 1 else lo
  }

  /** Raising the bound never changes a search that succeeded below it. */
  lemma {:induction false} FirstOptimalMonotone(ok: int -> bool, lo: int, hi: int, hi2: int)
    requires hi <= hi2 && FirstOptimal(ok, lo, hi).Some?
    ensures FirstOptimal(ok, lo, hi2) == FirstOptimal(ok, lo, hi)
    decreases hi - lo
  {
    if !ok(lo) {
      FirstOptimalMonotone(ok, lo + 1, hi, hi2);
    }
  }

  /** The search finds R when R is the first round count in range at which
      it may stop. */
  lemma FirstOptimalAt(ok: int -> bool, lo: int, hi: int, R: int)
    requires lo <= R <= hi && ok(R)
    requires forall q :: lo <= q < R ==> !ok(q)
    ensures FirstOptimal(ok, lo, hi) == Some(R)
  {
    var f := FirstOptimal(ok, lo, hi);
    assert f.Some?;
    assert !(f.value < R);
  }

  /** When the search may stop exactly from some round count t on, if at
      all, it finds t if t is within the bound and nothing otherwise. */
  lemma FirstOptimalThreshold(ok: int -> bool, lo: int, hi: int, stops: bool, t: int)
    requires stops ==> lo <= t
    requires forall q :: lo <= q ==> (ok(q) <==> stops && t <= q)
    ensures var f := FirstOptimal(ok, lo, hi);
      && (f.Some? <==> stops && t <= hi)
      && (f.Some? ==> f.value == t)
  {
    if stops && t <= hi {
      FirstOptimalAt(ok, lo, hi, t);
    }
  }
}

=== FILE: sums.dfy ===
/**
 * Finite sums f(1) + ... + f(n), as the integer programs write them with
 * quicksum over a range, and the facts about 0/1 sums the constraint
 * families rest on.
 */
module Sums {


  /** f(1) + ... + f(n). */
  function Sum(f: int -> int, n: int): int
    decreases n
  {
    if n < 1 then 0 else Sum(f, n - 1) + f(n)
  }

  /** f is 0/1 on 1..n. */
  ghost predicate Binary1(f: int -> int, n: int) {
    forall t :: 1 <= t <= n ==> f(t) == 0 || f(t) == 1
  }

  lemma {:induction false} SumExt(f: int -> int, g: int -> int, n: int)
    requires forall t :: 1 <= t <= n ==> f(t) == g(t)
    ensures Sum(f, n) == Sum(g, n)
    decreases n
  {
    if n >= 1 {
      SumExt(f, g, n - 1);
    }
  }

  lemma {:induction false} SumBounds(f: int -> int, n: int)
    requires Binary1(f, n)
    ensures 0 <= Sum(f, n) && (n >= 0 ==> Sum(f, n) <= n)
    decreases n
  {
    if n >= 1 {
      SumBounds(f, n - 1);
    }
  }

  /** A 0/1 sum is 0 only when every term is. */
  lemma {:induction false} SumZero(f: int -> int, n: int)
    requires Binary1(f, n)
    ensures Sum(f, n) == 0 <==> forall t :: 1 <= t <= n ==> f(t) == 0
    decreases n
  {
    if n >= 1 {
      SumZero(f, n - 1);
      SumBounds(f, n - 1);
    }
  }

  /** f(t) is the only 1 among f(1), ..., f(n). */
  ghost predicate OnlyOne(f: int -> int, t: int, n: int) {
    1 <= t <= n && f(t) == 1 && forall u :: 1 <= u <= n && u != t ==> f(u) == 0
  }

  /** A 0/1 sum is 1 exactly when a single term is 1. */
  lemma SumOne(f: int -> int, n: int)
    requires Binary1(f, n)
    ensures Sum(f, n) == 1 <==> exists t :: OnlyOne(f, t, n)
  {
    if Sum(f, n) == 1 {
      var t := SumOneWitness(f, n);
    }
    if exists t :: OnlyOne(f, t, n) {
      var t :| OnlyOne(f, t, n);
      SumOnlyOne(f, t, n);
    }
  }

  /** A 0/1 sum of 1 has a single term 1. */
  lemma {:induction false} SumOneWitness(f: int -> int, n: int) returns (t: int)
    requires Binary1(f, n) && Sum(f, n) == 1
    ensures OnlyOne(f, t, n)
    decreases n
  {
    SumBounds(f, n - 1);
    if f(n) == 1 {
      SumZero(f, n - 1);
      t := n;
    } else {
      t := SumOneWitness(f, n - 1);
    }
  }

  /** A single term 1 among 0s sums to 1. */
  lemma {:induction false} SumOnlyOne(f: int -> int, t: int, n: int)
    requires OnlyOne(f, t, n)
    ensures Sum(f, n) == 1
    decreases n
  {
    if t == n {
      SumExt(f, u => 0, n - 1);
      SumConst0(n - 1);
    } else {
      SumOnlyOne(f, t, n - 1);
    }
  }

  /** Sums of terms that differ by constants. */
  lemma {:induction false} SumAffine(f: int -> int, g: int -> int, c: int, n: int)
    requires n >= 0
    requires forall t :: 1 <= t <= n ==> g(t) == c - f(t)
    ensures Sum(g, n) == c * n - Sum(f, n)
    decreases n
  {
    if n >= 1 {
      SumAffine(f, g, c, n - 1);
    }
  }

  /** The sum of pointwise sums. */
  lemma {:induction false} SumAdd(f: int -> int, g: int -> int, h: int -> int, n: int)
    requires forall t :: 1 <= t <= n ==> h(t) == f(t) + g(t)
    ensures Sum(h, n) == Sum(f, n) + Sum(g, n)
    decreases n
  {
    if n >= 1 {
      SumAdd(f, g, h, n - 1);
    }
  }

  /** Row sums of g over 1..n x 1..R add up to its column sums. */
  lemma {:induction false} SumSwap(g: (int, int) -> int, n: int, rounds: int)
    ensures Sum(r => Sum(j => g(j, r), n), rounds) == Sum(j => Sum(r => g(j, r), rounds), n)
    decreases rounds
  {
    if rounds >= 1 {
      SumSwap(g, n, rounds - 1);
      SumAdd(j => Sum(r => g(j, r), rounds - 1), j => g(j, rounds), j => Sum(r => g(j, r), rounds), n);
    } else {
      SumExt(j => Sum(r => g(j, r), rounds), j => 0, n);
      SumConst0(n);
    }
  }

  lemma {:induction false} SumConst0(n: int)
    ensures Sum(t => 0, n) == 0
    decreases n
  {
    if n >= 1 {
      SumConst0(n - 1);
    }
  }

  lemma {:induction false} SumConst(c: int, n: int)
    requires n >= 0
    ensures Sum(t => c, n) == c * n
    decreases n
  {
    if n >= 1 {
      SumConst(c, n - 1);
    }
  }

  /** A function constant on 1..n sums to n times the constant. */
  lemma SumOfConstant(f: int -> int, c: int, n: int)
    requires n >= 0 && forall t :: 1 <= t <= n ==> f(t) == c
    ensures Sum(f, n) == n * c
  {
    SumExt(f, t => c, n);
    SumConst(c, n);
  }

  /** Sums are monotone. */
  lemma {:induction false} SumLe(f: int -> int, g: int -> int, n: int)
    requires forall t :: 1 <= t <= n ==> f(t) <= g(t)
    ensures Sum(f, n) <= Sum(g, n)
    decreases n
  {
    if n >= 1 {
      SumLe(f, g, n - 1);
    }
  }

  /** Exactly the n - 1 indices other than i contribute 1. */
  lemma {:induction false} SumAllBut(f: int -> int, i: int, n: int)
    requires 1 <= i <= n
    requires forall t :: 1 <= t <= n ==> f(t) == if t == i then 0 else 1
    ensures Sum(f, n) == n - 1
  {
    var ind := t => if t == i then 1 else 0;
    SumOnlyOne(ind, i, n);
    SumAffine(ind, f, 1, n);
  }
}

=== FILE: topological.dfy ===
/**
 * The graph-layering algorithm: it rejects a priority graph with a cycle,
 * and otherwise plays, round after round, every match that no remaining
 * match must precede, until the graph is empty.
 */
module Topological {
  import opened Types
  import opened Graphs
  import opened Layering
  import opened Schedules
  import Converter

  /** Cell `c` of team i in the round that plays `layer`: a bye exactly when
      no match of the layer involves i, otherwise a match of the layer
      between i and the opponent. */
  ghost predicate LayerCell(c: Slot, i: int, layer: set<Node>) {
    && (c == Bye <==> forall m :: m in layer ==> m.0 != i && m.1 != i)
    && (c.Versus? ==> (i, c.opponent) in layer || (c.opponent, i) in layer)
  }

  /** Rows 1..n, one round per layer, and round r plays layer r - 1. */
  ghost predicate IsLayerSchedule(s: Schedule, n: int, L: seq<set<Node>>) {
    && HasShape(s, n, |L|)
    && forall i, r :: 1 <= i <= n && 1 <= r <= |L| ==> LayerCell(s[i][r], i, L[r - 1])
  }

  /** Match m names two teams of 1..n, both rows of the schedule. */
  ghost predicate InRange(m: Node, n: int) {
    1 <= m.0 <= n && 1 <= m.1 <= n
  }

  /** Every node names two teams of 1..n. */
  ghost predicate TeamsIn(g: Graph, n: int) {
    forall m :: m in g.nodes ==> InRange(m, n)
  }

  /** Some element of a non-empty set of nodes. */
  method PickNode(s: set<Node>) returns (m: Node)
    requires s != {}
    ensures m in s
  {
    assert (forall x :: x !in s) ==> s == {};
    m :| m in s;
  }

  class TopologicalSortAlgorithm {
    const numTeams: int
    var g: Graph
    var status: int
    var schedule: Schedule

    /** create_from_graph: the algorithm keeps its own copy of the graph. A
        networkx graph holds both ends of each of its edges as nodes, so the
        graph handed over is closed. */
    constructor FromGraph(n: int, G: Graph)
      requires Closed(G)
      ensures numTeams == n && g == G && Closed(g)
      ensures status == LOADED && schedule == map[]
    {
      numTeams := n;
      g := G;
      status := LOADED;
      schedule := map[];
    }

    /** create_from_team_priority: one team per dictionary entry, and the
        priority graph built by the converter. */
    constructor FromTeamPriority(tp: TeamPriority)
      requires tp.IsDict()
      ensures numTeams == tp.NumTeams() && g == Converter.BuildGraph(tp)
      ensures status == LOADED && schedule == map[]
    {
      numTeams := tp.NumTeams();
      g := Converter.BuildGraph(tp);
      status := LOADED;
      schedule := map[];
    }

    /** _is_feasible: a topological order of the graph exists. */
    predicate IsFeasible()
      reads this
    {
      Acyclic(g)
    }

    /**
     * solve: an infeasible graph only sets the status; a feasible one is
     * consumed, and round r of the schedule plays the r-th layer of the
     * original graph. A match naming a team outside 1..N has no row to be
     * written into: the key error is raised once the status is OPTIMAL.
     */
    method Solve() returns (raised: Option<Error>)
      requires Closed(g)
      modifies this
      ensures !old(Acyclic(g)) ==> status == INFEASIBLE && raised.None? && schedule == old(schedule) && g == old(g)
      ensures old(Acyclic(g)) ==> status == OPTIMAL
      ensures raised.Some? <==> old(Acyclic(g)) && !TeamsIn(old(g), numTeams)
      ensures raised.Some? ==> raised.value == MissingKey
      ensures old(Acyclic(g)) && raised.None? ==>
        g == Graph({}, {}) && IsLayerSchedule(schedule, numTeams, Layers(old(g)))
    {
      raised := None;
      if !IsFeasible() {
        status := INFEASIBLE;
        return;
      }
      status := OPTIMAL;
      schedule := EmptyRows(numTeams);
      ghost var g0 := g;
      ghost var done: seq<set<Node>> := [];
      var round := 1;
      while g.nodes != {}
        invariant status == OPTIMAL && raised.None?
        invariant Closed(g) && Acyclic(g)
        invariant Closed(g0) && Acyclic(g0) && g0 == old(g)
        invariant g.nodes <= g0.nodes
        invariant forall m :: m in g0.nodes && m !in g.nodes ==> InRange(m, numTeams)
        invariant Layers(g0) == done + Layers(g)
        invariant round == |done| + 1
        invariant IsLayerSchedule(schedule, numTeams, done)
        decreases |g.nodes|
      {
        ghost var before := g;
        var layer, r := PlayRound(round, done);
        if r.Some? {
          ghost var w :| w in before.nodes && !InRange(w, numTeams);
          assert w in g0.nodes;
          return r;
        }
        LayersExtend(Layers(g0), done, Layers(before), layer, Layers(g));
        done := done + [layer];
        round := round + 1;
      }
      assert TeamsIn(g0, numTeams);
      NoNodesNoEdges(g);
    }

    /** One pass of the outer loop: byes for everybody, then the sources of
        the graph are played and removed. */
    method PlayRound(round: int, ghost done: seq<set<Node>>) returns (layer: set<Node>, raised: Option<Error>)
      requires Closed(g) && Acyclic(g) && g.nodes != {}
      requires round == |done| + 1 && IsLayerSchedule(schedule, numTeams, done)
      modifies this
      ensures status == old(status)
      ensures raised.Some? ==> raised.value == MissingKey && exists m :: m in old(g).nodes && !InRange(m, numTeams)
      ensures raised.None? ==>
        && Closed(g) && Acyclic(g) && |g.nodes| < |old(g).nodes| && g.nodes <= old(g).nodes
        && (forall m :: m in old(g).nodes && m !in g.nodes ==> InRange(m, numTeams))
        && old(Layers(g)) == [layer] + Layers(g)
        && IsLayerSchedule(schedule, numTeams, done + [layer])
    {
      ghost var before := g;
      MarkByes(round, done);
      layer := Sources(g);
      SourcesNonEmpty(g);
      raised := PlaceLayer(layer, round, done);
      if raised.None? {
        LayersStep(before);
      }
    }

    /** Every team starts the round with a bye. */
    method MarkByes(round: int, ghost done: seq<set<Node>>)
      requires round == |done| + 1 && IsLayerSchedule(schedule, numTeams, done)
      modifies this
      ensures g == old(g) && status == old(status)
      ensures HasShape(schedule, numTeams, round)
      ensures forall i, r :: 1 <= i <= numTeams && 1 <= r < round ==> schedule[i][r] == old(schedule)[i][r]
      ensures forall i :: 1 <= i <= numTeams ==> schedule[i][round] == Bye
    {
      var i := 1;
      while i <= numTeams
        invariant 1 <= i && (numTeams >= 0 ==> i <= numTeams + 1)
        invariant g == old(g) && status == old(status)
        invariant schedule.Keys == old(schedule).Keys
        invariant forall t :: t in schedule ==>
          schedule[t] == if t < i then old(schedule)[t][round := Bye] else old(schedule)[t]
      {
        schedule := schedule[i := schedule[i][round := Bye]];
        i := i + 1;
      }
    }

    /**
     * The inner pass: every match of `layer` is written into both teams'
     * rows for this round and removed from the graph; the first match with
     * a team outside 1..N stops the pass with a key error.
     */
    method PlaceLayer(layer: set<Node>, round: int, ghost done: seq<set<Node>>) returns (raised: Option<Error>)
      requires layer <= g.nodes && Closed(g)
      requires round == |done| + 1 && HasShape(schedule, numTeams, round)
      requires forall i :: 1 <= i <= numTeams ==> schedule[i][round] == Bye
      requires forall i, r :: 1 <= i <= numTeams && 1 <= r < round ==> LayerCell(schedule[i][r], i, done[r - 1])
      modifies this
      ensures status == old(status)
      ensures raised.Some? ==> raised.value == MissingKey && exists m :: m in layer && !InRange(m, numTeams)
      ensures raised.None? ==>
        && (forall m :: m in layer ==> InRange(m, numTeams))
        && g == Peel(old(g), layer)
        && IsLayerSchedule(schedule, numTeams, done + [layer])
    {
      ghost var g0 := g;
      ghost var placed: set<Node> := {};
      var todo := layer;
      raised := None;
      PeelNothing(g);
      while todo != {}
        invariant todo !! placed && todo + placed == layer
        invariant forall m :: m in placed ==> InRange(m, numTeams)
        invariant g == Peel(g0, placed) && Closed(g)
        invariant status == old(status) && raised.None?
        invariant HasShape(schedule, numTeams, round)
        invariant forall i, r :: 1 <= i <= numTeams && 1 <= r < round ==> schedule[i][r] == old(schedule)[i][r]
        invariant forall i :: 1 <= i <= numTeams ==> LayerCell(schedule[i][round], i, placed)
        decreases |todo|
      {
        var m := PickNode(todo);
        raised := PlaceMatch(m, round, placed);
        if raised.Some? {
          return;
        }
        PeelOneMore(g0, placed, m);
        g := RemoveNode(g, m);
        todo := todo - {m};
        placed := placed + {m};
      }
      PlacedRound(schedule, numTeams, done, layer);
    }

    /** One match (a, b): a meets b and b meets a in this round. A team
        without a row raises the key error; when only b lacks one, a's cell
        has already been written. */
    method PlaceMatch(m: Node, round: int, ghost placed: set<Node>) returns (raised: Option<Error>)
      requires m !in placed
      requires HasShape(schedule, numTeams, round) && round >= 1
      requires forall i :: 1 <= i <= numTeams ==> LayerCell(schedule[i][round], i, placed)
      modifies this
      ensures g == old(g) && status == old(status)
      ensures raised.Some? <==> !InRange(m, numTeams)
      ensures raised.Some? ==> raised.value == MissingKey
      ensures raised.None? ==>
        && HasShape(schedule, numTeams, round)
        && (forall i, r :: 1 <= i <= numTeams && 1 <= r < round ==> schedule[i][r] == old(schedule)[i][r])
        && (forall i :: 1 <= i <= numTeams ==> LayerCell(schedule[i][round], i, placed + {m}))
    {
      if m.0 !in schedule {
        return Some(MissingKey);
      }
      if m.1 !in schedule {
        schedule := schedule[m.0 := schedule[m.0][round := Versus(m.1)]];
        return Some(MissingKey);
      }
      PlayedShape(schedule, numTeams, round, m);
      PlayedCells(schedule, numTeams, round, m, placed);
      schedule := Played(schedule, m, round);
      return None;
    }
  }

  /** The schedule with match m written in round r of both teams' rows. */
  function Played(s: Schedule, m: Node, r: int): Schedule
    requires m.0 in s && m.1 in s
  {
    var s1 := s[m.0 := s[m.0][r := Versus(m.1)]];
    s1[m.1 := s1[m.1][r := Versus(m.0)]]
  }

  /** Writing a match into the current round keeps the shape and the earlier
      rounds. */
  lemma PlayedShape(s: Schedule, n: int, round: int, m: Node)
    requires InRange(m, n)
    requires HasShape(s, n, round) && round >= 1
    ensures HasShape(Played(s, m, round), n, round)
    ensures forall i, r :: 1 <= i <= n && 1 <= r < round ==> Played(s, m, round)[i][r] == s[i][r]
  {
  }

  /** Writing a match of the layer into the current round keeps every cell
      of the round a cell of the layer placed so far. */
  lemma PlayedCells(s: Schedule, n: int, round: int, m: Node, placed: set<Node>)
    requires InRange(m, n) && m !in placed
    requires HasShape(s, n, round) && round >= 1
    requires forall i :: 1 <= i <= n ==> LayerCell(s[i][round], i, placed)
    ensures forall i :: 1 <= i <= n ==> LayerCell(Played(s, m, round)[i][round], i, placed + {m})
  {
    var t := Played(s, m, round);
    forall i | 1 <= i <= n ensures LayerCell(t[i][round], i, placed + {m}) {
      if i != m.0 && i != m.1 {
        assert t[i] == s[i];
      }
    }
  }

  /** Rows for the teams 1..n, all still empty. */
  function EmptyRows(n: int): (s: Schedule)
    ensures HasShape(s, n, 0)
    decreases n
  {
    if n <= 0 then map[] else EmptyRows(n - 1)[n := map[]]
  }

  /** A closed graph without nodes has no edges. */
  lemma NoNodesNoEdges(g: Graph)
    requires Closed(g) && g.nodes == {}
    ensures g == Graph({}, {})
  {
    assert forall e :: e in g.edges ==> e.0 in g.nodes;
  }

  /** Removing the sources of a non-empty acyclic graph splits off its first
      layer and leaves a smaller closed acyclic graph. */
  lemma LayersStep(g: Graph)
    requires Closed(g) && Acyclic(g) && g.nodes != {}
    ensures var h := Peel(g, Sources(g));
      Closed(h) && Acyclic(h) && |h.nodes| < |g.nodes| && Layers(g) == [Sources(g)] + Layers(h)
  {
    SourcesNonEmpty(g);
    PeelKeeps(g, Sources(g));
    PeelShrinks(g, Sources(g));
  }

  /** Splitting one more layer off the remaining layers extends the layers
      done by it. */
  lemma LayersExtend(all: seq<set<Node>>, done: seq<set<Node>>, rest: seq<set<Node>>, layer: set<Node>, after: seq<set<Node>>)
    requires all == done + rest && rest == [layer] + after
    ensures all == (done + [layer]) + after
  {
  }

  /** Peeling nothing leaves the graph as it is. */
  lemma PeelNothing(g: Graph)
    ensures Peel(g, {}) == g
  {
    assert Peel(g, {}).edges == g.edges;
  }

  /** Once the whole layer is placed, the new round extends the layer
      schedule by that layer. */
  lemma PlacedRound(s: Schedule, n: int, done: seq<set<Node>>, layer: set<Node>)
    requires HasShape(s, n, |done| + 1)
    requires forall i, r :: 1 <= i <= n && 1 <= r < |done| + 1 ==> LayerCell(s[i][r], i, done[r - 1])
    requires forall i :: 1 <= i <= n ==> LayerCell(s[i][|done| + 1], i, layer)
    ensures IsLayerSchedule(s, n, done + [layer])
  {
    var L := done + [layer];
    forall i, r | 1 <= i <= n && 1 <= r <= |L| ensures LayerCell(s[i][r], i, L[r - 1]) {
      if r <= |done| {
        assert L[r - 1] == done[r - 1];
      }
    }
  }
}

=== FILE: types.dfy ===
/**
 * Shared vocabulary of the match-ordering engine: team priorities, the
 * precedence table, schedules, status codes and the error tags raised by the
 * status gates.
 */
module Types {

  datatype Option<T> = None | Some(value: T)

  /** The exceptions the engine raises, as tags. */
  datatype Error =
    | NotRunningSolveMethod   // a result was read before solve()
    | InfeasibleInstance      // a result was read after solve() found no schedule
    | UnknownStatus(status: int) // any other status reaching a gate
    | AttributeMissing        // the status attribute was never assigned
    | ValueError              // bad arguments to the priority generator
    | MissingKey              // a dictionary lookup of an absent key

  datatype Result<T> = Ok(value: T) | Err(error: Error)

  /** Status codes of the engine (they coincide with the integer programming
      solver's own codes LOADED, OPTIMAL and INFEASIBLE). */
  const LOADED: int := 1
  const OPTIMAL: int := 2
  const INFEASIBLE: int := 3

  /** The solver's status code for a proven optimum. */
  const GRB_OPTIMAL: int := 2

  /** The error a status gate raises for a status other than OPTIMAL. */
  function StatusError(status: int): (e: Error)
    ensures status == LOADED <==> e == NotRunningSolveMethod
    ensures status == INFEASIBLE <==> e == InfeasibleInstance
    ensures status != LOADED && status != INFEASIBLE ==> e == UnknownStatus(status)
  {
    if status == LOADED then NotRunningSolveMethod
    else if status == INFEASIBLE then InfeasibleInstance
    else UnknownStatus(status)
  }

  /** The entry of the error dictionary for a status other than OPTIMAL:
      only LOADED and INFEASIBLE have one, any other status is a missing key. */
  function ErrorsEntry(status: int): (e: Error)
    ensures status == LOADED <==> e == NotRunningSolveMethod
    ensures status == INFEASIBLE <==> e == InfeasibleInstance
    ensures status != LOADED && status != INFEASIBLE <==> e == MissingKey
  {
    if status == LOADED then NotRunningSolveMethod
    else if status == INFEASIBLE then InfeasibleInstance
    else MissingKey
  }

  /** One cell of a schedule: a bye or the opponent met in that round. */
  datatype Slot = Bye | Versus(opponent: int)

  /** schedule[team][round] */
  type Schedule = map<int, map<int, Slot>>

  /** The precedence table: (k, i, j) |-> 1 when team k meets i before j. */
  type PriorityArray = map<(int, int, int), int>

  /**
   * A team priority as the source's dictionary: `teams` lists the keys in
   * insertion order, `opponents` maps each key to its wished order of
   * opponents.
   */
  datatype TeamPriority = TeamPriority(teams: seq<int>, opponents: map<int, seq<int>>)
  {
    /** The representation invariant of a dictionary: distinct keys, and the
        listed keys are exactly the mapped ones. */
    ghost predicate IsDict() {
      && Distinct(teams)
      && (forall x :: 0 <= x < |teams| ==> teams[x] in opponents)
      && (forall t :: t in opponents ==> t in teams)
    }

    function NumTeams(): nat { |teams| }
  }

  /** No element occurs twice. */
  predicate Distinct<T(==)>(s: seq<T>) {
    forall a, b :: 0 <= a < b < |s| ==> s[a] != s[b]
  }

  /** The elements of a sequence. */
  function Elems<T>(s: seq<T>): set<T> {
    set x | x in s
  }

  /** A sequence without repetitions has as many elements as its set. */
  lemma {:induction false} DistinctCard<T>(s: seq<T>)
    requires Distinct(s)
    ensures |Elems(s)| == |s|
  {
    if s != [] {
      DistinctSnoc(s);
      DistinctCard(s[..|s| - 1]);
    }
  }

  /** How many entries of `keys` lie in `S`. */
  function CountIn(keys: seq<int>, S: set<int>): nat {
    if keys == [] then 0
    else CountIn(keys[..|keys| - 1], S) + (if keys[|keys| - 1] in S then 1 else 0)
  }

  /** Over distinct keys, the count is the size of the intersection. */
  lemma {:induction false} CountInCard(keys: seq<int>, S: set<int>)
    requires Distinct(keys)
    ensures CountIn(keys, S) == |Elems(keys) * S|
  {
    if keys != [] {
      var init, last := keys[..|keys| - 1], keys[|keys| - 1];
      DistinctSnoc(keys);
      CountInCard(init, S);
      InterAddOne(Elems(init), last, S);
    }
  }

  /** Adding a new element to A adds one to |A * S| exactly when it is in S. */
  lemma InterAddOne(A: set<int>, x: int, S: set<int>)
    requires x !in A
    ensures |(A + {x}) * S| == |A * S| + (if x in S then 1 else 0)
  {
    if x in S {
      assert (A + {x}) * S == A * S + {x};
    } else {
      assert (A + {x}) * S == A * S;
    }
  }

  /** Splitting off the last element of a sequence without repetitions. */
  lemma DistinctSnoc<T>(s: seq<T>)
    requires Distinct(s) && s != []
    ensures Distinct(s[..|s| - 1])
    ensures s[|s| - 1] !in Elems(s[..|s| - 1])
    ensures Elems(s) == Elems(s[..|s| - 1]) + {s[|s| - 1]}
  {
    var init, last := s[..|s| - 1], s[|s| - 1];
    assert s == init + [last];
    forall x | 0 <= x < |init| ensures init[x] != last {
      assert s[x] == init[x];
    }
  }

  /** The team ids 1..n, in order. */
  function Ids(n: nat): (ids: seq<int>)
    ensures |ids| == n && forall i :: 0 <= i < n ==> ids[i] == i + 1
    ensures Distinct(ids)
    ensures forall u :: u in ids <==> 1 <= u <= n
  {
    if n == 0 then [] else Ids(n - 1) + [n]
  }

  /** The set 1..n. */
  function UpTo(n: int): (s: set<int>)
    ensures forall i :: i in s <==> 1 <= i <= n
    decreases n
  {
    if n < 1 then {} else UpTo(n - 1) + {n}
  }

  /** `s` lists every team of 1..n other than `t` exactly once. */
  ghost predicate IsOpponentOrder(s: seq<int>, t: int, n: int) {
    && Distinct(s)
    && (forall u :: u in s <==> 1 <= u <= n && u != t)
  }

  /**
   * The assumption the engine makes of its input without checking it: the
   * keys are the teams 1..N and every team's value is a permutation of the
   * other team ids.
   */
  ghost predicate WellFormed(tp: TeamPriority) {
    && tp.IsDict()
    && (forall t :: t in tp.opponents <==> 1 <= t <= tp.NumTeams())
    && (forall t :: t in tp.opponents ==> IsOpponentOrder(tp.opponents[t], t, tp.NumTeams()))
  }

  /** A team's opponent order has one entry per other team. */
  lemma OpponentOrderLength(s: seq<int>, t: int, n: nat)
    requires IsOpponentOrder(s, t, n) && 1 <= t <= n
    ensures |s| == n - 1
  {
    DistinctCard(s);
    DistinctCard(Ids(n));
    assert Elems(s) == Elems(Ids(n)) - {t};
  }

  /** Position of `u` in `s` (|s| when absent). */
  function IndexOf(s: seq<int>, u: int): (p: nat)
    ensures p <= |s|
    ensures p < |s| ==> s[p] == u
    ensures forall q :: 0 <= q < p ==> s[q] != u
    ensures u in s <==> p < |s|
  {
    if s == [] then 0
    else if s[0] == u then 0
    else 1 + IndexOf(s[1..], u)
  }

  /** Python's math.comb(n, 2). */
  function Choose2(n: int): int {
    if n < 2 then 0 else n * (n - 1) / 2
  }
}
